=== FILE: README.md ===
# OCPP charging-station simulator and central system, in Dafny

This project models the core of an OCPP 1.6-style electric-vehicle charging
system and proves properties of that model. The system has these parts:

- **Central system** (`server.js`). It registers charge points as they connect over
  WebSocket. It keeps one session record per charge point:
  - status, transaction, energy, state of charge;
  - remaining time and charge speed.

  It answers the charge points' Calls, persists sessions to a store, and relays
  operator commands from the dashboards. A once-a-second tick simulates charging.
- **Python station handler** (`OCPP_handler.py`, `OCPP_message.py`). A scripted
  station that answers the central system's Calls and scripts the
  RemoteStart/RemoteStop sequences.
- **Phone station** (`mobile-app/public/app.js`) and **customer page**
  (`public/customer/app.js`). Browser charge points with plug/EV toggles, a meter,
  a local session save, and handlers for the central system's remote commands.
- **Operator dashboard** (`public/app.js`). Station cards with an action button and
  load lamps, a traffic log, the transaction history filter and the usage charts.
- **SCADA board** (`public/SCADA/app.js`). The station list, its search, and the
  detail view.
- **HMI tag generator** (`generate_tags.js`). One WinCC tag per station and variable.

Each component is a Dafny module, in one file:

| file | module | component |
|---|---|---|
| `common.dfy` | `Common` | `Option` |
| `text.dfy` | `Text` | digits and decimal text |
| `json.dfy` | `Json` | JSON values, JavaScript and Python truthiness, `||`, `==`, `===`, `parseFloat` |
| `frames.dfy` | `Frames` | the three OCPP-J message frames |
| `clock.dfy` | `Clock` | `formatTimeRemaining` |
| `config.dfy` | `Configuration` | the stations' configuration store |
| `server.dfy` | `Server` | the central system's registry |
| `simulation.dfy` | `Simulation` | the charging tick |
| `messages.dfy` | `Messages` | the Python payload builders |
| `handler.dfy` | `Handler` | the Python handler |
| `stations.dfy` | `Stations` | what the two browser stations share |
| `mobile.dfy` | `Mobile` | the phone station |
| `customer.dfy` | `Customer` | the customer page |
| `dashboard.dfy` | `Dashboard` | the dashboard cards and log |
| `history.dfy` | `History` | the history filter and charts |
| `scada.dfy` | `Scada` | the SCADA board |
| `tags.dfy` | `Tags` | the tag generator |

How the source is represented:

- Every handler is a pure function from the old state and one event to the new
  state and what it sends.
- Clocks, uuids, random draws and stored records are parameters.
- Timers (the two-second settle, the RestoreSession delay, the five-second wipe)
  are separate events. The component returns them as scheduled work.
- A JavaScript handler that throws part-way keeps what it did before the throw.
  Where the model matters, it has `None` or stops the walk at that point.

Where the intended design and the code differ, the model follows the code:

- StartTransaction is accepted in any state.
- A Faulted report does not end a transaction.
- Stopping is not idempotent: `Server.RepeatedStopWritesTwice` proves a second
  store write.
- A station that drops keeps its last status rather than becoming Unavailable.
- Finishing resumes on reconnect but is not kept on close.
- The central system's BootNotification interval is 300 seconds. The Python
  builders default to 200.
- An explicitly empty GetConfiguration key list reports nothing in the browsers
  and everything in Python.

## Model

| member | source | states |
|---|---|---|
| Clock.FormatTimeRemaining | server.js:75-83 | non-finite or negative hours give `--:--:--`; otherwise the text is floor(hours*3600) seconds as hours, minutes below 60 and seconds below 60, each at least two digits |
| Clock.ParseFormatHms | server.js:75-83 | the clock text reads back as the hours, minutes and seconds it was written from |
| Clock.UnknownIsNotAClock | server.js:76 | the placeholder is never a clock reading |
| Clock.FormatKnownIsClock | server.js:75-83 | the placeholder appears exactly for non-finite or negative input |
| Configuration.Find | OCPP_handler.py:86 | the position of the first item with the key, or none exactly when no item has it |
| Configuration.Change | OCPP_handler.py:83-93 | an unknown key is NotSupported and a readonly key Rejected, both leaving the store unchanged; a writable key takes the new value |
| Configuration.ChangeThenRead | OCPP_handler.py:86-89 | after an accepted change the key reads back the value just written |
| Configuration.ChangeKeepsKeys | OCPP_handler.py:83-93 | a change never adds, removes, reorders or re-flags keys |
| Configuration.WritableNeverRejects | mobile-app/public/app.js:1312-1321 | a store with no readonly key never answers Rejected and stays without readonly keys |
| Configuration.AllKeys | OCPP_handler.py:97-98 | the key list of an empty request is every store key, in store order |
| Configuration.KnownNames | OCPP_handler.py:101-107 | reference list: only keys the store holds, in request order |
| Configuration.UnknownKeys | OCPP_handler.py:108-109 | reference list: only requested keys the store lacks |
| Configuration.Entries | OCPP_handler.py:103-107 | one `{key, readonly, value}` description per known name |
| Configuration.PartitionFromSpec | OCPP_handler.py:99-109 | the accumulating loop equals the two reference lists appended to what was accumulated |
| Configuration.PartitionSpec | OCPP_handler.py:99-110 | GetConfiguration's two lists are the descriptions of the known keys and the unknown keys, each in request order |
| Configuration.KnownNamesCover | OCPP_handler.py:101-109 | every requested key lands in exactly one of the two lists |
| Configuration.AllKnown | OCPP_handler.py:101-109 | a request of known keys only leaves the unknown list empty |
| Configuration.AllKeysKnown | OCPP_handler.py:96-110 | asking for every key reports all of them and nothing unknown |
| Frames.FromToJson | OCPP_handler.py:176-182 | every Call, CallResult or CallError reads back from its array encoding as itself |
| Frames.ToFromJson | OCPP_handler.py:176-182 | whatever reads as a frame is exactly that frame's array encoding |
| Frames.ToFrame | OCPP_message.py:11-15 | replies become CallResults and failures CallErrors on the same id; requests become Calls |
| Server.KeptSessionsResume | server.js:1240-1247 | every status kept on close is among the reconnect-resumable statuses of line 798; Finishing resumes but is not kept |
| Server.Connect | server.js:786-848 | observer paths and locked ids change nothing; a resumable session keeps its record and entry with a new socket, the old one terminated; any other connection starts a fresh record and leaves the old socket open, detached with its record and entry identity; other stations are untouched and the registry stays valid |
| Server.FreshRecord | server.js:821-830 | a first connection starts Connecting, with no transaction, zero energy, normal speed, the default state of charge and the placeholder time |
| Server.FirstWhere | server.js:1065-1066 | the first sample satisfying the test, or none exactly when no sample does |
| Server.Handle | server.js:850-1162 | only the currently registered socket is heard; a readable non-Call is only a heartbeat; a Call changes only its own station's session |
| Server.Close | server.js:1240-1263 | a current socket in Charging, SuspendedEV, SuspendedEVSE or Preparing leaves the session without a socket; any other current socket removes its entry; a stale socket changes no entry; the closed socket is no longer open |
| Server.Relay | server.js:602-776 | an operator command changes at most the target station; it neither adds nor removes a station and keeps the registry valid |
| Server.Settle | server.js:666-702 | the delayed half of a force stop acts only on the very entry that was stopped: registered, it settles that record and sends the RemoteStop when a socket is attached; dropped by a fresh connection with its socket still open, it settles the dropped record and sends on that socket; otherwise it is a no-op |
| Server.ReplacedSocketStillSettles | server.js:666-702 | after a fresh connection drops the stopped entry, its pending settle still resets the dropped record and sends the RemoteStop, and a later RestoreSession on that socket carries the reset record |
| Server.Restore | server.js:896-917 | the delayed RestoreSession is sent exactly when the booting socket is still open, registered or detached, carrying the record that socket holds |
| Server.ReplacedSocketStillRestores | server.js:823-899 | a fresh connection (lines 823-826) leaves the old socket open, so the old boot's RestoreSession still goes out on it with the old record |
| Server.ClosedSocketRestoresNothing | server.js:1233-1237 | once the replaced socket has closed (its killed handler closes it on exit, and line 899 checks it is open), its pending RestoreSession sends nothing |
| Server.Delete | server.js:498-519 | a delete with an id removes the station from the store and the registry and touches no other station |
| Server.DispatchCoherent | server.js:862-1147 | every Call keeps the session coherent (an open transaction has a starting state of charge; the time is a clock reading or the placeholder) |
| Server.ApplyPreserves | server.js:593-1263 | every connection, message, close, relay, settle, restore and delete event keeps the registry valid and every session coherent |
| Server.ReplacedConnectionIgnored | server.js:851-852 | after a reconnect, frames still arriving on the replaced socket are ignored |
| Server.SessionSurvivesReconnect | server.js:798-815 | a station that drops while charging, suspended or preparing and reconnects gets the same session record and entry back |
| Server.IdleSessionRestartsFresh | server.js:816-847 | a station that drops while idle or finishing starts over from a fresh record |
| Server.StatusNotificationRule | server.js:930-959 | after a reconnect with an open transaction a reported Available is refused and a SyncState snapshot is sent; any other report sets the status |
| Server.StartTransactionOpens | server.js:975-1023 | StartTransaction opens a transaction numbered by the current second, starts Charging from the reported meter, and confirms that number on the request's id |
| Server.StopTransactionCloses | server.js:1025-1054 | StopTransaction clears the transaction and energy and moves to Finishing; it is written to the store exactly when the reference is truthy and not RESTORED, with the reported reading when positive, else the server's energy |
| Server.RepeatedStopWritesTwice | server.js:1027-1032 | a repeated StopTransaction for the same number reaches the store a second time |
| Server.ChargingWithoutTransaction | server.js:955-957 | a Charging report without a transaction leaves the session Charging with no transaction |
| Server.UnhandledGetsNoReply | server.js:862-1147 | a Call the server does not handle gets no answer and changes nothing but the heartbeat |
| Server.MeterValuesRule | server.js:1056-1108 | MeterValues is answered `{}`; the last sample set's first energy sample sets the energy and restarts the clock, its first SoC sample sets the state of charge |
| Server.InitialSocRule | server.js:1127-1146 | SetInitialSoC takes effect only without a transaction and outside Charging |
| Server.BootRule | server.js:869-929 | a first boot makes the station Available, a resumed one keeps its status; a RestoreSession is scheduled exactly for a resumed station with a transaction; the reply is a CallResult on the boot's id |
| Server.OfflineStopCloses | server.js:719-769 | a RemoteStop for a station without a socket closes the session locally at Available with baseline energy and state of charge |
| Server.OfflineOtherCommandIgnored | server.js:770-772 | any other command for a station without a socket changes nothing |
| Server.OnlineStopThenSettle | server.js:621-711 | a RemoteStop for a connected station closes the transaction at once (written to the store only when it is a real one) and sends the stop; the settle brings the session to Available |
| Server.OnlineStartForwarded | server.js:615-620 | a RemoteStart is forwarded with the operator's idTag, or REMOTE_USER, on connector 1 |
| Server.SettleAfterReplacementIgnored | server.js:666-668 | a settle that fires after its entry was replaced leaves the new session alone |
| Simulation.PowerOf | server.js:21-25 | fast is 14.4 kW, lightning 21.6 kW, and anything else charges at 7.2 kW |
| Simulation.PhasesOf | server.js:27-31 | each speed energises one phase per 7.2 kW of its power |
| Simulation.TargetLimit | server.js:1275 | the target is a nonzero target state of charge, else 100 |
| Simulation.ToFixed0 | server.js:1327 | the rounded state of charge is within a half of the value, halves going away from zero |
| Simulation.ToFixed0Monotone | server.js:1327 | rounding never reverses the order of two values |
| Simulation.ToFixed0OfInteger | server.js:1327 | rounding a whole number gives it back |
| Simulation.Tick | server.js:1266-1380 | every station is ticked, the set of stations is unchanged, and exactly the stations with a socket receive a SyncState of their new session |
| Simulation.IdleTick | server.js:1276-1311 | a session that is not charging only has its simulation clock moved |
| Simulation.FullTickPins | server.js:1276-1283 | a full session is pinned at its target with time 00:00:00 and gains no energy |
| Simulation.DeliveredEnergy | server.js:1320 | kW times elapsed hours, in Wh, is never negative for elapsed time going forward |
| Simulation.ChargingTickEnergy | server.js:1313-1321 | a charging tick adds the speed's power over the elapsed time, so energy never falls while the clock moves forward |
| Simulation.ChargingTickSoc | server.js:1323-1331 | a charging tick's state of charge is the projection clamped to the target and rounded, never above the rounded target; the time is a clock reading |
| Simulation.NothingLeft | server.js:75-83 | zero hours left formats as 00:00:00 |
| Simulation.ReachingTargetPins | server.js:1276-1327 | once a tick projects the (whole) target, the state of charge equals it and the next tick pins the session with no energy added |
| Simulation.TickKeepsTransactions | server.js:1266-1380 | the tick never opens or closes a transaction and never changes a status |
| Simulation.TickPreserves | server.js:1266-1380 | the tick keeps the registry valid and every session coherent |
| Messages.CallResultMessage | OCPP_message.py:11-15 | the CallResult array reads back as a CallResult for that id and payload |
| Messages.StatusOnly | OCPP_message.py:56-65 | a confirmation holding only the given status |
| Messages.BootPayload | OCPP_message.py:19-25 | exactly status, currentTime and interval, as given |
| Messages.HeartbeatPayload | OCPP_message.py:27-29 | exactly the current time |
| Messages.IdTagPayload | OCPP_message.py:31-35 | exactly an idTagInfo with the status |
| Messages.StartTransactionPayload | OCPP_message.py:37-42 | exactly the transaction id and an idTagInfo with the status |
| Messages.EmptyPayload | OCPP_message.py:48-54 | an object with no fields |
| Messages.GetConfigurationPayload | OCPP_message.py:67-73 | each list is present exactly when it was given |
| Messages.Defaults | OCPP_message.py:19-42 | the builders default to Accepted and to a 200-second interval |
| Handler.PyGet | OCPP_handler.py:84-85 | `dict.get` gives the field or the default, and raises on a non-dict payload |
| Handler.PyHas | OCPP_handler.py:86 | `k in dict` agrees with the store's membership and raises for a list or dict key |
| Handler.Iterated | OCPP_handler.py:101 | a list walks its items and a string its characters; numbers, booleans and null raise |
| Handler.Requested | OCPP_handler.py:96-98 | a missing or falsy key list means every key; a non-empty list is used as given |
| Handler.GetConfiguration | OCPP_handler.py:95-110 | the answer is the known descriptions and the unknown keys, in request order |
| Handler.ChangeConfiguration | OCPP_handler.py:83-93 | answers exactly when the key can be looked up; the verdict and the new store are the store's own |
| Handler.Respond | OCPP_handler.py:55-164 | an unsupported action is Unsupported; every supported action that does not raise is answered |
| Handler.HandleRequest | OCPP_handler.py:47-170 | the answer is a list of frames: a CallResult for the Call's id then the station's own Calls, or exactly one NotSupported CallError |
| Handler.ExtraAreCalls | OCPP_handler.py:112-160 | every extra message an answered action produces is a Call |
| Handler.AsWrittenAgreesWhenSupported | OCPP_handler.py:162-170 | the as-written and the corrected handler agree on every supported action |
| Handler.UnsupportedPrintsFields | OCPP_handler.py:162-164 | as written, an unsupported action makes the loop print the CallError's five fields on five lines, the first being the number 4 |
| Handler.SupportedAnswersFirst | OCPP_handler.py:166-170 | a supported action's first message is the CallResult for the Call's own id |
| Handler.LocalTransactions | OCPP_handler.py:63-75 | a local StartTransaction takes a five-digit number and marks charging; StopTransaction clears both |
| Handler.ChangeConfigurationRule | OCPP_handler.py:83-93 | the reply carries the store's verdict and the store changes exactly as that verdict says |
| Handler.GetEverything | OCPP_handler.py:96-110 | without a key list every key is reported, none unknown |
| Handler.RemoteStartScript | OCPP_handler.py:113-131 | accepted, then exactly Preparing, a StartTransaction from meter 0 for the payload's idTag (or REMOTE_USER), Charging |
| Handler.RemoteStopScript | OCPP_handler.py:134-160 | accepted, then Finishing, a StopTransaction for the payload's transaction (else the local one) from meter 0, Available; nothing charging afterwards |
| Handler.MainStep | OCPP_handler.py:172-203 | as written: unparsable lines print nothing; a CallResult carrying a transaction id adopts it; an unsupported Call prints five lines, the first the number 4, which is no frame |
| Handler.MainStepCorrected | OCPP_handler.py:172-203 | with the corrected handler every printed line is a well-formed frame, and an unsupported Call prints exactly its NotSupported CallError |
| Handler.MainStepsAgree | OCPP_handler.py:162-191 | the as-written and corrected loop steps agree on every line that is not an unsupported Call |
| Handler.MainStepPrintsFrames | OCPP_handler.py:180-191 | the corrected loop prints only in answer to a Call; other lines print nothing and keep the globals; the as-written step prints only frames on any line but an unsupported Call |
| Handler.Run | OCPP_handler.py:172-203 | as written, a session opening with an unsupported Call prints the number 4 first, which is no frame |
| Handler.RunCorrected | OCPP_handler.py:172-203 | with the corrected handler every line the whole loop prints is a well-formed frame |
| Handler.RunsAgree | OCPP_handler.py:162-203 | the as-written and corrected loops print the same lines on every session without an unsupported Call |
| Stations.WithOpt | public/customer/app.js:444-449 | a field whose value is undefined is left out of the sent object |
| Stations.Item | public/customer/app.js:341 | array destructuring yields an element exactly for an index inside the array |
| Stations.RequestedKeys | mobile-app/public/app.js:1299-1301 | a falsy key list means every key; an array is walked as given; any other truthy value throws |
| Stations.GetConfigurationReply | mobile-app/public/app.js:1298-1310 | answered exactly when the payload is present and its key list walkable; both lists in request order, every known key reported writable |
| Stations.ChangeConfigurationReply | mobile-app/public/app.js:1312-1321 | answered exactly when the payload is present; the store keeps its keys and flags |
| Stations.WritableChangeRule | mobile-app/public/app.js:1314-1320 | Accepted exactly for an existing key (and the value is stored), else NotSupported with the store unchanged |
| Stations.EmptyKeyListReportsNothing | mobile-app/public/app.js:1299 | an explicitly empty key list reports no key, because an empty array is truthy |
| Mobile.SpeedTableAgrees | mobile-app/public/app.js:483-487 | the phone's speed table uses the power the central system simulates for the same speed |
| Mobile.Show | mobile-app/public/app.js:1402-1409 | the status is shown and the page flag is raised exactly for Charging, Preparing and Finishing; nothing else changes |
| Mobile.SavedStatus | mobile-app/public/app.js:526-537 | the saved status is Charging exactly with a transaction, else Unavailable exactly when plugged in, else Available |
| Mobile.StoredSpeed | mobile-app/public/app.js:551 | a stored non-empty speed is used as is |
| Mobile.Stop | mobile-app/public/app.js:1367-1381 | StopTransaction with the local reading, then Finishing; the save is cleared and the settle scheduled; the transaction is kept until the settle |
| Mobile.Settle | mobile-app/public/app.js:1383-1399 | two seconds on: not ready, not stopping, no transaction; Unavailable while plugged in, else Available |
| Mobile.ShowProgress | mobile-app/public/app.js:1144-1178 | reaching the target with a transaction starts the stop; otherwise nothing happens |
| Mobile.SaveLoadRoundTrip | mobile-app/public/app.js:526-573 | a saved session with a transaction loads back with the same transaction, reading and speed, plugged in and ready; one without shows Available |
| Mobile.Open | mobile-app/public/app.js:496-522 | a new station starts with the phone's configuration; a settle is scheduled whenever the loaded session is stopping |
| Mobile.StartRequests | mobile-app/public/app.js:1333-1365 | a SpeedSelection DataTransfer carrying the speed, a SetTargetSoC DataTransfer whose text reads back as the target, then Authorize and StartTransaction from meter 0 for one tag: the given one, else the account's, else GUEST_USER |
| Mobile.Adopt | mobile-app/public/app.js:1259-1280 | the server's transaction (or RESTORED-now) is taken over, plugged in and ready, and saved |
| Mobile.ParseData | mobile-app/public/app.js:1232-1233 | `JSON.parse` of the snapshot: text parses exactly when it is valid JSON, to its document; an object, array or missing value throws; other primitives read as themselves |
| Mobile.Follow | mobile-app/public/app.js:1228-1296 | with the intended take-over test, a snapshot that does not parse is Rejected and changes nothing, a live local session keeps its transaction under a Charging snapshot, and a stopping station ignores one |
| Mobile.UnparsedSnapshotRejected | mobile-app/public/app.js:1287-1290 | an object or unparsable text as snapshot data is Rejected with the station unchanged, as written and corrected |
| Mobile.LiveSessionHijacked | mobile-app/public/app.js:1259-1262 | as written, a Charging SyncState replaces a live session's transaction by a RESTORED placeholder, and the real transaction's remote stop is then Rejected |
| Mobile.HandleRemoteCommand | mobile-app/public/app.js:1205-1331 | no remote command adds, removes or re-flags a configuration key |
| Mobile.RemoteStartRule | mobile-app/public/app.js:1208-1216 | RemoteStart is Accepted exactly when plugged in and ready, and then starts charging |
| Mobile.RemoteStopRule | mobile-app/public/app.js:1218-1226 | RemoteStop is Accepted exactly when the ids are loosely equal; an accepted stop starts the stop sequence, a rejected one changes nothing |
| Mobile.StopMatchesAcrossTypes | mobile-app/public/app.js:1219 | a numeric id matches the same id held as text |
| Mobile.StoppingGuard | mobile-app/public/app.js:1233-1240 | a snapshot text whose document says Charging, arriving during a stop, is acknowledged and changes nothing |
| Mobile.UnknownActionRejected | mobile-app/public/app.js:1328-1329 | unknown actions are Rejected and change nothing |
| Mobile.OnResult | mobile-app/public/app.js:1187-1202 | a confirmed transaction is adopted and saved with Charging reported; any other answer keeps the station |
| Mobile.Receive | mobile-app/public/app.js:397-412 | a message reporting Offline or Faulted drops the station; every other message is handled |
| Mobile.ReceiveKeepsKeys | mobile-app/public/app.js:1298-1321 | no message changes the configuration's keys, so the phone's store stays all-writable |
| Mobile.Round | mobile-app/public/app.js:875-878 | `Math.round`: the nearest integer, halves rounded up |
| Mobile.EnergyNeeded | mobile-app/public/app.js:871-873 | the kWh from current to target, never negative |
| Mobile.CalculateEstimate | mobile-app/public/app.js:869-893 | nothing to charge costs nothing; otherwise the total is energy, parking per minute and the fixed service fee |
| Mobile.EstimateMonotone | mobile-app/public/app.js:869-893 | aiming higher never costs less nor takes less time |
| Mobile.FormatTimeRoundTrip | mobile-app/public/app.js:895-903 | every time display reads back as the minutes it shows |
| Customer.CheckStart | public/customer/app.js:465-468 | the start button is usable exactly when plugged in, ready and showing Preparing |
| Customer.Show | public/customer/app.js:470-525 | Charging enables the button, Preparing re-checks it, anything else disables it; only text and button change |
| Customer.TogglePlug | public/customer/app.js:291-307 | plugging flips, unplugging clears EV-ready, Unavailable or Available is reported, and the button is re-checked |
| Customer.ToggleEv | public/customer/app.js:309-322 | readiness flips; plugged in it reports Preparing or Unavailable, unplugged it sends nothing |
| Customer.StartButtonRule | public/customer/app.js:291-322 | plugging in then readying the EV enables the start button |
| Customer.Stop | public/customer/app.js:444-453 | StopTransaction with the count so far, then Finishing; the meter stops and resets; the settle is scheduled |
| Customer.Settle | public/customer/app.js:454-462 | not ready, no transaction, Unavailable if plugged in else Available |
| Customer.LocalStartStop | public/customer/app.js:426-432 | a running transaction is stopped, else charging starts with LOCAL_TAG |
| Customer.MeterTick | public/customer/app.js:527-541 | a running meter adds 100 Wh and reports once; without one nothing happens |
| Customer.HandleRemoteCommand | public/customer/app.js:362-424 | no remote command changes the configuration's keys |
| Customer.RemoteStartRule | public/customer/app.js:365-373 | RemoteStart is Accepted exactly when plugged in and ready |
| Customer.RemoteStopRule | public/customer/app.js:375-384 | RemoteStop is Accepted exactly when the ids are strictly equal; a rejected stop changes nothing |
| Customer.StrictStopDiffers | public/customer/app.js:376 | the number 7 stops the phone's "7" session but not this page's |
| Customer.UnknownActionRejected | public/customer/app.js:421-422 | unrecognised actions are Rejected and change nothing |
| Customer.OnResult | public/customer/app.js:345-358 | a confirmed transaction is adopted with the meter restarted from 0; any other answer keeps the transaction and meter |
| Customer.MeterCounts | public/customer/app.js:527-541 | after k intervals the meter reads 100 Wh times k more, for the same transaction |
| Customer.ConfirmedMeterStops | public/customer/app.js:444-453 | after a confirmation and k intervals, a stop reports 100 Wh times k and resets the meter |
| Dashboard.UpdateActionButton | public/app.js:873-893 | the button agrees with the card: Stop with a transaction, Start under Preparing, else disabled keeping its label |
| Dashboard.UpdateStatus | public/app.js:839-863 | the status is stored; the transaction survives exactly under a session status (lower-cased), else becomes null; the button follows |
| Dashboard.UpdateTransaction | public/app.js:865-871 | the transaction is stored, the status kept, and the button follows |
| Dashboard.SetActivePhasesBySpeed | public/app.js:796-834 | a known speed picks its loads and locks them; anything else unlocks the manual choice |
| Dashboard.LoadsMatchSimulation | public/app.js:65-69 | the dashboard lights as many loads as the central system counts phases for the same speed |
| Dashboard.SpreadOf | public/app.js:778-779 | spreading an object adds its fields; null or undefined add nothing |
| Dashboard.UpdateAll | public/app.js:778-793 | defined exactly when the merged status is text; the status is the merged one or Available; the card stays coherent |
| Dashboard.NewCard | public/app.js:592-603 | a newly built card is coherent |
| Dashboard.NewCardStatus | public/app.js:592-603 | a card built from a state without a status shows Unavailable, the constructor's default; a card showing Available holds no transaction |
| Dashboard.ParseOcppMessage | public/app.js:544-556 | a log entry without a message array parses as Unknown with an empty payload |
| Dashboard.ParseReadsFrames | public/app.js:544-556 | the parser reads back a request's action and payload and a response's payload |
| Dashboard.AddLogRow | public/app.js:558-585 | the newest row goes first and the oldest is dropped beyond 100 rows |
| Dashboard.LogBounded | public/app.js:558-585 | however many messages arrive, the log holds at most 100 rows with the latest on top |
| Dashboard.Rebuild | public/app.js:974-987 | a full status rebuilds only coherent cards |
| Dashboard.Target | public/app.js:998-1007 | an event finds the station's card, built first for a connect, boot or status about a new station |
| Dashboard.ApplyReadings | public/app.js:1075-1077 | a meter event's value becomes the energy and the card stays coherent |
| Dashboard.CardEvent | public/app.js:1010-1102 | every card-level event keeps the card coherent |
| Dashboard.Reduce | public/app.js:968-1107 | every dashboard message keeps every card coherent |
| Dashboard.Wipe | public/app.js:1020-1056 | the five-second wipe keeps the card set and the log and keeps every card coherent |
| Dashboard.Closed | public/app.js:1109-1119 | when the socket closes every card shows Disconnected with no transaction |
| Dashboard.DisconnectClears | public/app.js:1018-1019 | a disconnect clears the station's transaction and disables its button |
| Dashboard.ButtonAfterStatus | public/app.js:839-893 | after a status report the button is Stop exactly under a session status with a transaction, Start under Preparing, else disabled |
| History.Filter | public/app.js:163-174 | a row is kept exactly when it matches the id, station and date searches; the order is kept |
| History.FilterOne | public/app.js:163-174 | a single row is kept exactly when it matches the searches |
| History.FilterAppend | public/app.js:163-174 | filtering a concatenation is the concatenation of the filtered parts, so the kept rows stay in their order |
| History.FilterIdempotent | public/app.js:163-174 | filtering twice with the same searches is filtering once |
| History.EmptySearchKeepsAll | public/app.js:156-174 | with every search empty the whole table shows, in order |
| History.Energy | public/app.js:386 | the total energy when nonzero, else stop minus start with null read as 0 |
| History.EnergyOfRows | public/app.js:386 | a finished row's energy is the meter difference; a running row's is minus its start |
| History.DayLabels | public/app.js:378-382 | the one-day labels are the 24 hours, 0:00 to 23:00 |
| History.StepSum | public/app.js:384-408 | each row adds exactly one to the total count; a new station goes last |
| History.Fold | public/app.js:384-408 | the counts add up to the number of rows; the one-day labels stay fixed |
| History.FoldCounts | public/app.js:384-392 | each station's count and energy are those of its own rows; stations with no rows are absent |
| History.DateStep | public/app.js:405-407 | a row's date joins the labels once |
| History.DatesOf | public/app.js:400 | the set of the rows' start dates |
| History.FoldDates | public/app.js:399-407 | outside the one-day range the labels are the rows' dates, each once |
| History.TotalSessions | public/app.js:389 | the counts always add up to the number of sessions |
| History.BeforeIrreflexive | public/app.js:412 | no label sorts before itself |
| History.BeforeTotal | public/app.js:412 | of two different labels one sorts first |
| History.BeforeTransitive | public/app.js:412 | the label order is transitive |
| History.Insert | public/app.js:412 | inserting keeps the labels ascending and adds exactly the new one |
| History.Sort | public/app.js:411-413 | the sorted labels are ascending and are exactly the original ones |
| History.AscendingDistinct | public/app.js:412 | ascending labels are distinct |
| History.Aggregate | public/app.js:367-413 | the chart's counts add up to the rows, and each station's count and energy are its own rows' |
| History.DayRangeLabels | public/app.js:378-399 | the one-day chart has the 24 hour labels and every row's hour is among them |
| History.OtherRangeLabels | public/app.js:399-413 | any other range labels each date of the rows exactly once, in ascending order |
| Scada.RemoveKey | public/SCADA/app.js:205 | removing a key keeps exactly the other keys, still distinct |
| Scada.Put | public/SCADA/app.js:174-178 | `Map.set`: an existing key keeps its place, a new one goes last |
| Scada.PutValid | public/SCADA/app.js:174-178 | storing a record under its own id keeps the board valid |
| Scada.Delete | public/SCADA/app.js:205 | `Map.delete` removes exactly the key and keeps the board valid |
| Scada.Merge | public/SCADA/app.js:174-178 | the record's own fields win, the stored fields it lacks survive, and lastActivity is its own or now |
| Scada.Upsert | public/SCADA/app.js:169-182 | the board stays valid and never loses a station; every new station came from the list |
| Scada.ListOf | public/SCADA/app.js:170 | an array is walked item by item, anything else is a one-item list |
| Scada.UpdateStationList | public/SCADA/app.js:169-182 | merging a station list keeps the board valid |
| Scada.UpsertOverlays | public/SCADA/app.js:174-178 | a merged record carries its own fields over the stored ones |
| Scada.SetStatus | public/SCADA/app.js:218 | the status becomes the given value (undefined leaves none) and no other field changes |
| Scada.ApplyMeter | public/SCADA/app.js:222-231 | a reading lands only during a session or when it is exactly 0 |
| Scada.Reduce | public/SCADA/app.js:190-233 | every message keeps the board valid |
| Scada.FullStatusReplaces | public/SCADA/app.js:195-198 | after a full status every station came from the new list |
| Scada.DisconnectRule | public/SCADA/app.js:203-214 | a hard delete removes the station; a plain disconnect marks a known station Unavailable and adds nobody |
| Scada.StatusRule | public/SCADA/app.js:215-221 | a status event only touches a station already on the board |
| Scada.MeterGate | public/SCADA/app.js:222-231 | a reading changes a station's energy only during a session or when it is 0, and never adds a station |
| Scada.OtherEventsIgnored | public/SCADA/app.js:192-232 | any other event leaves the board as it is |
| Scada.RowMatch | public/SCADA/app.js:73-83 | a row matches when its lower-cased id, status or location contains the lower-cased term; a non-text id, a truthy non-text status (the render's `toLowerCase` throws, even after an id match) or a non-text location reached by the check throws |
| Scada.NumericStatusStopsList | public/SCADA/app.js:73-89 | a station with a numeric status throws while rendering, so it and every station after it go unlisted |
| Scada.Listed | public/SCADA/app.js:69-91 | only rows that match and render are listed, in board order, and nothing after the first row whose check or render throws |
| Scada.ListedOne | public/SCADA/app.js:69-91 | a single station is listed exactly when its row matches and renders |
| Scada.ListedAppend | public/SCADA/app.js:69-91 | listing a concatenation lists the first part, then the second part unless a row of the first part throws |
| Scada.ListedIff | public/SCADA/app.js:69-91 | on well-formed records a station is listed exactly when its row matches |
| Scada.EmptySearchListsAll | public/SCADA/app.js:72-75 | an empty search lists every well-formed station |
| Scada.DetailView | public/SCADA/app.js:121-167 | the QR code is hidden exactly under a busy status, the progress shows exactly under Charging, and a number shows the energy in kWh |
| Scada.MissingStatusIsFree | public/SCADA/app.js:122 | a missing status shows as Unavailable with the QR code visible |
| Tags.MapDataType | generate_tags.js:43-51 | Int32 is DInt, Boolean Bool, String WString, and anything else Real |
| Tags.TagRow | generate_tags.js:78-89 | six columns: the tag name (which starts with the station id), the OPC UA address built from it, and the mapped type |
| Tags.StationRows | generate_tags.js:77-90 | one row per variable, in variable order |
| Tags.SheetOf | generate_tags.js:67-74 | no sheet exactly when there are no stations; otherwise the header comes first |
| Tags.DataRowsLength | generate_tags.js:76-91 | one six-column row per station and variable |
| Tags.DataRowsAt | generate_tags.js:76-91 | row i times the variable count plus j is station i's tag for variable j |
| Tags.SheetSize | generate_tags.js:73-91 | the sheet is the header plus one six-column row per station and variable |
| Tags.SheetRowAt | generate_tags.js:73-91 | the sheet row after the header at station i and variable j is that tag |
| Tags.TypeCounts | generate_tags.js:19-41 | twenty-one variables, each of type String, Int32, Double or Boolean |

## Left out

- Broadcasts to dashboards, OPC UA node updates and the traffic log file are not produced by the central system's model. Their effects on the observers are modelled from the receiving side (Dashboard, Scada).
- Spawning the Python process and forwarding lines between it and the central system (server.js:1160-1219) are left out. Among them is the state update the central system takes from the Python station's own MeterValues. That needs process I/O.
- uuids, `Date.now()`, ISO times, random draws and `localStorage` are parameters.
- `setTimeout` and `setInterval` are separate events. The sockets' closing window (`readyState` other than OPEN while the socket is still registered) is not modelled.
- NaN from `parseFloat` on DataTransfer numbers is not modelled. Those numbers are reals.
- The tick stores the rounded state of charge as a number. The source stores the `toFixed` text, which a later `+` would concatenate.
- Simulation.Tick and Server.SyncSnapshot: the SyncState document leaves out its `power` field (server.js:1305 and 1373), the random `p_total` while charging and not full, else 0. The phone only displays it (mobile-app/public/app.js:1244-1248), and that display is not modelled either. The other electrical parameters only feed the broadcasts.
- Server.SyncSnapshot and Server.RestoreSnapshot carry the document itself. The source sends its `JSON.stringify` text (server.js:903, 937, 1300, 1368), and number-to-text formatting is not modelled. The phone reads that text back through Mobile.ParseData, whose parses are a parameter map.
- Mobile.ParseData treats an array as unparsable. JavaScript joins its elements into text first, so a one-element array holding JSON text would parse.
- Server.Handle: the meter readings are taken as numbers. The source stores `payload.meterStart || 0` as sent (server.js:999), so text would later concatenate, and compares `meterStop > 0` as sent (server.js:1029). A StartTransaction without a payload throws at server.js:999 after lines 997-998 have set the transaction and Charging, with no reply; the model has no such case. A StatusNotification's status is taken as text: the source stores `payload.status` as sent (server.js:948), so a missing or non-text status leaves the record's status undefined or a number, which the model cannot hold.
- Server.OnStart and Server.OnStop are atomic. The source awaits `db.startTransaction` (server.js:984) and `db.stopTransaction` (server.js:1032), so a close, a tick or another frame can run in between; that interleaving is not modelled.
- Scada.RowMatch and History.Filter lower-case ASCII letters only. JavaScript's `toLowerCase` folds every cased letter (for example Vietnamese capitals), so a search differing only in a non-ASCII capital matches in the source and not in the model.
- Extracting the id from the URL, and the OPC UA creation lock, are reduced to an id and a `locked` flag.
- `parseInt` is modelled for numbers and decimal text only. Exponents, hex and partial text are not modelled.
- Object-key coercion in `hasOwnProperty` (a number key finding a text key) is not modelled. A ChangeConfiguration value left undefined is stored as null.
- The phone's periodic save and its stored power level are reduced to parameters. The save's timestamp is not read back.
- Python: a dict given as the key list is iterated by its keys, and that is not modelled. `connector_id` is never read.
- List items that are not objects are treated as throwing, in Scada and Dashboard. In JavaScript a string or array item spreads characters or indices. Dashboard.SpreadOf treats a non-empty string or array `data.state` of a connect or boot event (public/app.js:778) the same way, where JavaScript spreads its indices into the card. The central system always broadcasts an object there (server.js:821, 843).
- Dashboard.Reduce: a status event whose status is not text leaves the card unchanged. The source writes `state.status` before it throws. Likewise a connect or boot event whose merged status is not text leaves the card unchanged, whereas the source keeps the merged state (public/app.js:779) before `updateStatus` throws.
- Dashboard.Wipe acts on the card currently registered for the id, not on the object captured when the timer was set.
- The dashboard's live chart increments (`updateRealTimeCharts`) and the per-station time series of the usage chart are not modelled.
- `Object.keys` lists integer-like ids first. This only affects display order, so it is not modelled.
- Rendering of electrical parameters, the heartbeat blink and operator clicks (confirm/prompt dialogs, the "Stopping..." label) are not modelled.
- History rows carry a start date and hour already extracted. Date parsing and time zones are left out.
- History.Before orders by character. JavaScript sorts by UTF-16 code unit, which agrees only inside the Basic Multilingual Plane.
- The SCADA add, edit and delete station forms (HTTP calls) are not modelled.
- Tags: the database query and the XLSX writing are left out. `NAMESPACE_INDEX` is unused by the source.
- Inherited property names (such as `constructor`) looked up in `SPEED_TO_LOADS`, and in `CHARGING_SPEEDS` by Simulation.PowerOf (server.js:1209, 1319), are not modelled. In the source `CHARGING_SPEEDS["constructor"] || 7.2` is a function and the energy becomes NaN; the model gives 7.2.
- Mobile.Open states only the configuration and the scheduling. What loading does is stated by Mobile.SaveLoadRoundTrip.
- Mobile.HandleRemoteCommand and Customer.HandleRemoteCommand state only that the configuration keys are kept. Each command's effect is stated by the rule lemmas named after it.
- Scada.Reduce and Dashboard.Reduce state the invariant. Each event's effect is stated by the lemmas named after the event.

## Findings

| source | as written | input that shows it | evidently intended | confidence | as-written member | corrected member |
|---|---|---|---|---|---|---|
| mobile-app/public/app.js:1259 | the snapshot test reads `this.isChargingSessionActive`, a property nothing sets, so `!this.isChargingSessionActive` is always true | a live session with transaction T1 receives a SyncState whose status is Charging (SyncState carries no transaction id) | the page-level flag `isChargingSessionActive` (lines 21 and 386), so a live session keeps its transaction | not executed | Mobile.LiveSessionHijacked | Mobile.Follow |
| OCPP_handler.py:162-164 | an unsupported action returns the bare CallError array `[4, id, ...]`, and `main_loop` (lines 187-188) prints each of its elements | a Call with action `Reset` | a list holding the one CallError, like every other return | not executed | Handler.UnsupportedPrintsFields | Handler.HandleRequest |

=== FILE: clock.dfy ===
/**
 * The server's `formatTimeRemaining` (HH:MM:SS from a number of hours) and a
 * reader for its output.
 */
module Clock {
  import opened Common
  import opened Text

  /** A JavaScript number handed to the formatter: NaN and the infinities are `NonFinite`. */
  datatype Hours = Finite(h: real) | NonFinite

  /** The placeholder shown when no estimate exists. */
  const UNKNOWN: string := "--:--:--"

  datatype Hms = Hms(h: nat, m: nat, s: nat)

  function FormatHms(t: Hms): string {
    Pad2(t.h) + ":" + Pad2(t.m) + ":" + Pad2(t.s)
  }

  /**
   * Reads `H..H:MM:SS`: at least two hour digits, exactly two minute and two
   * second digits.
   */
  function ParseClock(s: string): Option<Hms> {
    if |s| >= 8 && s[|s| - 3] == ':' && s[|s| - 6] == ':' then
      var hh := s[..|s| - 6];
      var mm := s[|s| - 5..|s| - 3];
      var ss := s[|s| - 2..];
      if AllDigits(hh) && AllDigits(mm) && AllDigits(ss) then
        Some(Hms(DigitsValue(hh), DigitsValue(mm), DigitsValue(ss)))
      else None
    else None
  }

  lemma ParseFormatHms(t: Hms)
    requires t.m < 100 && t.s < 100
    ensures ParseClock(FormatHms(t)) == Some(t)
  {
    var hh, mm, ss := Pad2(t.h), Pad2(t.m), Pad2(t.s);
    var r := FormatHms(t);
    assert r == hh + ":" + mm + ":" + ss;
    var n := |r|;
    assert n == |hh| + 6;
    assert r[..n - 6] == hh;
    assert r[n - 5..n - 3] == mm;
    assert r[n - 2..] == ss;
  }

  /** The placeholder is not a clock reading. */
  lemma UnknownIsNotAClock()
    ensures ParseClock(UNKNOWN) == None
  {
    assert !IsDigit(UNKNOWN[0]);
    assert !AllDigits(UNKNOWN[..|UNKNOWN| - 6]);
  }

  /**
   * `formatTimeRemaining(hours)`: the placeholder for a non-finite or
   * negative input; otherwise floor(hours * 3600) seconds written as hours,
   * minutes below 60 and seconds below 60, each at least two digits wide.
   */
  function FormatTimeRemaining(hours: Hours): (r: string)
    ensures hours.NonFinite? || hours.h < 0.0 ==> r == UNKNOWN
    ensures hours.Finite? && hours.h >= 0.0 ==>
      ParseClock(r).Some? &&
      var t := ParseClock(r).value;
      t.m < 60 && t.s < 60 && t.h * 3600 + t.m * 60 + t.s == (hours.h * 3600.0).Floor
  {
    if hours.NonFinite? || hours.h < 0.0 then UNKNOWN
    else
      var total: nat := (hours.h * 3600.0).Floor;
      var t := Hms(total / 3600, (total % 3600) / 60, total % 60);
      ParseFormatHms(t);
      FormatHms(t)
  }

  /** The formatter never yields the placeholder for a usable estimate. */
  lemma FormatKnownIsClock(hours: Hours)
    ensures FormatTimeRemaining(hours) == UNKNOWN <==> hours.NonFinite? || hours.h < 0.0
  {
    UnknownIsNotAClock();
  }
}

=== FILE: common.dfy ===
/** Optional values: the model's rendering of JavaScript `undefined`/`null` and Python `None`. */
module Common {

  datatype Option<+T> = None | Some(value: T) {

    /** The wrapped value, or `default` when there is none. */
    function GetOr(default: T): T {
      match this
      case Some(v) => v
      case None => default
    }
  }
}

=== FILE: config.dfy ===
/**
 * The station-side configuration store read by GetConfiguration and written
 * by ChangeConfiguration: an insertion-ordered list of keys, each with a
 * value and a readonly flag. The Python station and both browser stations
 * share these rules; the browser stations' stores have no readonly key.
 */
module Configuration {
  import opened Common
  import opened Json

  datatype Item = Item(key: string, value: JVal, readonly: bool)
  type Config = seq<Item>

  /** The Python station's store (OCPP_handler.py). */
  const PYTHON_DEFAULTS: Config := [
    Item("HeartbeatInterval", JStr("60"), false),
    Item("ConnectionTimeOut", JStr("1200"), false),
    Item("SupportedFeatureProfiles", JStr("Core,RemoteTrigger,Configuration"), true),
    Item("ChargeProfileMaxStackLevel", JStr("10"), true),
    Item("AllowOfflineTxForUnknownId", JStr("false"), false)
  ]

  /** The browser stations' store: same keys, shorter timeout, all writable. */
  const APP_DEFAULTS: Config := [
    Item("HeartbeatInterval", JStr("60"), false),
    Item("ConnectionTimeOut", JStr("120"), false),
    Item("SupportedFeatureProfiles", JStr("Core,RemoteTrigger,Configuration"), false),
    Item("ChargeProfileMaxStackLevel", JStr("10"), false),
    Item("AllowOfflineTxForUnknownId", JStr("false"), false)
  ]

  predicate AllWritable(c: Config) {
    forall i :: 0 <= i < |c| ==> !c[i].readonly
  }

  /** Position of the item for key `k`, the first if several. */
  function Find(c: Config, k: string): (r: Option<nat>)
    ensures r.Some? ==> r.value < |c| && c[r.value].key == k
    ensures r.Some? ==> forall j :: 0 <= j < r.value ==> c[j].key != k
    ensures r.None? <==> forall j :: 0 <= j < |c| ==> c[j].key != k
  {
    if |c| == 0 then None
    else if c[0].key == k then Some(0)
    else
      match Find(c[1..], k)
      case None => None
      case Some(i) => Some(i + 1)
  }

  /** `k in store` / `store.hasOwnProperty(k)` for a requested key of any JSON type. */
  predicate Has(c: Config, k: JVal) {
    k.JStr? && Find(c, k.s).Some?
  }

  datatype ChangeStatus = Accepted | Rejected | NotSupported

  function ChangeStatusName(s: ChangeStatus): string {
    match s
    case Accepted => "Accepted"
    case Rejected => "Rejected"
    case NotSupported => "NotSupported"
  }

  /**
   * ChangeConfiguration: an unknown key is NotSupported and a readonly key
   * Rejected, both leaving the store as it was; a writable key takes the new
   * value and nothing else changes.
   */
  function Change(c: Config, key: JVal, value: JVal): (r: (ChangeStatus, Config))
    ensures !Has(c, key) ==> r == (NotSupported, c)
    ensures Has(c, key) && c[Find(c, key.s).value].readonly ==> r == (Rejected, c)
    ensures Has(c, key) && !c[Find(c, key.s).value].readonly ==>
      r.0 == Accepted && |r.1| == |c| &&
      var i := Find(c, key.s).value;
      r.1[i] == c[i].(value := value) &&
      forall j :: 0 <= j < |c| && j != i ==> r.1[j] == c[j]
  {
    if !Has(c, key) then (NotSupported, c)
    else
      var i := Find(c, key.s).value;
      if c[i].readonly then (Rejected, c)
      else (Accepted, c[i := c[i].(value := value)])
  }

  /** After an accepted change the key reads back the new value. */
  lemma ChangeThenRead(c: Config, key: JVal, value: JVal)
    requires Change(c, key, value).0 == Accepted
    ensures var c' := Change(c, key, value).1;
      Has(c', key) && c'[Find(c', key.s).value].value == value
  {
    var c' := Change(c, key, value).1;
    var i := Find(c, key.s).value;
    assert c'[i].key == key.s;
    var i' := Find(c', key.s).value;
    assert i' == i;
  }

  /** ChangeConfiguration never adds, removes, reorders or re-flags keys. */
  lemma ChangeKeepsKeys(c: Config, key: JVal, value: JVal)
    ensures var c' := Change(c, key, value).1;
      |c'| == |c| && forall j :: 0 <= j < |c| ==> c'[j].key == c[j].key && c'[j].readonly == c[j].readonly
  {
  }

  /** A store without readonly keys never answers Rejected and stays without readonly keys. */
  lemma WritableNeverRejects(c: Config, key: JVal, value: JVal)
    requires AllWritable(c)
    ensures Change(c, key, value).0 != Rejected
    ensures AllWritable(Change(c, key, value).1)
  {
    ChangeKeepsKeys(c, key, value);
  }

  /** One GetConfiguration entry `{key, readonly, value}`. */
  function Describe(item: Item): JVal {
    JObj(map["key" := JStr(item.key), "readonly" := JBool(item.readonly), "value" := item.value])
  }

  /** Every key of the store, in store order: what an empty request reports. */
  function AllKeys(c: Config): (ks: seq<JVal>)
    ensures |ks| == |c| && forall i :: 0 <= i < |c| ==> ks[i] == JStr(c[i].key)
  {
    if |c| == 0 then [] else [JStr(c[0].key)] + AllKeys(c[1..])
  }

  /** Reference definition: the known requested names, in request order. */
  function KnownNames(c: Config, ks: seq<JVal>): (names: seq<string>)
    ensures forall n :: n in names ==> Find(c, n).Some?
  {
    if |ks| == 0 then []
    else if Has(c, ks[0]) then [ks[0].s] + KnownNames(c, ks[1..])
    else KnownNames(c, ks[1..])
  }

  /** Reference definition: the unknown requested keys, in request order. */
  function UnknownKeys(c: Config, ks: seq<JVal>): (unknown: seq<JVal>)
    ensures forall k :: k in unknown ==> !Has(c, k) && k in ks
  {
    if |ks| == 0 then []
    else if Has(c, ks[0]) then UnknownKeys(c, ks[1..])
    else [ks[0]] + UnknownKeys(c, ks[1..])
  }

  function Entries(c: Config, names: seq<string>): (es: seq<JVal>)
    requires forall n :: n in names ==> Find(c, n).Some?
    ensures |es| == |names|
  {
    if |names| == 0 then []
    else [Describe(c[Find(c, names[0]).value])] + Entries(c, names[1..])
  }

  /**
   * The GetConfiguration loop as the stations run it: walk the requested
   * keys once, appending a description of each known key to `known` and
   * every other key to `unknown`.
   */
  function PartitionFrom(c: Config, ks: seq<JVal>, known: seq<JVal>, unknown: seq<JVal>): (seq<JVal>, seq<JVal>) {
    if |ks| == 0 then (known, unknown)
    else if Has(c, ks[0]) then PartitionFrom(c, ks[1..], known + [Describe(c[Find(c, ks[0].s).value])], unknown)
    else PartitionFrom(c, ks[1..], known, unknown + [ks[0]])
  }

  function Partition(c: Config, ks: seq<JVal>): (seq<JVal>, seq<JVal>) {
    PartitionFrom(c, ks, [], [])
  }

  lemma {:induction false} PartitionFromSpec(c: Config, ks: seq<JVal>, known: seq<JVal>, unknown: seq<JVal>)
    ensures PartitionFrom(c, ks, known, unknown) ==
      (known + Entries(c, KnownNames(c, ks)), unknown + UnknownKeys(c, ks))
  {
    if |ks| > 0 {
      if Has(c, ks[0]) {
        var d := Describe(c[Find(c, ks[0].s).value]);
        PartitionFromSpec(c, ks[1..], known + [d], unknown);
        assert PartitionFrom(c, ks, known, unknown) == PartitionFrom(c, ks[1..], known + [d], unknown);
        assert KnownNames(c, ks) == [ks[0].s] + KnownNames(c, ks[1..]);
        assert Entries(c, KnownNames(c, ks)) == [d] + Entries(c, KnownNames(c, ks[1..]));
        assert known + [d] + Entries(c, KnownNames(c, ks[1..])) == known + ([d] + Entries(c, KnownNames(c, ks[1..])));
      } else {
        PartitionFromSpec(c, ks[1..], known, unknown + [ks[0]]);
        assert KnownNames(c, ks) == KnownNames(c, ks[1..]);
        assert UnknownKeys(c, ks) == [ks[0]] + UnknownKeys(c, ks[1..]);
        assert unknown + [ks[0]] + UnknownKeys(c, ks[1..]) == unknown + ([ks[0]] + UnknownKeys(c, ks[1..]));
      }
    } else {
      assert known + Entries(c, KnownNames(c, ks)) == known;
      assert unknown + UnknownKeys(c, ks) == unknown;
    }
  }

  /**
   * GetConfiguration's answer: the descriptions of the known requested keys
   * and the unknown requested keys, each list in request order.
   */
  lemma PartitionSpec(c: Config, ks: seq<JVal>)
    ensures Partition(c, ks) == (Entries(c, KnownNames(c, ks)), UnknownKeys(c, ks))
  {
    PartitionFromSpec(c, ks, [], []);
    assert [] + Entries(c, KnownNames(c, ks)) == Entries(c, KnownNames(c, ks));
    assert [] + UnknownKeys(c, ks) == UnknownKeys(c, ks);
  }

  /** Every requested key lands in exactly one of the two lists. */
  lemma {:induction false} KnownNamesCover(c: Config, ks: seq<JVal>)
    ensures |KnownNames(c, ks)| + |UnknownKeys(c, ks)| == |ks|
    ensures forall i :: 0 <= i < |ks| ==>
      (Has(c, ks[i]) ==> ks[i].s in KnownNames(c, ks)) && (!Has(c, ks[i]) ==> ks[i] in UnknownKeys(c, ks))
  {
    if |ks| > 0 {
      KnownNamesCover(c, ks[1..]);
      forall i | 1 <= i < |ks|
        ensures (Has(c, ks[i]) ==> ks[i].s in KnownNames(c, ks)) && (!Has(c, ks[i]) ==> ks[i] in UnknownKeys(c, ks))
      {
        assert ks[i] == ks[1..][i - 1];
      }
    }
  }

  /** A request made only of known keys leaves nothing unknown. */
  lemma {:induction false} AllKnown(c: Config, ks: seq<JVal>)
    requires forall i :: 0 <= i < |ks| ==> Has(c, ks[i])
    ensures UnknownKeys(c, ks) == [] && |KnownNames(c, ks)| == |ks|
  {
    if |ks| > 0 {
      AllKnown(c, ks[1..]);
    }
  }

  /** Asking for every key reports every key, in store order, and nothing unknown. */
  lemma {:induction false} AllKeysKnown(c: Config)
    ensures UnknownKeys(c, AllKeys(c)) == []
    ensures |KnownNames(c, AllKeys(c))| == |c|
  {
    var ks := AllKeys(c);
    forall i | 0 <= i < |ks|
      ensures Has(c, ks[i])
    {
      assert Find(c, c[i].key).Some?;
    }
    AllKnown(c, ks);
  }
}

=== FILE: customer.dfy ===
/**
 * The customer charge point (public/customer/app.js, class
 * ChargePointStatus): the plug and EV-ready toggles, the start button,
 * the server's Calls, the transaction confirmation and the simulated
 * meter that counts up 100 Wh per interval.
 *
 * The ISO timestamp is a parameter; the meter interval and the
 * two-second settle after a stop are explicit events.
 */
module Customer {
  import opened Common
  import opened Json
  import opened Frames
  import Configuration
  import opened Stations
  import Mobile

  const METER_STEP: int := 100

  /**
   * The station object. `transactionId` is `JNull` when there is none.
   * `text` is the status text on screen. `metering` is the transaction
   * the running meter interval reports, if one runs.
   */
  datatype Station = Station(
    transactionId: JVal,
    isPluggedIn: bool,
    isEvReady: bool,
    meterValue: int,
    metering: Option<JVal>,
    config: Configuration.Config,
    text: string,
    startEnabled: bool)

  datatype Out = Out(state: Station, sends: seq<Send>, settle: bool)

  const INITIAL: Station := Station(JNull, false, false, 0, None, Configuration.APP_DEFAULTS, "Offline", false)

  /** The text `updateStatusUI` writes; an unlisted status leaves the text alone. */
  function StatusText(status: string, current: string): string {
    match status
    case "Available" => "Available"
    case "Unavailable" => "Plugged In"
    case "Preparing" => "Preparing"
    case "Charging" => "Charging"
    case "Finishing" => "Finishing..."
    case "Offline" => "Offline"
    case _ => current
  }

  /** `checkStartButtonState`'s test. */
  predicate ReadyToStart(st: Station) {
    st.isPluggedIn && st.isEvReady && st.text == "Preparing"
  }

  function CheckStart(st: Station): (r: Station)
    ensures r.startEnabled <==> r.isPluggedIn && r.isEvReady && r.text == "Preparing"
    ensures r.(startEnabled := st.startEnabled) == st
  {
    st.(startEnabled := ReadyToStart(st))
  }

  /**
   * `updateStatusUI`: the button is disabled first, re-checked under
   * Preparing, and enabled (as the stop button) under Charging.
   */
  function Show(st: Station, status: string): (r: Station)
    ensures r.text == StatusText(status, st.text)
    ensures status == "Charging" ==> r.startEnabled
    ensures status == "Preparing" ==> (r.startEnabled <==> ReadyToStart(r))
    ensures status != "Charging" && status != "Preparing" ==> !r.startEnabled
    ensures r.(text := st.text, startEnabled := st.startEnabled) == st
  {
    var shown := st.(text := StatusText(status, st.text), startEnabled := false);
    if status == "Preparing" then CheckStart(shown)
    else if status == "Charging" then shown.(startEnabled := true)
    else shown
  }

  /** Clicking the plug button. */
  function TogglePlug(st: Station): (r: Out)
    ensures r.state.isPluggedIn == !st.isPluggedIn
    ensures !r.state.isPluggedIn ==> !r.state.isEvReady
    ensures r.sends == [StatusRequest(if r.state.isPluggedIn then "Unavailable" else "Available")]
    ensures r.state.startEnabled <==> ReadyToStart(r.state)
  {
    if !st.isPluggedIn then
      Out(CheckStart(Show(st.(isPluggedIn := true), "Unavailable")), [StatusRequest("Unavailable")], false)
    else
      Out(CheckStart(Show(st.(isPluggedIn := false, isEvReady := false), "Available")), [StatusRequest("Available")], false)
  }

  /** Clicking the EV-ready button: plugged in, it reports Preparing or Unavailable. */
  function ToggleEv(st: Station): (r: Out)
    ensures r.state.isEvReady == !st.isEvReady
    ensures r.state.isPluggedIn && r.state.isEvReady ==> r.sends == [StatusRequest("Preparing")] && r.state.text == "Preparing"
    ensures r.state.isPluggedIn && !r.state.isEvReady ==> r.sends == [StatusRequest("Unavailable")] && r.state.text == "Plugged In"
    ensures !r.state.isPluggedIn ==> r.sends == []
    ensures r.state.startEnabled <==> ReadyToStart(r.state)
  {
    var toggled := st.(isEvReady := !st.isEvReady);
    if toggled.isEvReady && toggled.isPluggedIn then
      Out(CheckStart(Show(toggled, "Preparing")), [StatusRequest("Preparing")], false)
    else if toggled.isPluggedIn then
      Out(CheckStart(Show(toggled, "Unavailable")), [StatusRequest("Unavailable")], false)
    else Out(CheckStart(toggled), [], false)
  }

  /** The start button becomes usable exactly when plugging in and readying the EV reach Preparing. */
  lemma StartButtonRule(st: Station)
    requires !st.isPluggedIn
    ensures var plugged := TogglePlug(st).state;
      !plugged.startEnabled &&
      (!plugged.isEvReady ==> ToggleEv(plugged).state.startEnabled)
  {
  }

  /** `startChargingProcess`: Authorize then StartTransaction, both for the same tag. */
  function StartRequests(idTag: Option<JVal>, iso: string): seq<Send> {
    [Request("Authorize", JObj(WithOpt(map[], "idTag", idTag))),
     Request("StartTransaction", JObj(WithOpt(map["connectorId" := JNum(1.0), "meterStart" := JNum(0.0), "timestamp" := JStr(iso)], "idTag", idTag)))]
  }

  /**
   * `stopChargingProcess`: StopTransaction with the count so far, the
   * meter stopped and reset, Finishing, and the settle scheduled.
   */
  function Stop(st: Station, iso: string): (r: Out)
    ensures r.sends == [StopRequest(st.transactionId, st.meterValue as real, iso), StatusRequest("Finishing")]
    ensures r.state.meterValue == 0 && r.state.metering.None? && r.settle
    ensures r.state.transactionId == st.transactionId
  {
    Out(Show(st.(meterValue := 0, metering := None), "Finishing"),
      [StopRequest(st.transactionId, st.meterValue as real, iso), StatusRequest("Finishing")], true)
  }

  /** Two seconds after a stop: not ready, Unavailable if plugged in else Available, no transaction. */
  function Settle(st: Station): (r: Out)
    ensures !r.state.isEvReady && r.state.transactionId == JNull
    ensures r.sends == [StatusRequest(if st.isPluggedIn then "Unavailable" else "Available")]
  {
    var status := if st.isPluggedIn then "Unavailable" else "Available";
    Out(Show(st.(isEvReady := false), status).(transactionId := JNull), [StatusRequest(status)], false)
  }

  /** The start/stop button: stop a running transaction, else start with LOCAL_TAG. */
  function LocalStartStop(st: Station, iso: string): (r: Out)
    ensures Truthy(Some(st.transactionId)) ==> r == Stop(st, iso)
    ensures !Truthy(Some(st.transactionId)) ==> r == Out(st, StartRequests(Some(JStr("LOCAL_TAG")), iso), false)
  {
    if Truthy(Some(st.transactionId)) then Stop(st, iso)
    else Out(st, StartRequests(Some(JStr("LOCAL_TAG")), iso), false)
  }

  /** One meter interval: 100 Wh more, reported for the transaction the interval was started with. */
  function MeterTick(st: Station, iso: string): (r: Out)
    ensures st.metering.Some? ==> r.state == st.(meterValue := st.meterValue + METER_STEP) && |r.sends| == 1
    ensures st.metering.None? ==> r == Out(st, [], false)
  {
    match st.metering
    case None => Out(st, [], false)
    case Some(tx) =>
      var count := st.meterValue + METER_STEP;
      Out(st.(meterValue := count), [Request("MeterValues", JObj(map[
        "connectorId" := JNum(1.0), "transactionId" := tx,
        "meterValue" := JArr([JObj(map["timestamp" := JStr(iso), "sampledValue" := JArr([
          JObj(map["value" := JStr(Text.IntToString(count)), "unit" := JStr("Wh")])])])])]))], false)
  }

  /** `handleRemoteCommand`, with strict (`===`) transaction matching. */
  function HandleRemoteCommand(st: Station, uid: JVal, action: Option<JVal>, payload: Option<JVal>, iso: string): (r: Out)
    ensures SameKeys(st.config, r.state.config)
  {
    if action == Some(JStr("RemoteStartTransaction")) then
      if st.isPluggedIn && st.isEvReady then
        if Nullish(payload) then Out(st, [Answer(uid, "Accepted")], false)
        else Out(st, [Answer(uid, "Accepted")] + StartRequests(Field(payload, "idTag"), iso), false)
      else Out(st, [Answer(uid, "Rejected")], false)
    else if action == Some(JStr("RemoteStopTransaction")) then
      if Nullish(payload) then Out(st, [], false)
      else if StrictEquals(Field(payload, "transactionId"), Some(st.transactionId)) then
        var stopped := Stop(st, iso);
        stopped.(sends := [Answer(uid, "Accepted")] + stopped.sends)
      else Out(st, [Answer(uid, "Rejected")], false)
    else if action == Some(JStr("GetConfiguration")) then
      match GetConfigurationReply(st.config, payload)
      case None => Out(st, [], false)
      case Some(p) => Out(st, [Reply(uid, p)], false)
    else if action == Some(JStr("ChangeConfiguration")) then
      match ChangeConfigurationReply(st.config, payload)
      case None => Out(st, [], false)
      case Some((status, config)) => Out(st.(config := config), [Answer(uid, status)], false)
    else if action == Some(JStr("ClearCache")) then Out(st, [Answer(uid, "Accepted")], false)
    else if action == Some(JStr("DataTransfer")) then
      Out(st, [Reply(uid, JObj(map["status" := JStr("Accepted"), "data" := JStr("Server data successfully processed.")]))], false)
    else Out(st, [Answer(uid, "Rejected")], false)
  }

  /** RemoteStartTransaction is Accepted iff plugged in and ready; the station itself does not change. */
  lemma RemoteStartRule(st: Station, uid: JVal, payload: Option<JVal>, iso: string)
    ensures var r := HandleRemoteCommand(st, uid, Some(JStr("RemoteStartTransaction")), payload, iso);
      r.state == st && |r.sends| >= 1 &&
      r.sends[0] == Answer(uid, if st.isPluggedIn && st.isEvReady then "Accepted" else "Rejected")
  {
  }

  /** RemoteStopTransaction is Accepted iff the ids are strictly equal; a rejected stop changes nothing. */
  lemma RemoteStopRule(st: Station, uid: JVal, payload: JVal, iso: string)
    requires payload != JNull
    ensures var r := HandleRemoteCommand(st, uid, Some(JStr("RemoteStopTransaction")), Some(payload), iso);
      var same := StrictEquals(Field(Some(payload), "transactionId"), Some(st.transactionId));
      (same ==> r.sends[0] == Answer(uid, "Accepted") && r.state == Stop(st, iso).state && r.settle) &&
      (!same ==> r == Out(st, [Answer(uid, "Rejected")], false))
  {
  }

  /**
   * The two browser stations disagree on a stop whose id has another type
   * than the local one: the phone's `==` accepts the number 7 for the text
   * "7", this page's `===` does not.
   */
  lemma StrictStopDiffers(uid: JVal, mobile: Mobile.Station, env: Mobile.Env)
    requires mobile.transactionId == JStr("7")
    ensures var stop := Some(JObj(map["transactionId" := JNum(7.0)]));
      HandleRemoteCommand(INITIAL.(transactionId := JStr("7")), uid, Some(JStr("RemoteStopTransaction")), stop, "").sends ==
        [Answer(uid, "Rejected")] &&
      Mobile.HandleRemoteCommand(mobile, uid, Some(JStr("RemoteStopTransaction")), stop, env).sends[0] == Answer(uid, "Accepted")
  {
    NumberLooselyEqualsItsText(7);
    assert Text.IntToString(7) == "7";
  }

  /** Unrecognised actions are Rejected and change nothing. */
  lemma UnknownActionRejected(st: Station, uid: JVal, action: string, payload: Option<JVal>, iso: string)
    requires action !in {"RemoteStartTransaction", "RemoteStopTransaction", "DataTransfer", "GetConfiguration", "ChangeConfiguration", "ClearCache"}
    ensures HandleRemoteCommand(st, uid, Some(JStr(action)), payload, iso) == Out(st, [Answer(uid, "Rejected")], false)
  {
  }

  /**
   * A CallResult: a BootNotification-style answer (Accepted with an
   * interval) reports Available. A confirmed transaction is adopted, the
   * meter restarts from 0 for it and Charging is reported.
   */
  function OnResult(st: Station, payload: Option<JVal>): (r: Out)
    ensures !Nullish(payload) && Confirms(payload) ==>
      r.state.transactionId == Field(payload, "transactionId").value && r.state.meterValue == 0 &&
      r.state.metering == Some(r.state.transactionId) && r.state.text == "Charging"
    ensures !Confirms(payload) ==> r.state.transactionId == st.transactionId && r.state.metering == st.metering
  {
    if Nullish(payload) then Out(st, [], false)
    else
      var booted := Field(payload, "status") == Some(JStr("Accepted")) && Truthy(Field(payload, "interval"));
      var first := if booted then Out(Show(st, "Available"), [StatusRequest("Available")], false) else Out(st, [], false);
      if Confirms(payload) then
        var tx := Field(payload, "transactionId").value;
        Out(Show(first.state.(transactionId := tx, meterValue := 0, metering := Some(tx)), "Charging"),
          first.sends + [StatusRequest("Charging")], false)
      else first
  }

  function HandleMessage(st: Station, message: JVal, iso: string): Out {
    if !message.JArr? then Out(st, [], false)
    else
      var m := message.items;
      if Item(m, 0) == Some(JNum(CALL)) then HandleRemoteCommand(st, Item(m, 1).GetOr(JNull), Item(m, 2), Item(m, 3), iso)
      else if Item(m, 0) == Some(JNum(CALL_RESULT)) then OnResult(st, Item(m, 2))
      else Out(st, [], false)
  }

  /** `k` meter intervals. */
  function Ticks(st: Station, k: nat, iso: string): Station
    decreases k
  {
    if k == 0 then st else Ticks(MeterTick(st, iso).state, k - 1, iso)
  }

  /**
   * After a confirmed transaction the meter reads 100 Wh per interval
   * elapsed, and a stop resets it to 0 after reporting that count.
   */
  lemma {:induction false} MeterCounts(st: Station, k: nat, iso: string)
    requires st.metering.Some?
    ensures Ticks(st, k, iso).meterValue == st.meterValue + METER_STEP * k
    ensures Ticks(st, k, iso).metering == st.metering
    ensures Ticks(st, k, iso).transactionId == st.transactionId
    decreases k
  {
    if k > 0 {
      MeterCounts(MeterTick(st, iso).state, k - 1, iso);
    }
  }

  lemma ConfirmedMeterStops(st: Station, payload: JVal, k: nat, iso: string)
    requires payload != JNull && Confirms(Some(payload))
    ensures var confirmed := OnResult(st, Some(payload)).state;
      var later := Ticks(confirmed, k, iso);
      later.meterValue == METER_STEP * k &&
      Stop(later, iso).sends[0] == StopRequest(confirmed.transactionId, (METER_STEP * k) as real, iso) &&
      Stop(later, iso).state.meterValue == 0
  {
    MeterCounts(OnResult(st, Some(payload)).state, k, iso);
  }
}

=== FILE: dashboard.dfy ===
/**
 * The operator dashboard's live side (public/app.js): one card per
 * station fed by the server's broadcast events, the card's status,
 * transaction and action-button rules, the load phases chosen by the
 * charging speed, and the bounded OCPP log table.
 *
 * The five-second wipe after a disconnect and the socket closing are
 * explicit events. Electrical readings, heartbeat blinks and the
 * operator's button clicks are left out.
 */
module Dashboard {
  import opened Common
  import opened Json
  import Text
  import Frames
  import Simulation
  import Stations

  const MAX_LOG_ROWS: nat := 100

  /** Which of the three loads each charging speed drives. */
  const SPEED_TO_LOADS: map<string, seq<bool>> := map[
    "normal" := [true, false, false],
    "fast" := [true, true, false],
    "lightning" := [true, true, true]]

  const MANUAL_LOADS: seq<bool> := [true, false, false]

  /** The statuses under which a card keeps its transaction. */
  const SESSION_STATUSES: set<string> := {"charging", "suspendedevse", "suspendedev", "finishing"}

  datatype Button = Button(caption: string, enabled: bool)

  /** A card: the station's state object, the three loads, whether the speed chose them, and the action button. */
  datatype Card = Card(state: Obj, phases: seq<bool>, autoLoad: bool, button: Button)

  datatype Parsed = Parsed(action: Option<JVal>, payload: Option<JVal>)

  /** A log row: the direction, who sent it (CSMS for the dashboard itself) and the parsed message. */
  datatype LogRow = LogRow(direction: Option<JVal>, who: Option<JVal>, parsed: Parsed)

  datatype Dash = Dash(cards: map<Key, Card>, log: seq<LogRow>)

  // The card

  function HasTransaction(c: Card): bool {
    Truthy(Get(c.state, "transactionId"))
  }

  /** The button matches the state: Stop for a transaction, Start under Preparing, otherwise disabled. */
  predicate ButtonAgrees(c: Card) {
    var ready := Get(c.state, "status") == Some(JStr("Preparing"));
    c.button.enabled == (HasTransaction(c) || ready) &&
    (HasTransaction(c) ==> c.button.caption == "Stop Charging") &&
    (!HasTransaction(c) && ready ==> c.button.caption == "Start Charging")
  }

  predicate Coherent(c: Card) {
    ButtonAgrees(c) && |c.phases| == 3
  }

  /** `updateActionButton`: a disabled button keeps its last label. */
  function UpdateActionButton(c: Card): (r: Card)
    ensures ButtonAgrees(r)
    ensures r.(button := c.button) == c
    ensures !r.button.enabled ==> r.button.caption == c.button.caption
  {
    if HasTransaction(c) then c.(button := Button("Stop Charging", true))
    else if Get(c.state, "status") == Some(JStr("Preparing")) then c.(button := Button("Start Charging", true))
    else c.(button := Button(c.button.caption, false))
  }

  /**
   * `updateStatus`: the status is stored; the transaction survives only
   * under a session status (compared lower-cased); the button follows.
   */
  function UpdateStatus(c: Card, status: string): (r: Card)
    ensures Get(r.state, "status") == Some(JStr(status))
    ensures Text.ToLower(status) in SESSION_STATUSES ==> Get(r.state, "transactionId") == Get(c.state, "transactionId")
    ensures Text.ToLower(status) !in SESSION_STATUSES ==> Get(r.state, "transactionId") == Some(JNull)
    ensures forall f :: f != "status" && f != "transactionId" ==> Get(r.state, f) == Get(c.state, f)
    ensures ButtonAgrees(r) && r.phases == c.phases && r.autoLoad == c.autoLoad
  {
    var state := c.state["status" := JStr(status)];
    var kept := if Text.ToLower(status) in SESSION_STATUSES then state else state["transactionId" := JNull];
    UpdateActionButton(c.(state := kept))
  }

  /** `updateTransaction`: a transaction on a card without energy starts it at 0. */
  function UpdateTransaction(c: Card, tx: Option<JVal>): (r: Card)
    ensures Get(r.state, "transactionId") == tx
    ensures Get(r.state, "status") == Get(c.state, "status")
    ensures ButtonAgrees(r) && r.phases == c.phases && r.autoLoad == c.autoLoad
  {
    var state := if tx.Some? then c.state["transactionId" := tx.value] else c.state - {"transactionId"};
    var energy := if Truthy(tx) && Get(state, "energy").None? then state["energy" := JNum(0.0)] else state;
    UpdateActionButton(c.(state := energy))
  }

  /** `setActivePhasesBySpeed`: a known speed picks the loads and locks them; anything else unlocks the manual choice. */
  function SetActivePhasesBySpeed(c: Card, speed: Option<JVal>): (r: Card)
    ensures speed.Some? && speed.value.JStr? && speed.value.s in SPEED_TO_LOADS ==>
      r == c.(phases := SPEED_TO_LOADS[speed.value.s], autoLoad := true)
    ensures !(speed.Some? && speed.value.JStr? && speed.value.s in SPEED_TO_LOADS) ==> r == c.(autoLoad := false)
  {
    if speed.Some? && speed.value.JStr? && speed.value.s in SPEED_TO_LOADS then
      c.(phases := SPEED_TO_LOADS[speed.value.s], autoLoad := true)
    else c.(autoLoad := false)
  }

  function CountTrue(bs: seq<bool>): nat {
    if bs == [] then 0 else (if bs[0] then 1 else 0) + CountTrue(bs[1..])
  }

  /**
   * The dashboard lights as many loads as the server's simulation counts
   * phases of 7.2 kW for the same speed.
   */
  lemma LoadsMatchSimulation(speed: string)
    requires speed in SPEED_TO_LOADS
    ensures CountTrue(SPEED_TO_LOADS[speed]) == Simulation.PhasesOf(speed)
    ensures |SPEED_TO_LOADS[speed]| == 3 && SPEED_TO_LOADS[speed][0]
  {
  }

  /**
   * What spreading a value into an object adds: an object's fields, and
   * nothing for `null`, `undefined`, booleans, numbers, an empty string or
   * an empty array. `None` for a non-empty string or array.
   */
  function SpreadOf(v: Option<JVal>): (r: Option<Obj>)
    ensures v.Some? && v.value.JObj? ==> r == Some(v.value.fields)
    ensures Nullish(v) ==> r == Some(map[])
  {
    match v
    case None => Some(map[])
    case Some(JObj(fields)) => Some(fields)
    case Some(JStr(s)) => if s == "" then Some(map[]) else None
    case Some(JArr(items)) => if items == [] then Some(map[]) else None
    case Some(_) => Some(map[])
  }

  /**
   * `updateAll`: merge the new state, report connected (the status or
   * Available), then re-apply the status and transaction and pick the
   * loads for a truthy speed. `None` when the status is not text.
   */
  function UpdateAll(c: Card, newState: Obj): (r: Option<Card>)
    ensures r.Some? <==> Or(Get(c.state + newState, "status"), JStr("Available")).JStr?
    ensures r.Some? ==> ButtonAgrees(r.value) && (Coherent(c) ==> Coherent(r.value))
    ensures r.Some? ==> Get(r.value.state, "status") == Some(Or(Get(c.state + newState, "status"), JStr("Available")))
  {
    var merged := c.(state := c.state + newState);
    var status := Or(Get(merged.state, "status"), JStr("Available"));
    if !status.JStr? then None
    else
      var connected := UpdateStatus(UpdateStatus(merged, status.s), status.s);
      var withTx := UpdateTransaction(connected, Get(connected.state, "transactionId"));
      var speed := Get(withTx.state, "chargeSpeed");
      Some(if Truthy(speed) then SetActivePhasesBySpeed(withTx, speed) else withTx)
  }

  /** The constructor's defaults under the initial state, then `updateAll`. */
  function NewCard(initial: Obj): (r: Option<Card>)
    ensures r.Some? ==> Coherent(r.value)
  {
    var defaults := map["energy" := JNum(0.0), "status" := JStr("Unavailable"), "transactionId" := JNull, "chargeSpeed" := JNull];
    var state := defaults + initial;
    UpdateAll(Card(state, MANUAL_LOADS, false, Button("Start Charging", false)), state)
  }

  lemma NewCardDefault(initial: Obj)
    ensures "status" !in initial ==>
      NewCard(initial).Some? && Get(NewCard(initial).value.state, "status") == Some(JStr("Unavailable"))
  {
  }

  lemma NewCardAvailable(initial: Obj)
    ensures NewCard(initial).Some? && Get(NewCard(initial).value.state, "status") == Some(JStr("Available")) ==>
      !HasTransaction(NewCard(initial).value)
  {
    var defaults := map["energy" := JNum(0.0), "status" := JStr("Unavailable"), "transactionId" := JNull, "chargeSpeed" := JNull];
    var state := defaults + initial;
    var c := Card(state, MANUAL_LOADS, false, Button("Start Charging", false));
    var merged := c.(state := c.state + state);
    var status := Or(Get(merged.state, "status"), JStr("Available"));
    if status == JStr("Available") {
      assert Text.ToLower("Available") == "available";
      var connected := UpdateStatus(UpdateStatus(merged, status.s), status.s);
      assert Get(connected.state, "transactionId") == Some(JNull);
    }
  }

  /** A card built from a state without status shows Unavailable; one that shows Available holds no transaction. */
  lemma NewCardStatus(initial: Obj)
    ensures "status" !in initial ==>
      NewCard(initial).Some? && Get(NewCard(initial).value.state, "status") == Some(JStr("Unavailable"))
    ensures NewCard(initial).Some? && Get(NewCard(initial).value.state, "status") == Some(JStr("Available")) ==>
      !HasTransaction(NewCard(initial).value)
  {
    NewCardDefault(initial);
    NewCardAvailable(initial);
  }


  // The log

  /** `parseOcppMessage`. */
  function ParseOcppMessage(data: Obj): (r: Parsed)
    ensures !(Get(data, "message").Some? && Get(data, "message").value.JArr?) ==> r == Parsed(Some(JStr("Unknown")), Some(JObj(map[])))
  {
    var message := Get(data, "message");
    if !(message.Some? && message.value.JArr?) then Parsed(Some(JStr("Unknown")), Some(JObj(map[])))
    else
      var m := message.value.items;
      var direction := Get(data, "direction");
      if direction == Some(JStr("request")) then Parsed(Stations.Item(m, 2), Stations.Item(m, 3))
      else if direction == Some(JStr("response")) then Parsed(Some(Or(Get(data, "action"), JStr("Response"))), Stations.Item(m, 2))
      else if direction == Some(JStr("info")) then Parsed(Some(JStr("Info")), Some(JObj(Stations.WithOpt(map[], "message", Stations.Item(m, 1)))))
      else Parsed(Some(JStr("Unknown")), Some(JObj(map[])))
  }

  /** The parser reads back what a frame carries: a request's action and payload, a response's payload. */
  lemma ParseReadsFrames(id: JVal, action: string, payload: JVal, original: Option<JVal>)
    ensures ParseOcppMessage(map["direction" := JStr("request"), "message" := Frames.ToJson(Frames.Call(id, action, payload))]) ==
      Parsed(Some(JStr(action)), Some(payload))
    ensures ParseOcppMessage(Stations.WithOpt(map["direction" := JStr("response"), "message" := Frames.ToJson(Frames.CallResult(id, payload))], "action", original)) ==
      Parsed(Some(Or(original, JStr("Response"))), Some(payload))
  {
    var withAction := Stations.WithOpt(map["direction" := JStr("response"), "message" := Frames.ToJson(Frames.CallResult(id, payload))], "action", original);
    assert Get(withAction, "direction") == Some(JStr("response"));
    assert Get(withAction, "action") == original;
  }

  /** `addLogRow`: the newest row first, the oldest dropped beyond the limit. */
  function AddLogRow(log: seq<LogRow>, data: Obj): (r: seq<LogRow>)
    ensures |r| == if |log| < MAX_LOG_ROWS then |log| + 1 else |log|
    ensures r[0] == LogRow(Get(data, "direction"),
      if Get(data, "chargePointId") == Some(JStr("CSMS_Dashboard")) then Some(JStr("CSMS")) else Get(data, "chargePointId"),
      ParseOcppMessage(data))
    ensures r[1..] == log[..|r| - 1]
  {
    var who := if Get(data, "chargePointId") == Some(JStr("CSMS_Dashboard")) then Some(JStr("CSMS")) else Get(data, "chargePointId");
    var rows := [LogRow(Get(data, "direction"), who, ParseOcppMessage(data))] + log;
    if |rows| > MAX_LOG_ROWS then rows[..|rows| - 1] else rows
  }

  function AddLogRows(log: seq<LogRow>, entries: seq<Obj>): seq<LogRow>
    decreases |entries|
  {
    if entries == [] then log else AddLogRows(AddLogRow(log, entries[0]), entries[1..])
  }

  /** However many messages arrive, the table holds at most 100 rows, the latest on top. */
  lemma {:induction false} LogBounded(log: seq<LogRow>, entries: seq<Obj>)
    requires |log| <= MAX_LOG_ROWS
    ensures |AddLogRows(log, entries)| == if |log| + |entries| < MAX_LOG_ROWS then |log| + |entries| else MAX_LOG_ROWS
    ensures entries != [] ==> AddLogRows(log, entries)[0].parsed == ParseOcppMessage(entries[|entries| - 1])
    decreases |entries|
  {
    if entries != [] {
      var next := AddLogRow(log, entries[0]);
      LogBounded(next, entries[1..]);
      if |entries| == 1 {
        assert AddLogRows(next, entries[1..]) == next;
      } else {
        assert entries[1..][|entries[1..]| - 1] == entries[|entries| - 1];
      }
    }
  }

  // The broadcast reducer

  predicate AllCoherent(d: Dash) {
    (forall k :: k in d.cards ==> Coherent(d.cards[k])) && |d.log| <= MAX_LOG_ROWS
  }

  /** A full status rebuilds the cards from the list, stopping at an item that throws. */
  function Rebuild(cards: map<Key, Card>, list: seq<JVal>): (r: map<Key, Card>)
    requires forall k :: k in cards ==> Coherent(cards[k])
    ensures forall k :: k in r ==> Coherent(r[k])
    decreases |list|
  {
    if list == [] || Nullish(Some(list[0])) then cards
    else match SpreadOf(Some(list[0]))
      case None => cards
      case Some(initial) =>
        match NewCard(initial)
        case None => cards
        case Some(card) => Rebuild(cards[Field(Some(list[0]), "id") := card], list[1..])
  }

  /** The card an event finds, built first for a connect, boot or status event about a new station. */
  function Target(d: Dash, data: Obj): (r: Option<Card>)
    requires AllCoherent(d)
    ensures r.Some? ==> Coherent(r.value)
    ensures Get(data, "id") in d.cards ==> r == Some(d.cards[Get(data, "id")])
  {
    var k := Get(data, "id");
    var kind := Get(data, "type");
    if k in d.cards then Some(d.cards[k])
    else if kind == Some(JStr("connect")) || kind == Some(JStr("boot")) || kind == Some(JStr("status")) then
      var fallback := Stations.WithOpt(map["status" := Or(Get(data, "status"), JStr("Available"))], "id", k);
      var initial := if Truthy(Get(data, "state")) then SpreadOf(Get(data, "state")) else Some(fallback);
      if initial.None? then None else NewCard(initial.value)
    else None
  }

  /** The readings a meter event carries; the button does not depend on them. */
  function ApplyReadings(c: Card, data: Obj): (r: Card)
    ensures Coherent(c) ==> Coherent(r)
    ensures Get(data, "value").Some? ==> Get(r.state, "energy") == Get(data, "value")
  {
    c.(state := Stations.WithOpt(Stations.WithOpt(c.state, "energy", Get(data, "value")), "soc", Get(data, "soc")))
  }

  /** The card after an event of one of the kinds that touch a card; `None` when the handler throws. */
  function CardEvent(c: Card, data: Obj): (r: Option<Card>)
    requires Coherent(c)
    ensures r.Some? ==> Coherent(r.value)
  {
    var kind := Get(data, "type");
    if kind == Some(JStr("connect")) || kind == Some(JStr("boot")) then
      match SpreadOf(Get(data, "state"))
      case None => None
      case Some(state) =>
        match UpdateAll(c, state)
        case None => None
        case Some(updated) =>
          var status := Or(Get(updated.state, "status"), JStr("Available"));
          Some(UpdateStatus(updated, status.s))
    else if kind == Some(JStr("disconnect")) then Some(UpdateStatus(c, "Disconnected"))
    else if kind == Some(JStr("status")) then
      match Get(data, "status")
      case Some(JStr(s)) => Some(UpdateStatus(c, s))
      case _ => None
    else if kind == Some(JStr("transactionStart")) then Some(UpdateTransaction(c, Get(data, "transactionId")))
    else if kind == Some(JStr("transactionStop")) then Some(UpdateTransaction(c, Some(JNull)))
    else if kind == Some(JStr("meterValue")) then Some(ApplyReadings(c, data))
    else if kind == Some(JStr("speedUpdate")) then Some(SetActivePhasesBySpeed(c, Get(data, "speed")))
    else Some(c)
  }

  /**
   * `ws.onmessage`. A handler that throws part-way keeps what it did
   * before the throw: a card it built stays, the event's own update is
   * lost.
   */
  function Reduce(d: Dash, message: JVal): (r: Dash)
    requires AllCoherent(d)
    ensures AllCoherent(r)
  {
    if !message.JObj? then d
    else
      var data := message.fields;
      var kind := Get(data, "type");
      var k := Get(data, "id");
      if kind == Some(JStr("fullStatus")) then
        var list := Get(data, "chargePoints");
        d.(cards := if list.Some? && list.value.JArr? then Rebuild(map[], list.value.items) else map[])
      else if kind == Some(JStr("log")) then d.(log := AddLogRow(d.log, data - {"type"}))
      else match Target(d, data)
        case None => d
        case Some(card) =>
          var built := d.(cards := d.cards[k := card]);
          match CardEvent(card, data)
          case None => built
          case Some(updated) =>
            var logged := if kind == Some(JStr("meterValue")) && Truthy(Get(data, "ocppStandardJson")) then
              AddLogRow(d.log, map["direction" := JStr("request"), "message" := Get(data, "ocppStandardJson").value]
                + Stations.WithOpt(map[], "chargePointId", k))
            else d.log;
            Dash(d.cards[k := updated], logged)
  }

  /** Five seconds after a disconnect, a card still Disconnected is wiped to a clean, manual state. */
  function Wipe(d: Dash, k: Key): (r: Dash)
    requires AllCoherent(d)
    ensures AllCoherent(r)
    ensures r.cards.Keys == d.cards.Keys && r.log == d.log
  {
    if k !in d.cards || Get(d.cards[k].state, "status") != Some(JStr("Disconnected")) then d
    else
      var clean := map["status" := JStr("Unavailable"), "vendor" := JStr("N/A"), "model" := JStr("N/A"),
        "transactionId" := JNull, "chargeSpeed" := JNull, "energy" := JNum(0.0), "soc" := JNum(0.0)];
      match UpdateAll(d.cards[k], clean)
      case None => d
      case Some(c) =>
        ManualLoadsCoherent(c);
        d.(cards := d.cards[k := c.(phases := MANUAL_LOADS, autoLoad := false)])
  }

  /** Going back to manual loads does not touch the state or the button. */
  lemma ManualLoadsCoherent(c: Card)
    requires Coherent(c)
    ensures Coherent(c.(phases := MANUAL_LOADS, autoLoad := false))
  {
    assert HasTransaction(c.(phases := MANUAL_LOADS, autoLoad := false)) == HasTransaction(c);
  }

  lemma DisconnectedEndsSession()
    ensures Text.ToLower("Disconnected") !in SESSION_STATUSES
  {
    assert Text.ToLower("Disconnected") == "disconnected";
  }

  /** The socket closed: every card reports Disconnected. */
  function Closed(d: Dash): (r: Dash)
    requires AllCoherent(d)
    ensures AllCoherent(r)
    ensures r.cards.Keys == d.cards.Keys
    ensures forall k :: k in r.cards ==> Get(r.cards[k].state, "status") == Some(JStr("Disconnected")) && !HasTransaction(r.cards[k])
  {
    DisconnectedEndsSession();
    d.(cards := map k | k in d.cards :: UpdateStatus(d.cards[k], "Disconnected"))
  }

  /** A disconnect clears the station's transaction and disables its button until it reconnects. */
  lemma DisconnectClears(d: Dash, id: JVal)
    requires AllCoherent(d) && Some(id) in d.cards
    ensures var r := Reduce(d, JObj(map["type" := JStr("disconnect"), "id" := id]));
      Get(r.cards[Some(id)].state, "status") == Some(JStr("Disconnected")) &&
      !HasTransaction(r.cards[Some(id)]) && !r.cards[Some(id)].button.enabled
  {
    var data := map["type" := JStr("disconnect"), "id" := id];
    var c := d.cards[Some(id)];
    assert Target(d, data) == Some(c);
    DisconnectedEndsSession();
    assert CardEvent(c, data) == Some(UpdateStatus(c, "Disconnected"));
  }

  /** The button rule as the operator sees it after a status report. */
  lemma ButtonAfterStatus(c: Card, status: string)
    ensures var r := UpdateStatus(c, status);
      (r.button.enabled && r.button.caption == "Stop Charging" <==> Text.ToLower(status) in SESSION_STATUSES && HasTransaction(c)) &&
      (r.button.caption == "Start Charging" && r.button.enabled <==> status == "Preparing")
  {
    if status == "Preparing" {
      assert Text.ToLower(status) == "preparing";
    }
  }
}

=== FILE: frames.dfy ===
/**
 * OCPP 1.6 JSON frames: `[2, id, action, payload]` (Call),
 * `[3, id, payload]` (CallResult) and `[4, id, code, description, details]`
 * (CallError), as every component of the system reads and writes them.
 */
module Frames {
  import opened Common
  import opened Json

  const CALL: real := 2.0
  const CALL_RESULT: real := 3.0
  const CALL_ERROR: real := 4.0

  datatype Frame =
    | Call(id: JVal, action: string, payload: JVal)
    | CallResult(id: JVal, payload: JVal)
    | CallError(id: JVal, code: string, description: string, details: JVal)

  function ToJson(f: Frame): JVal {
    match f
    case Call(id, action, payload) => JArr([JNum(CALL), id, JStr(action), payload])
    case CallResult(id, payload) => JArr([JNum(CALL_RESULT), id, payload])
    case CallError(id, code, description, details) =>
      JArr([JNum(CALL_ERROR), id, JStr(code), JStr(description), details])
  }

  /** Reads a frame; anything that is not one of the three shapes is `None`. */
  function FromJson(v: JVal): Option<Frame> {
    if !v.JArr? then None
    else
      var a := v.items;
      if |a| == 4 && a[0] == JNum(CALL) && a[2].JStr? then Some(Call(a[1], a[2].s, a[3]))
      else if |a| == 3 && a[0] == JNum(CALL_RESULT) then Some(CallResult(a[1], a[2]))
      else if |a| == 5 && a[0] == JNum(CALL_ERROR) && a[2].JStr? && a[3].JStr? then
        Some(CallError(a[1], a[2].s, a[3].s, a[4]))
      else None
  }

  /** Every frame reads back as itself. */
  lemma FromToJson(f: Frame)
    ensures FromJson(ToJson(f)) == Some(f)
  {
  }

  /** Whatever reads as a frame is exactly that frame's encoding. */
  lemma ToFromJson(v: JVal)
    ensures FromJson(v).Some? ==> ToJson(FromJson(v).value) == v
  {
    if FromJson(v).Some? {
      var a := v.items;
      match FromJson(v).value
      case Call(_, _, _) => assert ToJson(FromJson(v).value).items == a;
      case CallResult(_, _) => assert ToJson(FromJson(v).value).items == a;
      case CallError(_, _, _, _) => assert ToJson(FromJson(v).value).items == a;
    }
  }

  /**
   * What a component hands to one socket in one step. A `Request` is a Call
   * the component originates; its message id is a fresh random identifier,
   * which the model does not carry.
   */
  datatype Send =
    | Reply(id: JVal, payload: JVal)
    | Fail(id: JVal, code: string, description: string, details: JVal)
    | Request(action: string, payload: JVal)

  /** The frame a `Send` becomes once the originator has chosen `freshId`. */
  function ToFrame(s: Send, freshId: JVal): (f: Frame)
    ensures s.Reply? <==> f.CallResult?
    ensures s.Fail? <==> f.CallError?
    ensures s.Request? <==> f.Call?
    ensures !s.Request? ==> f.id == s.id
  {
    match s
    case Reply(id, payload) => CallResult(id, payload)
    case Fail(id, code, description, details) => CallError(id, code, description, details)
    case Request(action, payload) => Call(freshId, action, payload)
  }
}

=== FILE: handler.dfy ===
/**
 * The Python station (OCPP_handler.py): `handle_request` answers one Call
 * from the server with a list of messages. `MainStep` is one iteration of
 * the stdin loop. It answers a Call, records the transaction id a
 * CallResult carries, and swallows every malformed line.
 *
 * Time, the uuids of the station's own Calls and the random local
 * transaction number are parameters. An exception that the loop swallows is
 * `None`.
 */
module Handler {
  import opened Common
  import opened Json
  import Text
  import Frames
  import Messages
  import Configuration

  /** `random.randint(10000, 99999)`. */
  type Draw = n: int | 10000 <= n <= 99999 witness 10000

  /** The uuids of up to three Calls the station originates in one step. */
  datatype Uuids = Uuids(first: string, second: string, third: string)

  /**
   * The handler's mutable globals. A missing transaction is `JNull`.
   * The connector id is always 1 and is never read, so it is not carried.
   */
  datatype Local = Local(isCharging: bool, transactionId: JVal, config: Configuration.Config)

  const INITIAL: Local := Local(false, JNull, Configuration.PYTHON_DEFAULTS)

  const REMOTE_USER := "REMOTE_USER"

  /** `dict.get(k, default)` on the payload; a payload that is not a dict raises. */
  function PyGet(payload: JVal, k: string, default: JVal): (r: Option<JVal>)
    ensures r.Some? <==> payload.JObj?
    ensures payload.JObj? && k in payload.fields ==> r == Some(payload.fields[k])
    ensures payload.JObj? && k !in payload.fields ==> r == Some(default)
  {
    if !payload.JObj? then None
    else if k in payload.fields then Some(payload.fields[k]) else Some(default)
  }

  /** `create_call_message`: a Call the station originates. */
  function CallMessage(uuid: string, action: string, payload: JVal): (v: JVal)
    ensures Frames.FromJson(v) == Some(Frames.Call(JStr(uuid), action, payload))
  {
    Frames.FromToJson(Frames.Call(JStr(uuid), action, payload));
    Frames.ToJson(Frames.Call(JStr(uuid), action, payload))
  }

  /** A StatusNotification Call on connector 1 reporting `status`. */
  function StatusCall(uuid: string, status: string): (v: JVal)
    ensures Frames.FromJson(v).Some? && Frames.FromJson(v).value.Call? && Frames.FromJson(v).value.action == "StatusNotification"
    ensures Field(Some(Frames.FromJson(v).value.payload), "status") == Some(JStr(status))
  {
    CallMessage(uuid, "StatusNotification",
      JObj(map["connectorId" := JNum(1.0), "errorCode" := JStr("NoError"), "status" := JStr(status)]))
  }

  /** The actions `handle_request` answers with a CallResult. */
  const SUPPORTED: set<string> := {
    "BootNotification", "Heartbeat", "Authorize", "StatusNotification", "StartTransaction",
    "MeterValues", "StopTransaction", "DataTransfer", "ClearCache", "ChangeConfiguration",
    "GetConfiguration", "RemoteStartTransaction", "RemoteStopTransaction"
  }

  predicate Supported(action: JVal) {
    action.JStr? && action.s in SUPPORTED
  }

  /**
   * How `handle_request` settles one Call before the reply is framed:
   * answered with a payload, the extra Calls and the new globals, or not
   * supported.
   */
  datatype Outcome =
    | Answered(payload: JVal, extra: seq<JVal>, state: Local)
    | Unsupported

  /** Python `k in dict`: a list or dict as the key raises. */
  function PyHas(c: Configuration.Config, k: JVal): (r: Option<bool>)
    ensures r.None? <==> k.JArr? || k.JObj?
    ensures r.Some? ==> (r.value <==> Configuration.Has(c, k))
  {
    if k.JArr? || k.JObj? then None else Some(Configuration.Has(c, k))
  }

  /**
   * What `for k in requested_keys` walks over. A list gives its elements and
   * a string its characters. A number, a boolean or null is not iterable,
   * so it raises.
   */
  function Iterated(v: JVal): (r: Option<seq<JVal>>)
    ensures v.JArr? ==> r == Some(v.items)
    ensures v.JStr? ==> r.Some? && |r.value| == |v.s|
    ensures v.JNum? || v.JBool? || v.JNull? ==> r.None?
  {
    match v
    case JArr(items) => Some(items)
    case JStr(s) => Some(seq(|s|, i requires 0 <= i < |s| => JStr([s[i]])))
    case _ => None
  }

  /** GetConfiguration: a falsy key list (absent, empty, null, "") means every key. */
  function Requested(c: Configuration.Config, payload: JVal): (r: Option<seq<JVal>>)
    ensures payload.JObj? && ("key" !in payload.fields || !PyTruthy(payload.fields["key"])) ==>
      r == Some(Configuration.AllKeys(c))
    ensures payload.JObj? && "key" in payload.fields && payload.fields["key"].JArr? && |payload.fields["key"].items| > 0 ==>
      r == Some(payload.fields["key"].items)
    ensures !payload.JObj? ==> r.None?
  {
    match PyGet(payload, "key", JArr([]))
    case None => None
    case Some(keys) =>
      if !PyTruthy(keys) then Some(Configuration.AllKeys(c)) else Iterated(keys)
  }

  /** No requested key is a list or dict, so the membership tests do not raise. */
  predicate Hashable(ks: seq<JVal>) {
    forall i :: 0 <= i < |ks| ==> !ks[i].JArr? && !ks[i].JObj?
  }

  function GetConfiguration(c: Configuration.Config, payload: JVal): (r: Option<JVal>)
    ensures r.Some? ==> Requested(c, payload).Some?
    ensures Requested(c, payload).Some? ==>
      var ks := Requested(c, payload).value;
      (r.Some? <==> Hashable(ks)) &&
      (r.Some? ==> r.value == Messages.GetConfigurationPayload(
        Some(Configuration.Entries(c, Configuration.KnownNames(c, ks))),
        Some(Configuration.UnknownKeys(c, ks))))
  {
    match Requested(c, payload)
    case None => None
    case Some(ks) =>
      if !Hashable(ks) then None
      else
        Configuration.PartitionSpec(c, ks);
        var (known, unknown) := Configuration.Partition(c, ks);
        Some(Messages.GetConfigurationPayload(Some(known), Some(unknown)))
  }

  function ChangeConfiguration(st: Local, payload: JVal): (r: Option<(JVal, Local)>)
    ensures r.Some? <==> payload.JObj? && PyHas(st.config, Field(Some(payload), "key").GetOr(JNull)).Some?
    ensures r.Some? ==>
      var key := Field(Some(payload), "key").GetOr(JNull);
      var value := Field(Some(payload), "value").GetOr(JNull);
      var (status, config) := Configuration.Change(st.config, key, value);
      r.value == (Messages.StatusOnly(Configuration.ChangeStatusName(status)), st.(config := config))
  {
    match PyGet(payload, "key", JNull)
    case None => None
    case Some(key) =>
      var value := PyGet(payload, "value", JNull).value;
      if PyHas(st.config, key).None? then None
      else
        var (status, config) := Configuration.Change(st.config, key, value);
        Some((Messages.StatusOnly(Configuration.ChangeStatusName(status)), st.(config := config)))
  }

  /** RemoteStartTransaction: accept and script Preparing, StartTransaction, Charging. */
  function RemoteStart(st: Local, payload: JVal, now: string, ids: Uuids): Option<Outcome> {
    match PyGet(payload, "idTag", JStr(REMOTE_USER))
    case None => None
    case Some(idTag) =>
      Some(Answered(Messages.StatusOnly("Accepted"), [
        StatusCall(ids.first, "Preparing"),
        CallMessage(ids.second, "StartTransaction", JObj(map[
          "connectorId" := JNum(1.0), "idTag" := idTag, "meterStart" := JNum(0.0), "timestamp" := JStr(now)])),
        StatusCall(ids.third, "Charging")
      ], st.(isCharging := true)))
  }

  /** RemoteStopTransaction: accept and script Finishing, StopTransaction, Available. */
  function RemoteStop(st: Local, payload: JVal, now: string, ids: Uuids): Option<Outcome> {
    match PyGet(payload, "transactionId", JNull)
    case None => None
    case Some(tx) =>
      Some(Answered(Messages.StatusOnly("Accepted"), [
        StatusCall(ids.first, "Finishing"),
        CallMessage(ids.second, "StopTransaction", JObj(map[
          "transactionId" := (if PyTruthy(tx) then tx else st.transactionId),
          "meterStop" := JNum(0.0), "timestamp" := JStr(now), "reason" := JStr("Remote")])),
        StatusCall(ids.third, "Available")
      ], st.(isCharging := false, transactionId := JNull)))
  }

  /** The action dispatch of `handle_request`. */
  function Respond(action: JVal, payload: JVal, st: Local, now: string, draw: Draw, ids: Uuids): (r: Option<Outcome>)
    ensures !Supported(action) ==> r == Some(Unsupported)
    ensures r.Some? && Supported(action) ==> r.value.Answered?
  {
    if !action.JStr? then Some(Unsupported)
    else match action.s
      case "RemoteStartTransaction" => RemoteStart(st, payload, now, ids)
      case "RemoteStopTransaction" => RemoteStop(st, payload, now, ids)
      case "BootNotification" => Some(Answered(Messages.BootPayload(now), [], st))
      case "Heartbeat" => Some(Answered(Messages.HeartbeatPayload(now), [], st))
      case "Authorize" => Some(Answered(Messages.IdTagPayload(), [], st))
      case "StatusNotification" => Some(Answered(Messages.EmptyPayload(), [], st))
      case "StartTransaction" =>
        Some(Answered(Messages.StartTransactionPayload(JNum(draw as real)), [],
          st.(transactionId := JNum(draw as real), isCharging := true)))
      case "MeterValues" => Some(Answered(Messages.EmptyPayload(), [], st))
      case "StopTransaction" =>
        Some(Answered(Messages.IdTagPayload(), [], st.(isCharging := false, transactionId := JNull)))
      case "DataTransfer" => Some(Answered(Messages.StatusOnly("Accepted"), [], st))
      case "ClearCache" => Some(Answered(Messages.StatusOnly("Accepted"), [], st))
      case "ChangeConfiguration" =>
        (match ChangeConfiguration(st, payload)
         case None => None
         case Some((p, st')) => Some(Answered(p, [], st')))
      case "GetConfiguration" =>
        (match GetConfiguration(st.config, payload)
         case None => None
         case Some(p) => Some(Answered(p, [], st)))
      case _ => Some(Unsupported)
  }

  /** The CallError an unsupported action earns. */
  function NotSupportedError(uid: JVal): Frames.Frame {
    Frames.CallError(uid, "NotSupported", "Action not supported", JObj(map[]))
  }

  /** What `handle_request` returns: the messages to print, and the new globals. */
  datatype Handled = Handled(messages: seq<JVal>, state: Local)

  /**
   * `handle_request` as written. An unsupported action returns the bare
   * CallError array rather than a list holding it.
   */
  function HandleRequestAsWritten(action: JVal, payload: JVal, uid: JVal, st: Local, now: string, draw: Draw, ids: Uuids): Option<Handled> {
    match Respond(action, payload, st, now, draw, ids)
    case None => None
    case Some(Unsupported) => Some(Handled(Frames.ToJson(NotSupportedError(uid)).items, st))
    case Some(Answered(p, extra, st')) => Some(Handled([Messages.CallResultMessage(uid, p)] + extra, st'))
  }

  /**
   * `handle_request` with the unsupported case wrapped in a list, as the
   * loop that prints the result element by element expects. Every answer
   * is a list of frames. A supported action gives a CallResult for `uid`
   * followed by the station's own Calls. An unsupported action gives
   * exactly one CallError.
   */
  function HandleRequest(action: JVal, payload: JVal, uid: JVal, st: Local, now: string, draw: Draw, ids: Uuids): (r: Option<Handled>)
    ensures r.Some? ==> (|r.value.messages| >= 1 &&
      forall i :: 0 <= i < |r.value.messages| ==> Frames.FromJson(r.value.messages[i]).Some?)
    ensures !Supported(action) ==>
      r == Some(Handled([Frames.ToJson(NotSupportedError(uid))], st))
    ensures r.Some? && Supported(action) ==>
      Frames.FromJson(r.value.messages[0]).value.CallResult? &&
      Frames.FromJson(r.value.messages[0]).value.id == uid &&
      forall i :: 1 <= i < |r.value.messages| ==> Frames.FromJson(r.value.messages[i]).value.Call?
  {
    match Respond(action, payload, st, now, draw, ids)
    case None => None
    case Some(Unsupported) =>
      Frames.FromToJson(NotSupportedError(uid));
      Some(Handled([Frames.ToJson(NotSupportedError(uid))], st))
    case Some(Answered(p, extra, st')) =>
      ExtraAreCalls(action, payload, st, now, draw, ids);
      Some(Handled([Messages.CallResultMessage(uid, p)] + extra, st'))
  }

  /** The extra messages of every answered action are Calls. */
  lemma ExtraAreCalls(action: JVal, payload: JVal, st: Local, now: string, draw: Draw, ids: Uuids)
    requires Respond(action, payload, st, now, draw, ids).Some?
    requires Respond(action, payload, st, now, draw, ids).value.Answered?
    ensures var extra := Respond(action, payload, st, now, draw, ids).value.extra;
      forall i :: 0 <= i < |extra| ==> Frames.FromJson(extra[i]).Some? && Frames.FromJson(extra[i]).value.Call?
  {
    var extra := Respond(action, payload, st, now, draw, ids).value.extra;
    forall i | 0 <= i < |extra|
      ensures Frames.FromJson(extra[i]).Some? && Frames.FromJson(extra[i]).value.Call?
    {
      assert extra[i].items[0] == JNum(Frames.CALL);
    }
  }

  /** The two versions differ only on unsupported actions. */
  lemma AsWrittenAgreesWhenSupported(action: JVal, payload: JVal, uid: JVal, st: Local, now: string, draw: Draw, ids: Uuids)
    requires Supported(action)
    ensures HandleRequestAsWritten(action, payload, uid, st, now, draw, ids) == HandleRequest(action, payload, uid, st, now, draw, ids)
  {
  }

  /**
   * As written, an unsupported action prints the five fields of the
   * CallError on five lines. The first line is the number 4, which no
   * reader takes for a frame.
   */
  lemma UnsupportedPrintsFields(action: JVal, payload: JVal, uid: JVal, st: Local, now: string, draw: Draw, ids: Uuids)
    requires !Supported(action)
    ensures var r := HandleRequestAsWritten(action, payload, uid, st, now, draw, ids);
      r.Some? && |r.value.messages| == 5 &&
      r.value.messages[0] == JNum(Frames.CALL_ERROR) &&
      Frames.FromJson(r.value.messages[0]).None? &&
      Frames.ToJson(NotSupportedError(uid)) !in r.value.messages
  {
    var r := HandleRequestAsWritten(action, payload, uid, st, now, draw, ids);
    var ms := r.value.messages;
    forall i | 0 <= i < 5
      ensures ms[i] != Frames.ToJson(NotSupportedError(uid))
    {
      if i == 1 {
        assert JsonSize(uid) < JsonSize(Frames.ToJson(NotSupportedError(uid))) by {
          ItemSmaller([JNum(Frames.CALL_ERROR), uid, JStr("NotSupported"), JStr("Action not supported"), JObj(map[])], 1);
        }
      }
    }
  }

  /** Nesting depth, to show that no value contains itself. */
  function JsonSize(v: JVal): nat {
    match v
    case JArr(items) => 1 + ItemsSize(items)
    case _ => 0
  }

  function ItemsSize(items: seq<JVal>): nat {
    if |items| == 0 then 0 else
      var a := JsonSize(items[0]);
      var b := ItemsSize(items[1..]);
      if a > b then a else b
  }

  lemma {:induction false} ItemSmaller(items: seq<JVal>, i: nat)
    requires i < |items|
    ensures JsonSize(items[i]) < JsonSize(JArr(items))
  {
    if i > 0 {
      ItemSmaller(items[1..], i - 1);
      assert items[1..][i - 1] == items[i];
    }
  }

  /** A supported action's reply is the CallResult for the Call's own id. */
  lemma SupportedAnswersFirst(action: JVal, payload: JVal, uid: JVal, st: Local, now: string, draw: Draw, ids: Uuids)
    requires Supported(action)
    requires HandleRequest(action, payload, uid, st, now, draw, ids).Some?
    ensures var ms := HandleRequest(action, payload, uid, st, now, draw, ids).value.messages;
      exists p :: ms[0] == Messages.CallResultMessage(uid, p)
  {
    var p := Respond(action, payload, st, now, draw, ids).value.payload;
    assert HandleRequest(action, payload, uid, st, now, draw, ids).value.messages[0] == Messages.CallResultMessage(uid, p);
  }

  /** Local StartTransaction takes a five-digit transaction number; StopTransaction clears it. */
  lemma LocalTransactions(payload: JVal, uid: JVal, st: Local, now: string, draw: Draw, ids: Uuids)
    ensures var r := HandleRequest(JStr("StartTransaction"), payload, uid, st, now, draw, ids);
      r.Some? && r.value.state.isCharging && r.value.state.transactionId.JNum? &&
      10000.0 <= r.value.state.transactionId.n <= 99999.0 &&
      r.value.messages == [Messages.CallResultMessage(uid, Messages.StartTransactionPayload(r.value.state.transactionId))]
    ensures var r := HandleRequest(JStr("StopTransaction"), payload, uid, st, now, draw, ids);
      r.Some? && !r.value.state.isCharging && r.value.state.transactionId == JNull
  {
  }

  /** A ChangeConfiguration answer carries the store's verdict and applies exactly its change. */
  lemma ChangeConfigurationRule(payload: JVal, uid: JVal, st: Local, now: string, draw: Draw, ids: Uuids)
    requires payload.JObj?
    requires "key" in payload.fields && payload.fields["key"].JStr?
    ensures var r := HandleRequest(JStr("ChangeConfiguration"), payload, uid, st, now, draw, ids);
      var (status, config) := Configuration.Change(st.config, payload.fields["key"], Field(Some(payload), "value").GetOr(JNull));
      r == Some(Handled([Messages.CallResultMessage(uid, Messages.StatusOnly(Configuration.ChangeStatusName(status)))],
        st.(config := config)))
  {
    var key := payload.fields["key"];
    var value := Field(Some(payload), "value").GetOr(JNull);
    assert PyGet(payload, "key", JNull) == Some(key);
    assert PyGet(payload, "value", JNull).value == value;
    var (status, config) := Configuration.Change(st.config, key, value);
    var p := Messages.StatusOnly(Configuration.ChangeStatusName(status));
    assert ChangeConfiguration(st, payload) == Some((p, st.(config := config)));
    assert Respond(JStr("ChangeConfiguration"), payload, st, now, draw, ids) == Some(Answered(p, [], st.(config := config)));
    assert [Messages.CallResultMessage(uid, p)] + [] == [Messages.CallResultMessage(uid, p)];
  }

  /** GetConfiguration without a key list reports every key and no unknown key. */
  lemma GetEverything(st: Local, payload: JVal)
    requires payload.JObj? && ("key" !in payload.fields || !PyTruthy(payload.fields["key"]))
    ensures GetConfiguration(st.config, payload) == Some(Messages.GetConfigurationPayload(
      Some(Configuration.Entries(st.config, Configuration.KnownNames(st.config, Configuration.AllKeys(st.config)))),
      Some([])))
    ensures |Configuration.KnownNames(st.config, Configuration.AllKeys(st.config))| == |st.config|
  {
    var ks := Configuration.AllKeys(st.config);
    Configuration.AllKeysKnown(st.config);
    assert Hashable(ks);
  }

  /**
   * RemoteStartTransaction: accepted, then exactly three Calls in order:
   * Preparing, a StartTransaction from meter 0 for the payload's idTag
   * (REMOTE_USER when absent), Charging.
   */
  lemma RemoteStartScript(payload: JVal, uid: JVal, st: Local, now: string, draw: Draw, ids: Uuids)
    requires payload.JObj?
    ensures var r := HandleRequest(JStr("RemoteStartTransaction"), payload, uid, st, now, draw, ids);
      var idTag := if "idTag" in payload.fields then payload.fields["idTag"] else JStr(REMOTE_USER);
      r.Some? && |r.value.messages| == 4 &&
      Frames.FromJson(r.value.messages[0]) == Some(Frames.CallResult(uid, Messages.StatusOnly("Accepted"))) &&
      Frames.FromJson(r.value.messages[1]).value.action == "StatusNotification" &&
      Field(Some(Frames.FromJson(r.value.messages[1]).value.payload), "status") == Some(JStr("Preparing")) &&
      Frames.FromJson(r.value.messages[2]).value.action == "StartTransaction" &&
      Field(Some(Frames.FromJson(r.value.messages[2]).value.payload), "idTag") == Some(idTag) &&
      Field(Some(Frames.FromJson(r.value.messages[2]).value.payload), "meterStart") == Some(JNum(0.0)) &&
      Frames.FromJson(r.value.messages[3]).value.action == "StatusNotification" &&
      Field(Some(Frames.FromJson(r.value.messages[3]).value.payload), "status") == Some(JStr("Charging")) &&
      r.value.state == st.(isCharging := true)
  {
  }

  /**
   * RemoteStopTransaction: accepted, then Finishing, a StopTransaction for
   * the payload's transaction (the local one when the payload's is falsy)
   * from meter 0, and Available; afterwards nothing is charging and no
   * transaction is held.
   */
  lemma RemoteStopScript(payload: JVal, uid: JVal, st: Local, now: string, draw: Draw, ids: Uuids)
    requires payload.JObj?
    ensures var r := HandleRequest(JStr("RemoteStopTransaction"), payload, uid, st, now, draw, ids);
      var tx := if "transactionId" in payload.fields && PyTruthy(payload.fields["transactionId"])
        then payload.fields["transactionId"] else st.transactionId;
      r.Some? && |r.value.messages| == 4 &&
      Frames.FromJson(r.value.messages[0]) == Some(Frames.CallResult(uid, Messages.StatusOnly("Accepted"))) &&
      Field(Some(Frames.FromJson(r.value.messages[1]).value.payload), "status") == Some(JStr("Finishing")) &&
      Frames.FromJson(r.value.messages[2]).value.action == "StopTransaction" &&
      Field(Some(Frames.FromJson(r.value.messages[2]).value.payload), "transactionId") == Some(tx) &&
      Field(Some(Frames.FromJson(r.value.messages[2]).value.payload), "meterStop") == Some(JNum(0.0)) &&
      Field(Some(Frames.FromJson(r.value.messages[3]).value.payload), "status") == Some(JStr("Available")) &&
      !r.value.state.isCharging && r.value.state.transactionId == JNull &&
      r.value.state.config == st.config
  {
  }

  /** The per-line inputs the loop draws from the outside world. */
  datatype Env = Env(now: string, draw: Draw, ids: Uuids)

  /** What one line of stdin produces: the lines printed and the new globals. */
  datatype Printed = Printed(lines: seq<JVal>, state: Local)

  /** A CallResult whose payload is an object holding `transactionId`. */
  predicate CarriesTransaction(line: Option<JVal>) {
    line.Some? && line.value.JArr? && |line.value.items| >= 3 &&
    line.value.items[0] == JNum(Frames.CALL_RESULT) && line.value.items[2].JObj? &&
    "transactionId" in line.value.items[2].fields
  }

  /** A Call, with action and payload present, whose action the handler does not support. */
  predicate UnsupportedCall(line: Option<JVal>) {
    line.Some? && line.value.JArr? && |line.value.items| >= 4 &&
    line.value.items[0] == JNum(Frames.CALL) && !Supported(line.value.items[2])
  }

  /**
   * One iteration of `main_loop`, on a line already parsed (`None` when it
   * is not JSON), answering Calls with `answer`. The id is read before the
   * type test, so a one-element array raises.
   */
  function LoopStep(line: Option<JVal>, st: Local, env: Env, corrected: bool): Printed {
    if line.None? || !line.value.JArr? || |line.value.items| < 2 then Printed([], st)
    else
      var msg := line.value.items;
      if msg[0] == JNum(Frames.CALL) then
        if |msg| < 4 then Printed([], st)
        else
          var answer :=
            if corrected then HandleRequest(msg[2], msg[3], msg[1], st, env.now, env.draw, env.ids)
            else HandleRequestAsWritten(msg[2], msg[3], msg[1], st, env.now, env.draw, env.ids);
          match answer
          case None => Printed([], st)
          case Some(Handled(out, st')) => Printed(out, st')
      else if msg[0] == JNum(Frames.CALL_RESULT) then
        if |msg| < 3 then Printed([], st)
        else if msg[2].JObj? && "transactionId" in msg[2].fields then
          Printed([], st.(transactionId := msg[2].fields["transactionId"]))
        else Printed([], st)
      else Printed([], st)
  }

  /**
   * One iteration of `main_loop` as written: every element of what
   * `handle_request` returns is printed on its own line. For an
   * unsupported action those are the five fields of the CallError, the
   * first being the bare number 4.
   */
  function MainStep(line: Option<JVal>, st: Local, env: Env): (r: Printed)
    ensures line.None? ==> r == Printed([], st)
    ensures CarriesTransaction(line) ==>
      r == Printed([], st.(transactionId := line.value.items[2].fields["transactionId"]))
    ensures UnsupportedCall(line) ==>
      |r.lines| == 5 && r.lines[0] == JNum(Frames.CALL_ERROR) && Frames.FromJson(r.lines[0]).None? && r.state == st
  {
    if UnsupportedCall(line) then
      var msg := line.value.items;
      UnsupportedPrintsFields(msg[2], msg[3], msg[1], st, env.now, env.draw, env.ids);
      LoopStep(line, st, env, false)
    else LoopStep(line, st, env, false)
  }

  /** One iteration of the loop with the unsupported answer wrapped in a list. */
  function MainStepCorrected(line: Option<JVal>, st: Local, env: Env): (r: Printed)
    ensures forall i :: 0 <= i < |r.lines| ==> Frames.FromJson(r.lines[i]).Some?
    ensures UnsupportedCall(line) ==>
      r == Printed([Frames.ToJson(NotSupportedError(line.value.items[1]))], st)
  {
    LoopStep(line, st, env, true)
  }

  /** The two loops differ only on a Call whose action is unsupported. */
  lemma MainStepsAgree(line: Option<JVal>, st: Local, env: Env)
    requires !UnsupportedCall(line)
    ensures MainStep(line, st, env) == MainStepCorrected(line, st, env)
  {
    if line.Some? && line.value.JArr? && |line.value.items| >= 4 && line.value.items[0] == JNum(Frames.CALL) {
      var msg := line.value.items;
      AsWrittenAgreesWhenSupported(msg[2], msg[3], msg[1], st, env.now, env.draw, env.ids);
    }
  }

  /**
   * The corrected loop prints only well-formed frames, and only in answer
   * to a Call. Every other line prints nothing, and only a CallResult
   * changes the globals. The loop as written does the same on every line
   * that is not an unsupported Call.
   */
  lemma MainStepPrintsFrames(line: Option<JVal>, st: Local, env: Env)
    ensures var r := MainStepCorrected(line, st, env);
      |r.lines| > 0 ==> (line.Some? && line.value.JArr? && |line.value.items| >= 4 &&
        line.value.items[0] == JNum(Frames.CALL))
    ensures var r := MainStepCorrected(line, st, env);
      (line.None? || !line.value.JArr? || |line.value.items| == 0 ||
       (line.value.items[0] != JNum(Frames.CALL) && line.value.items[0] != JNum(Frames.CALL_RESULT))) ==>
      r == Printed([], st)
    ensures !UnsupportedCall(line) ==>
      forall i :: 0 <= i < |MainStep(line, st, env).lines| ==> Frames.FromJson(MainStep(line, st, env).lines[i]).Some?
  {
    if !UnsupportedCall(line) {
      MainStepsAgree(line, st, env);
    }
  }

  /** The whole loop as written over a sequence of lines, one environment per line. */
  function Run(lines: seq<Option<JVal>>, st: Local, envs: seq<Env>): (r: Printed)
    requires |envs| == |lines|
    ensures |lines| > 0 && UnsupportedCall(lines[0]) ==>
      |r.lines| >= 5 && r.lines[0] == JNum(Frames.CALL_ERROR) && Frames.FromJson(r.lines[0]).None?
    decreases |lines|
  {
    if |lines| == 0 then Printed([], st)
    else
      var first := MainStep(lines[0], st, envs[0]);
      var rest := Run(lines[1..], first.state, envs[1..]);
      Printed(first.lines + rest.lines, rest.state)
  }

  /** The whole loop with the corrected answer: every printed line is a well-formed frame. */
  function RunCorrected(lines: seq<Option<JVal>>, st: Local, envs: seq<Env>): (r: Printed)
    requires |envs| == |lines|
    ensures forall i :: 0 <= i < |r.lines| ==> Frames.FromJson(r.lines[i]).Some?
    decreases |lines|
  {
    if |lines| == 0 then Printed([], st)
    else
      var first := MainStepCorrected(lines[0], st, envs[0]);
      var rest := RunCorrected(lines[1..], first.state, envs[1..]);
      Printed(first.lines + rest.lines, rest.state)
  }

  /** Without unsupported Calls among the lines, the loop as written is the corrected one. */
  lemma {:induction false} RunsAgree(lines: seq<Option<JVal>>, st: Local, envs: seq<Env>)
    requires |envs| == |lines|
    requires forall i :: 0 <= i < |lines| ==> !UnsupportedCall(lines[i])
    ensures Run(lines, st, envs) == RunCorrected(lines, st, envs)
    decreases |lines|
  {
    if |lines| > 0 {
      MainStepsAgree(lines[0], st, envs[0]);
      var first := MainStep(lines[0], st, envs[0]);
      RunsAgree(lines[1..], first.state, envs[1..]);
    }
  }
}

=== FILE: history.dfy ===
/**
 * The dashboard's transaction history (public/app.js): the search filter
 * over the history table and the aggregation behind the usage charts.
 *
 * A row carries its start time already split the two ways the page reads
 * it: the UTC calendar date (`toISOString().split('T')[0]`) and the local
 * hour (`getHours()`). Parsing the timestamp is left out.
 */
module History {
  import opened Common
  import Text

  /**
   * A history row as the server's query returns it; the meter columns are
   * integers or `null` (`None`), and `total_energy` is their difference,
   * `null` when either is.
   */
  datatype TxRow = TxRow(
    id: int,
    chargePointId: string,
    startDate: string,
    startHour: nat,
    totalEnergy: Option<int>,
    meterStart: Option<int>,
    meterStop: Option<int>)

  // The filter

  /**
   * A row stays when its id contains the transaction search, its station
   * (lower-cased) contains the station search, and its start date is the
   * chosen date when one is chosen. Both searches are lower-cased first.
   */
  predicate Keep(row: TxRow, txSearch: string, cpSearch: string, dateSearch: string) {
    Text.Contains(Text.IntToString(row.id), Text.ToLower(txSearch)) &&
    Text.Contains(Text.ToLower(row.chargePointId), Text.ToLower(cpSearch)) &&
    (dateSearch == "" || row.startDate == dateSearch)
  }

  function Filter(rows: seq<TxRow>, txSearch: string, cpSearch: string, dateSearch: string): (r: seq<TxRow>)
    ensures |r| <= |rows|
    ensures forall x :: x in r <==> x in rows && Keep(x, txSearch, cpSearch, dateSearch)
  {
    if rows == [] then []
    else
      var rest := Filter(rows[1..], txSearch, cpSearch, dateSearch);
      if Keep(rows[0], txSearch, cpSearch, dateSearch) then [rows[0]] + rest else rest
  }

  /** One row is shown exactly when it is kept. */
  lemma FilterOne(row: TxRow, txSearch: string, cpSearch: string, dateSearch: string)
    ensures Filter([row], txSearch, cpSearch, dateSearch) == if Keep(row, txSearch, cpSearch, dateSearch) then [row] else []
  {
    assert [row][1..] == [];
  }

  /** The filter works row by row and keeps the table's order: filtering a concatenation concatenates the filtered parts. */
  lemma {:induction false} FilterAppend(a: seq<TxRow>, b: seq<TxRow>, txSearch: string, cpSearch: string, dateSearch: string)
    ensures Filter(a + b, txSearch, cpSearch, dateSearch) == Filter(a, txSearch, cpSearch, dateSearch) + Filter(b, txSearch, cpSearch, dateSearch)
  {
    if a == [] {
      assert a + b == b;
    } else {
      assert (a + b)[0] == a[0];
      assert (a + b)[1..] == a[1..] + b;
      FilterAppend(a[1..], b, txSearch, cpSearch, dateSearch);
    }
  }

  /** Filtering again with the same searches changes nothing. */
  lemma {:induction false} FilterIdempotent(rows: seq<TxRow>, txSearch: string, cpSearch: string, dateSearch: string)
    ensures Filter(Filter(rows, txSearch, cpSearch, dateSearch), txSearch, cpSearch, dateSearch) == Filter(rows, txSearch, cpSearch, dateSearch)
  {
    if rows != [] {
      FilterIdempotent(rows[1..], txSearch, cpSearch, dateSearch);
      var rest := Filter(rows[1..], txSearch, cpSearch, dateSearch);
      if Keep(rows[0], txSearch, cpSearch, dateSearch) {
        assert ([rows[0]] + rest)[1..] == rest;
      }
    }
  }

  lemma ContainsEmpty(s: string)
    ensures Text.Contains(s, "")
  {
  }

  /** With every search empty the whole table shows, in order. */
  lemma {:induction false} EmptySearchKeepsAll(rows: seq<TxRow>)
    ensures Filter(rows, "", "", "") == rows
  {
    if rows != [] {
      EmptySearchKeepsAll(rows[1..]);
      ContainsEmpty(Text.IntToString(rows[0].id));
      ContainsEmpty(Text.ToLower(rows[0].chargePointId));
      assert Text.ToLower("") == "";
      assert [rows[0]] + rows[1..] == rows;
    }
  }

  // Energy per row

  /** A `null` meter reads as 0 in a subtraction. */
  function MeterOr0(v: Option<int>): int {
    if v.Some? then v.value else 0
  }

  /** `tx.total_energy || (tx.meter_stop - tx.meter_start) || 0`. */
  function Energy(tx: TxRow): (e: int)
    ensures tx.totalEnergy.Some? && tx.totalEnergy.value != 0 ==> e == tx.totalEnergy.value
    ensures !(tx.totalEnergy.Some? && tx.totalEnergy.value != 0) ==> e == MeterOr0(tx.meterStop) - MeterOr0(tx.meterStart)
  {
    if tx.totalEnergy.Some? && tx.totalEnergy.value != 0 then tx.totalEnergy.value
    else
      var diff := MeterOr0(tx.meterStop) - MeterOr0(tx.meterStart);
      if diff != 0 then diff else 0
  }

  /**
   * On a finished transaction the energy is the meter difference. On one
   * still running (no stop reading) it is minus the start reading, because
   * `null - start` is a number, not NaN.
   */
  lemma EnergyOfRows(tx: TxRow)
    ensures tx.meterStart.Some? && tx.meterStop.Some? && tx.totalEnergy == Some(tx.meterStop.value - tx.meterStart.value) ==>
      Energy(tx) == tx.meterStop.value - tx.meterStart.value
    ensures tx.meterStop.None? && tx.totalEnergy.None? ==> Energy(tx) == -MeterOr0(tx.meterStart)
  {
  }

  // Aggregation

  const HOURS_IN_DAY: nat := 24

  function HourLabel(h: nat): string {
    Text.NatToString(h) + ":00"
  }

  /** The 24 hour labels of the one-day range, `0:00` to `23:00`. */
  function DayLabels(): (labels: seq<string>)
    ensures |labels| == HOURS_IN_DAY
    ensures forall h :: 0 <= h < HOURS_IN_DAY ==> labels[h] == HourLabel(h)
  {
    seq(HOURS_IN_DAY, h requires 0 <= h < HOURS_IN_DAY => HourLabel(h))
  }

  predicate Distinct(s: seq<string>) {
    forall i, j :: 0 <= i < j < |s| ==> s[i] != s[j]
  }

  /**
   * The charts' data: the stations in first-seen order with their session
   * counts and energy, and the time labels.
   */
  datatype Chart = Chart(stations: seq<string>, counts: map<string, int>, energy: map<string, int>, labels: seq<string>)

  predicate Tracks(c: Chart) {
    Distinct(c.stations) &&
    (forall cp :: cp in c.counts ==> cp in c.stations) &&
    (forall cp :: cp in c.stations ==> cp in c.counts) &&
    c.energy.Keys == c.counts.Keys
  }

  /** Sessions of one station among the rows. */
  function CountOf(data: seq<TxRow>, cp: string): nat {
    if data == [] then 0
    else CountOf(data[..|data| - 1], cp) + (if data[|data| - 1].chargePointId == cp then 1 else 0)
  }

  /** Energy of one station among the rows. */
  function EnergyOf(data: seq<TxRow>, cp: string): int {
    if data == [] then 0
    else EnergyOf(data[..|data| - 1], cp) + (if data[|data| - 1].chargePointId == cp then Energy(data[|data| - 1]) else 0)
  }

  /** The sum of the counts over the listed stations. */
  function Sum(keys: seq<string>, m: map<string, int>): int
    requires forall k :: k in keys ==> k in m
  {
    if keys == [] then 0 else m[keys[0]] + Sum(keys[1..], m)
  }

  lemma {:induction false} SumOutside(keys: seq<string>, m: map<string, int>, k: string, v: int)
    requires forall x :: x in keys ==> x in m
    requires k !in keys
    ensures Sum(keys, m[k := v]) == Sum(keys, m)
  {
    if keys != [] {
      SumOutside(keys[1..], m, k, v);
    }
  }

  lemma {:induction false} SumIncrement(keys: seq<string>, m: map<string, int>, k: string)
    requires forall x :: x in keys ==> x in m
    requires Distinct(keys) && k in keys
    ensures Sum(keys, m[k := m[k] + 1]) == Sum(keys, m) + 1
  {
    if keys[0] == k {
      assert k !in keys[1..];
      SumOutside(keys[1..], m, k, m[k] + 1);
    } else {
      SumIncrement(keys[1..], m, k);
    }
  }

  lemma {:induction false} SumAppend(keys: seq<string>, m: map<string, int>, k: string)
    requires forall x :: x in keys ==> x in m
    requires k in m
    ensures Sum(keys + [k], m) == Sum(keys, m) + m[k]
  {
    if keys != [] {
      assert (keys + [k])[1..] == keys[1..] + [k];
      SumAppend(keys[1..], m, k);
    }
  }

  /** One row added to the aggregation. */
  function Step(c: Chart, tx: TxRow, daily: bool): Chart {
    var cp := tx.chargePointId;
    var count := if cp in c.counts then c.counts[cp] else 0;
    var energy := if cp in c.energy then c.energy[cp] else 0;
    var key := if daily then HourLabel(tx.startHour) else tx.startDate;
    Chart(
      if cp in c.counts then c.stations else c.stations + [cp],
      c.counts[cp := count + 1],
      c.energy[cp := energy + Energy(tx)],
      if !daily && key !in c.labels then c.labels + [key] else c.labels)
  }

  /** A row keeps the stations distinct and in step with the maps; a new station goes last. */
  lemma StepTracks(c: Chart, tx: TxRow, daily: bool)
    requires Tracks(c)
    ensures Tracks(Step(c, tx, daily))
  {
    var cp := tx.chargePointId;
    var r := Step(c, tx, daily);
    if cp !in c.counts {
      forall i, j | 0 <= i < j < |r.stations|
        ensures r.stations[i] != r.stations[j]
      {
        if j == |c.stations| {
          assert r.stations[i] == c.stations[i];
        }
      }
    }
  }

  /** A row adds one to the total. */
  lemma StepSum(c: Chart, tx: TxRow, daily: bool)
    requires Tracks(c)
    ensures Tracks(Step(c, tx, daily))
    ensures Sum(Step(c, tx, daily).stations, Step(c, tx, daily).counts) == Sum(c.stations, c.counts) + 1
  {
    StepTracks(c, tx, daily);
    var cp := tx.chargePointId;
    var r := Step(c, tx, daily);
    if cp in c.counts {
      assert r.stations == c.stations && r.counts == c.counts[cp := c.counts[cp] + 1];
      SumIncrement(c.stations, c.counts, cp);
    } else {
      assert r.stations == c.stations + [cp] && r.counts == c.counts[cp := 1];
      SumOutside(c.stations, c.counts, cp, 1);
      SumAppend(c.stations, r.counts, cp);
    }
  }

  /** The rows folded in order; the counts add up to the number of rows. */
  function Fold(data: seq<TxRow>, daily: bool): (c: Chart)
    ensures Tracks(c)
    ensures Sum(c.stations, c.counts) == |data|
    ensures daily ==> c.labels == DayLabels()
  {
    if data == [] then Chart([], map[], map[], if daily then DayLabels() else [])
    else
      var c := Fold(data[..|data| - 1], daily);
      StepSum(c, data[|data| - 1], daily);
      Step(c, data[|data| - 1], daily)
  }

  /** Each station's count and energy are those of its own rows. */
  lemma {:induction false} FoldCounts(data: seq<TxRow>, daily: bool)
    ensures var c := Fold(data, daily);
      (forall cp :: cp in c.counts ==> c.counts[cp] == CountOf(data, cp) && c.energy[cp] == EnergyOf(data, cp)) &&
      (forall cp :: cp !in c.counts ==> CountOf(data, cp) == 0 && EnergyOf(data, cp) == 0)
    decreases |data|
  {
    if data != [] {
      var prefix := data[..|data| - 1];
      var tx := data[|data| - 1];
      FoldCounts(prefix, daily);
      var c := Fold(prefix, daily);
      var r := Fold(data, daily);
      assert r == Step(c, tx, daily);
      forall cp
        ensures cp in r.counts ==> r.counts[cp] == CountOf(data, cp) && r.energy[cp] == EnergyOf(data, cp)
        ensures cp !in r.counts ==> CountOf(data, cp) == 0 && EnergyOf(data, cp) == 0
      {
        assert CountOf(data, cp) == CountOf(prefix, cp) + (if tx.chargePointId == cp then 1 else 0);
        assert EnergyOf(data, cp) == EnergyOf(prefix, cp) + (if tx.chargePointId == cp then Energy(tx) else 0);
        if cp == tx.chargePointId {
          var before := if cp in c.energy then c.energy[cp] else 0;
          assert before == EnergyOf(prefix, cp);
          assert r.energy[cp] == before + Energy(tx);
        } else if cp in r.counts {
          assert r.energy[cp] == c.energy[cp];
        }
      }
    }
  }

  /** A row's date joins the labels once. */
  lemma DateStep(c: Chart, tx: TxRow)
    requires Distinct(c.labels)
    ensures Distinct(Step(c, tx, false).labels)
    ensures forall d :: d in Step(c, tx, false).labels <==> d in c.labels || d == tx.startDate
  {
    var r := Step(c, tx, false);
    forall i, j | 0 <= i < j < |r.labels|
      ensures r.labels[i] != r.labels[j]
    {
      if j == |c.labels| {
        assert r.labels[i] == c.labels[i];
      }
    }
  }

  /** The start dates among the rows. */
  function DatesOf(data: seq<TxRow>): (r: set<string>)
    ensures forall i :: 0 <= i < |data| ==> data[i].startDate in r
    ensures forall d :: d in r ==> exists i :: 0 <= i < |data| && data[i].startDate == d
  {
    if data == [] then {}
    else
      var prefix := data[..|data| - 1];
      assert forall i :: 0 <= i < |prefix| ==> data[i] == prefix[i];
      DatesOf(prefix) + {data[|data| - 1].startDate}
  }

  /** Outside the one-day range the labels are the rows' dates, each once, in first-seen order. */
  lemma {:induction false} FoldDates(data: seq<TxRow>)
    ensures Distinct(Fold(data, false).labels)
    ensures forall d :: d in Fold(data, false).labels <==> d in DatesOf(data)
    decreases |data|
  {
    if data != [] {
      var prefix := data[..|data| - 1];
      FoldDates(prefix);
      var c := Fold(prefix, false);
      assert Fold(data, false).labels == Step(c, data[|data| - 1], false).labels;
      DateStep(c, data[|data| - 1]);
    }
  }

  /** The counts always add up to the number of sessions in the range. */
  lemma TotalSessions(data: seq<TxRow>, daily: bool)
    ensures var c := Fold(data, daily); Sum(c.stations, c.counts) == |data|
  {
  }

  // Sorting the date labels

  /** `Array.prototype.sort`'s default order on text: character by character, a prefix first. */
  predicate Before(a: string, b: string)
    decreases |a|
  {
    if a == [] then b != []
    else b != [] && (a[0] < b[0] || (a[0] == b[0] && Before(a[1..], b[1..])))
  }

  lemma {:induction false} BeforeIrreflexive(a: string)
    ensures !Before(a, a)
    decreases |a|
  {
    if a != [] {
      BeforeIrreflexive(a[1..]);
    }
  }

  lemma {:induction false} BeforeTotal(a: string, b: string)
    requires a != b
    ensures Before(a, b) || Before(b, a)
    decreases |a|
  {
    if a != [] && b != [] && a[0] == b[0] {
      assert a == [a[0]] + a[1..] && b == [b[0]] + b[1..];
      BeforeTotal(a[1..], b[1..]);
    }
  }

  lemma {:induction false} BeforeTransitive(a: string, b: string, c: string)
    requires Before(a, b) && Before(b, c)
    ensures Before(a, c)
    decreases |a|
  {
    if a != [] && a[0] == b[0] && b[0] == c[0] {
      BeforeTransitive(a[1..], b[1..], c[1..]);
    }
  }

  predicate Ascending(s: seq<string>) {
    forall i, j :: 0 <= i < j < |s| ==> Before(s[i], s[j])
  }

  function Insert(s: seq<string>, x: string): (r: seq<string>)
    requires Ascending(s) && x !in s
    ensures Ascending(r)
    ensures |r| == |s| + 1
    ensures forall y :: y in r <==> y in s || y == x
  {
    if s == [] then [x]
    else if Before(x, s[0]) then
      assert forall j :: 0 < j < |s| ==> Before(x, s[j]) by {
        forall j | 0 < j < |s|
          ensures Before(x, s[j])
        {
          BeforeTransitive(x, s[0], s[j]);
        }
      }
      [x] + s
    else
      BeforeTotal(x, s[0]);
      var rest := Insert(s[1..], x);
      assert forall y :: y in rest ==> Before(s[0], y);
      [s[0]] + rest
  }

  /** `timeLabels.sort()` on labels that are already distinct. */
  function Sort(s: seq<string>): (r: seq<string>)
    requires Distinct(s)
    ensures Ascending(r)
    ensures |r| == |s|
    ensures forall y :: y in r <==> y in s
  {
    if s == [] then []
    else
      var init := s[..|s| - 1];
      assert forall i, j :: 0 <= i < j < |init| ==> init[i] != init[j];
      Insert(Sort(init), s[|s| - 1])
  }

  lemma AscendingDistinct(s: seq<string>)
    requires Ascending(s)
    ensures Distinct(s)
  {
    forall i, j | 0 <= i < j < |s|
      ensures s[i] != s[j]
    {
      if s[i] == s[j] {
        BeforeIrreflexive(s[i]);
      }
    }
  }

  /** The charts for a range: `1d` groups by hour under fixed labels, any other range by day under sorted labels. */
  function Aggregate(data: seq<TxRow>, range: string): (c: Chart)
    ensures Tracks(c)
    ensures Sum(c.stations, c.counts) == |data|
    ensures forall cp :: cp in c.counts ==> c.counts[cp] == CountOf(data, cp) && c.energy[cp] == EnergyOf(data, cp)
  {
    FoldCounts(data, range == "1d");
    FoldDates(data);
    var folded := Fold(data, range == "1d");
    if range == "1d" then folded else folded.(labels := Sort(folded.labels))
  }

  /** The one-day chart always has the 24 hour labels, and every row's hour is among them. */
  lemma DayRangeLabels(data: seq<TxRow>)
    requires forall i :: 0 <= i < |data| ==> data[i].startHour < HOURS_IN_DAY
    ensures var c := Aggregate(data, "1d");
      |c.labels| == HOURS_IN_DAY &&
      forall i :: 0 <= i < |data| ==> HourLabel(data[i].startHour) in c.labels
  {
    var c := Aggregate(data, "1d");
    forall i | 0 <= i < |data|
      ensures HourLabel(data[i].startHour) in c.labels
    {
      assert c.labels[data[i].startHour] == HourLabel(data[i].startHour);
    }
  }

  /** Any other range labels each date of the rows exactly once, in ascending order. */
  lemma OtherRangeLabels(data: seq<TxRow>, range: string)
    requires range != "1d"
    ensures var c := Aggregate(data, range);
      Ascending(c.labels) && Distinct(c.labels) &&
      (forall d :: d in c.labels <==> d in DatesOf(data)) &&
      (forall i :: 0 <= i < |data| ==> data[i].startDate in c.labels)
  {
    FoldDates(data);
    AscendingDistinct(Aggregate(data, range).labels);
  }
}

=== FILE: json.dfy ===
/**
 * JSON values as the JavaScript and Python code sees them after parsing,
 * with the two languages' truthiness and equality rules.
 */
module Json {
  import opened Common
  import Text

  datatype JVal =
    | JNull
    | JBool(b: bool)
    | JNum(n: real)
    | JStr(s: string)
    | JArr(items: seq<JVal>)
    | JObj(fields: map<string, JVal>)

  /** A JSON object; a missing property reads as `undefined`. */
  type Obj = map<string, JVal>

  /** A JavaScript `Map` key read from a property; `None` is `undefined`. */
  type Key = Option<JVal>

  /** Property access `o.k`; `None` is `undefined`. */
  function Get(o: Obj, k: string): (r: Option<JVal>)
    ensures r.Some? <==> k in o
    ensures r.Some? ==> r.value == o[k]
  {
    if k in o then Some(o[k]) else None
  }

  /** Property access on any value: only objects have properties here. */
  function Field(v: Option<JVal>, k: string): Option<JVal> {
    if v.Some? && v.value.JObj? then Get(v.value.fields, k) else None
  }

  /** JavaScript truthiness; `None` is `undefined`. Empty arrays and objects are truthy. */
  predicate Truthy(v: Option<JVal>) {
    match v
    case None => false
    case Some(JNull) => false
    case Some(JBool(b)) => b
    case Some(JNum(n)) => n != 0.0
    case Some(JStr(s)) => s != ""
    case Some(_) => true
  }

  /** Python truthiness; empty lists and dicts are falsy. */
  predicate PyTruthy(v: JVal) {
    match v
    case JNull => false
    case JBool(b) => b
    case JNum(n) => n != 0.0
    case JStr(s) => s != ""
    case JArr(items) => |items| > 0
    case JObj(fields) => |fields| > 0
  }

  /** The two languages disagree exactly on the empty array and the empty object. */
  lemma TruthinessDiffers(v: JVal)
    ensures Truthy(Some(v)) != PyTruthy(v) <==> v == JArr([]) || v == JObj(map[])
  {
    if v.JObj? && |v.fields| == 0 {
      assert v.fields == map[];
    }
  }

  /** JavaScript `a || b`. */
  function Or(a: Option<JVal>, b: JVal): (r: JVal)
    ensures Truthy(a) ==> Some(r) == a
    ensures !Truthy(a) ==> r == b
  {
    if Truthy(a) then a.value else b
  }

  predicate Nullish(v: Option<JVal>) {
    v == None || v == Some(JNull)
  }

  predicate Primitive(v: JVal) {
    !v.JArr? && !v.JObj?
  }

  /**
   * JavaScript `a === b`. Arrays and objects come from separately parsed
   * messages, so they are distinct references and never identical.
   */
  predicate StrictEquals(a: Option<JVal>, b: Option<JVal>) {
    a == b && (a.None? || Primitive(a.value))
  }

  /** JavaScript `ToNumber` on primitives; `None` is NaN. */
  function NumberOf(v: JVal): Option<real>
    requires Primitive(v)
  {
    match v
    case JNull => Some(0.0)
    case JBool(b) => Some(if b then 1.0 else 0.0)
    case JNum(n) => Some(n)
    case JStr(s) => Text.NumberOf(s)
  }

  /** JavaScript `parseFloat(v)` on a JSON value; `None` is NaN. */
  function ParseFloatOf(v: Option<JVal>): (r: Option<real>)
    ensures v.Some? && v.value.JNum? ==> r == Some(v.value.n)
    ensures v.Some? && v.value.JStr? ==> r == Text.ParseFloat(v.value.s)
    ensures v.None? || v == Some(JNull) ==> r.None?
  {
    match v
    case Some(JNum(n)) => Some(n)
    case Some(JStr(s)) => Text.ParseFloat(s)
    case _ => None
  }

  /** `parseFloat(v) || fallback`: NaN and zero both give way to the fallback. */
  function FloatOr(v: Option<JVal>, fallback: real): (r: real)
    ensures ParseFloatOf(v).Some? && ParseFloatOf(v).value != 0.0 ==> r == ParseFloatOf(v).value
    ensures ParseFloatOf(v).None? || ParseFloatOf(v) == Some(0.0) ==> r == fallback
  {
    match ParseFloatOf(v)
    case Some(x) => if x != 0.0 then x else fallback
    case None => fallback
  }

  /**
   * JavaScript `a == b`: `null` and `undefined` equal each other and nothing
   * else; primitives of one kind compare by value; primitives of different
   * kinds compare as numbers. An array or object equals nothing.
   */
  predicate LooseEquals(a: Option<JVal>, b: Option<JVal>) {
    if Nullish(a) || Nullish(b) then Nullish(a) && Nullish(b)
    else if !Primitive(a.value) || !Primitive(b.value) then false
    else if a.value.JBool? == b.value.JBool? && a.value.JNum? == b.value.JNum? && a.value.JStr? == b.value.JStr? then
      a == b
    else
      NumberOf(a.value).Some? && NumberOf(a.value) == NumberOf(b.value)
  }

  lemma LooseEqualsSymmetric(a: Option<JVal>, b: Option<JVal>)
    ensures LooseEquals(a, b) == LooseEquals(b, a)
  {
  }

  /** Identical values are loosely equal; `null == undefined` shows the converse fails. */
  lemma StrictImpliesLoose(a: Option<JVal>, b: Option<JVal>)
    ensures StrictEquals(a, b) ==> LooseEquals(a, b)
    ensures LooseEquals(None, Some(JNull)) && !StrictEquals(None, Some(JNull))
  {
  }

  /** A number and its decimal text are loosely (but not strictly) equal. */
  lemma NumberLooselyEqualsItsText(i: int)
    ensures LooseEquals(Some(JNum(i as real)), Some(JStr(Text.IntToString(i))))
    ensures !StrictEquals(Some(JNum(i as real)), Some(JStr(Text.IntToString(i))))
  {
    Text.NumberOfIntToString(i);
  }
}

=== FILE: messages.dfy ===
/**
 * The Python station's reply builders (OCPP_message.py): the CallResult
 * frame and one payload constructor per answered action. Each optional
 * argument keeps the source's default. The current time is a parameter.
 */
module Messages {
  import opened Common
  import opened Json
  import Frames

  /** `[3, id, payload]`. */
  function CallResultMessage(uid: JVal, payload: JVal): (v: JVal)
    ensures Frames.FromJson(v) == Some(Frames.CallResult(uid, payload))
    ensures v.JArr? && |v.items| == 3
  {
    Frames.FromToJson(Frames.CallResult(uid, payload));
    Frames.ToJson(Frames.CallResult(uid, payload))
  }

  /** A `{status: ...}` object, the shape most confirmations share. */
  function StatusOnly(status: string): (r: JVal)
    ensures r.JObj? && r.fields.Keys == {"status"}
    ensures Field(Some(r), "status") == Some(JStr(status))
  {
    JObj(map["status" := JStr(status)])
  }

  function BootPayload(now: string, status: string := "Accepted", interval: real := 200.0): (r: JVal)
    ensures r.JObj? && r.fields.Keys == {"status", "currentTime", "interval"}
    ensures Field(Some(r), "status") == Some(JStr(status))
    ensures Field(Some(r), "interval") == Some(JNum(interval))
    ensures Field(Some(r), "currentTime") == Some(JStr(now))
  {
    JObj(map["status" := JStr(status), "currentTime" := JStr(now), "interval" := JNum(interval)])
  }

  function HeartbeatPayload(now: string): (r: JVal)
    ensures r.JObj? && r.fields.Keys == {"currentTime"}
    ensures Field(Some(r), "currentTime") == Some(JStr(now))
  {
    JObj(map["currentTime" := JStr(now)])
  }

  /** `{idTagInfo: {status}}`: the Authorize and StopTransaction confirmations. */
  function IdTagPayload(status: string := "Accepted"): (r: JVal)
    ensures r.JObj? && r.fields.Keys == {"idTagInfo"}
    ensures Field(Field(Some(r), "idTagInfo"), "status") == Some(JStr(status))
  {
    JObj(map["idTagInfo" := StatusOnly(status)])
  }

  function StartTransactionPayload(transactionId: JVal, status: string := "Accepted"): (r: JVal)
    ensures r.JObj? && r.fields.Keys == {"transactionId", "idTagInfo"}
    ensures Field(Some(r), "transactionId") == Some(transactionId)
    ensures Field(Field(Some(r), "idTagInfo"), "status") == Some(JStr(status))
  {
    JObj(map["transactionId" := transactionId, "idTagInfo" := StatusOnly(status)])
  }

  /** The StatusNotification and MeterValues confirmations. */
  function EmptyPayload(): (r: JVal)
    ensures r.JObj? && r.fields.Keys == {}
  {
    JObj(map[])
  }

  /** Each list is present exactly when it was given. */
  function GetConfigurationPayload(configurationKey: Option<seq<JVal>>, unknownKey: Option<seq<JVal>>): (r: JVal)
    ensures r.JObj?
    ensures "configurationKey" in r.fields <==> configurationKey.Some?
    ensures "unknownKey" in r.fields <==> unknownKey.Some?
    ensures r.fields.Keys <= {"configurationKey", "unknownKey"}
    ensures configurationKey.Some? ==> r.fields["configurationKey"] == JArr(configurationKey.value)
    ensures unknownKey.Some? ==> r.fields["unknownKey"] == JArr(unknownKey.value)
  {
    var withKeys: Obj := if configurationKey.Some? then map["configurationKey" := JArr(configurationKey.value)] else map[];
    JObj(if unknownKey.Some? then withKeys["unknownKey" := JArr(unknownKey.value)] else withKeys)
  }

  /** The builders' defaults: Accepted everywhere and a 200-second boot interval. */
  lemma Defaults(now: string)
    ensures Field(Some(BootPayload(now)), "status") == Some(JStr("Accepted"))
    ensures Field(Some(BootPayload(now)), "interval") == Some(JNum(200.0))
    ensures Field(Field(Some(IdTagPayload()), "idTagInfo"), "status") == Some(JStr("Accepted"))
    ensures forall tx :: Field(Field(Some(StartTransactionPayload(tx)), "idTagInfo"), "status") == Some(JStr("Accepted"))
  {
  }
}

=== FILE: mobile.dfy ===
/**
 * The mobile charge point (mobile-app/public/app.js, class ChargePointStatus):
 * how it answers the server's Calls, follows the server's RestoreSession
 * and SyncState snapshots, persists its session locally, and estimates
 * cost and time.
 *
 * Each handler returns the new station state and the messages sent, in
 * order, and says whether the two-second settle after a stop is due.
 * The clock, the ISO timestamp and the stored user account are parameters.
 */
module Mobile {
  import opened Common
  import opened Json
  import Text
  import opened Frames
  import Configuration
  import Messages
  import Simulation
  import opened Stations

  const CAPACITY: real := 42.0
  const SERVICE_FEE_FIXED: int := 5000
  const PARKING_FEE_PER_MIN: int := 100
  const SIMULATOR_VENDOR := "OCPP_Simulator"

  /** The statuses for which the page reports a charging session (and hides its back button). */
  const CHARGING_VIEWS: set<string> := {"Charging", "Preparing", "Finishing"}

  type Power = p: real | p > 0.0 witness 7.2

  /** One entry of the charge-speed table: kW and price per kWh in VND. */
  datatype SpeedOption = SpeedOption(power: Power, price: int)

  function SpeedOptionOf(name: string): Option<SpeedOption> {
    if name == "normal" then Some(SpeedOption(7.2, 3500))
    else if name == "fast" then Some(SpeedOption(14.4, 3600))
    else if name == "lightning" then Some(SpeedOption(21.6, 3800))
    else None
  }

  /** The phone's speed table charges at the power the server simulates for the same speed. */
  lemma SpeedTableAgrees(name: string)
    requires SpeedOptionOf(name).Some?
    ensures SpeedOptionOf(name).value.power == Simulation.PowerOf(Some(JStr(name)))
    ensures Simulation.PhasesOf(name) == (SpeedOptionOf(name).value.power / 7.2).Floor
  {
  }

  /**
   * The station object. `transactionId` is `JNull` when there is none.
   * `shown` is the status last put on screen. `sessionActive` is the
   * page-level flag that screen updates set. `option` is the speed the
   * estimate uses, which only the speed buttons change. `saved` is the
   * locally persisted session.
   */
  datatype Station = Station(
    transactionId: JVal,
    isPluggedIn: bool,
    isEvReady: bool,
    isStopping: bool,
    meterValue: real,
    powerLevel: real,
    targetLevel: int,
    speed: string,
    option: SpeedOption,
    config: Configuration.Config,
    shown: string,
    sessionActive: bool,
    saved: Option<JVal>)

  /**
   * The outside world for one handler: `Date.now()`, its ISO text, the
   * stored account record, and what `JSON.parse` makes of each text the
   * server sends (a text missing from `documents` does not parse).
   */
  datatype Env = Env(now: int, iso: string, account: Option<JVal>, documents: map<string, JVal>)

  /** What one handler does: the new state, the messages sent, and whether the settle is due. */
  datatype Out = Out(state: Station, sends: seq<Send>, settle: bool)

  function Append(o: Out, more: seq<Send>): Out {
    o.(sends := o.sends + more)
  }

  function Prepend(first: seq<Send>, o: Out): Out {
    o.(sends := first + o.sends)
  }

  /** `updateStatusUI`: puts a status on screen and raises the page flag for the charging views. */
  function Show(st: Station, status: string): (r: Station)
    ensures r.shown == status && (r.sessionActive <==> status in CHARGING_VIEWS)
    ensures r.(shown := st.shown, sessionActive := st.sessionActive) == st
  {
    st.(shown := status, sessionActive := status in CHARGING_VIEWS)
  }

  // ---------------------------------------------------------------------
  // Local persistence
  // ---------------------------------------------------------------------

  /** The status `saveLocalState` records. */
  function SavedStatus(st: Station): (status: string)
    ensures Truthy(Some(st.transactionId)) <==> status == "Charging"
    ensures !Truthy(Some(st.transactionId)) ==> (status == "Unavailable" <==> st.isPluggedIn)
    ensures status in {"Charging", "Unavailable", "Available"}
  {
    if Truthy(Some(st.transactionId)) then "Charging"
    else if st.isPluggedIn then "Unavailable" else "Available"
  }

  function Save(st: Station, now: int): JVal {
    JObj(map[
      "transactionId" := st.transactionId,
      "status" := JStr(SavedStatus(st)),
      "isPluggedIn" := JBool(st.isPluggedIn),
      "isEvReady" := JBool(st.isEvReady),
      "chargeSpeed" := JStr(st.speed),
      "meterValue" := JNum(st.meterValue),
      "timestamp" := JNum(now as real)])
  }

  /** `state.meterValue || 0` for a stored number. */
  function StoredMeter(v: Option<JVal>): real {
    if v.Some? && v.value.JNum? then v.value.n else 0.0
  }

  /** `state.chargeSpeed || 'normal'` for a stored string. */
  function StoredSpeed(v: Option<JVal>): (s: string)
    ensures v.Some? && v.value.JStr? && v.value.s != "" ==> s == v.value.s
  {
    if v.Some? && v.value.JStr? && v.value.s != "" then v.value.s else "normal"
  }

  /**
   * `stopChargingProcess`: StopTransaction with the local reading, then
   * Finishing. The local save is cleared and the settle is scheduled.
   */
  function Stop(st: Station, env: Env): (r: Out)
    ensures r.settle && r.state.isStopping && r.state.saved.None?
    ensures r.state.shown == "Finishing" && r.state.sessionActive
    ensures r.state.transactionId == st.transactionId
    ensures r.sends == [StopRequest(st.transactionId, st.meterValue, env.iso), StatusRequest("Finishing")]
    ensures r.state.config == st.config
  {
    Out(Show(st.(isStopping := true, saved := None), "Finishing"), [StopRequest(st.transactionId, st.meterValue, env.iso), StatusRequest("Finishing")], true)
  }

  /**
   * The settle two seconds after a stop: the EV is no longer ready and
   * the transaction is dropped. The connector reports Unavailable while
   * plugged in and Available otherwise.
   */
  function Settle(st: Station): (r: Out)
    ensures !r.state.isEvReady && !r.state.isStopping && r.state.transactionId == JNull
    ensures r.state.shown == (if st.isPluggedIn then "Unavailable" else "Available")
    ensures r.sends == [StatusRequest(r.state.shown)] && !r.settle
    ensures r.state.config == st.config && r.state.isPluggedIn == st.isPluggedIn
  {
    var status := if st.isPluggedIn then "Unavailable" else "Available";
    Out(Show(st.(isEvReady := false, transactionId := JNull, isStopping := false), status), [StatusRequest(status)], false)
  }

  /** `showChargingProgress`: reaching the target with a transaction stops the charge. */
  function ShowProgress(st: Station, env: Env): (r: Out)
    ensures st.powerLevel >= st.targetLevel as real && Truthy(Some(st.transactionId)) ==> r == Stop(st, env)
    ensures !(st.powerLevel >= st.targetLevel as real && Truthy(Some(st.transactionId))) ==> r == Out(st, [], false)
  {
    if st.powerLevel >= st.targetLevel as real && Truthy(Some(st.transactionId)) then Stop(st, env)
    else Out(st, [], false)
  }

  /**
   * `loadLocalState`: a save saying Charging with a transaction resumes
   * that session. Anything else, a missing save included, shows
   * Available.
   */
  function Load(st: Station, saved: Option<JVal>, env: Env): Out {
    var status := Field(saved, "status");
    var tx := Field(saved, "transactionId");
    if status == Some(JStr("Charging")) && Truthy(tx) then
      var resumed := st.(transactionId := tx.value, isPluggedIn := true, isEvReady := true,
        meterValue := StoredMeter(Field(saved, "meterValue")), speed := StoredSpeed(Field(saved, "chargeSpeed")));
      ShowProgress(Show(resumed, "Charging"), env)
    else Out(Show(st, "Available"), [], false)
  }

  /**
   * Saving and loading round-trip a session. A station with a transaction
   * comes back with the same transaction, reading and speed, plugged in
   * and ready. A station without one comes back showing Available.
   */
  lemma SaveLoadRoundTrip(st: Station, blank: Station, now: int, env: Env)
    requires blank.powerLevel < blank.targetLevel as real
    ensures var r := Load(blank, Some(Save(st, now)), env);
      (Truthy(Some(st.transactionId)) ==>
        r.state.transactionId == st.transactionId && r.state.isPluggedIn && r.state.isEvReady &&
        r.state.meterValue == st.meterValue && (st.speed != "" ==> r.state.speed == st.speed) &&
        r.state.shown == "Charging" && r.sends == []) &&
      (!Truthy(Some(st.transactionId)) ==> r == Out(Show(blank, "Available"), [], false))
  {
  }

  // ---------------------------------------------------------------------
  // Construction
  // ---------------------------------------------------------------------

  /** `Math.floor(Math.random() * 41) + 10`. */
  type StartSoc = n: int | 10 <= n <= 50 witness 10

  /**
   * The station as built on a new connection. The battery level is the
   * stored one, or the random draw when none is stored or it reads as 0 or
   * NaN. The saved session is loaded. Then the initial SoC and a
   * BootNotification are sent.
   */
  function Open(storedLevel: Option<string>, draw: StartSoc, saved: Option<JVal>, env: Env): (r: Out)
    ensures r.state.config == Configuration.APP_DEFAULTS
    ensures r.state.isStopping ==> r.settle
  {
    var parsed := if storedLevel.Some? then Text.ParseInt(storedLevel.value) else None;
    var level: int := if parsed.Some? && parsed.value != 0 then parsed.value else draw;
    var st := Station(JNull, false, false, false, 0.0, level as real, 100, "normal",
      SpeedOption(7.2, 3500), Configuration.APP_DEFAULTS, "Offline", false, saved);
    var loaded := Load(Show(st, "Offline"), saved, env);
    Append(loaded, [
      Request("DataTransfer", JObj(map["vendorId" := JStr(SIMULATOR_VENDOR), "messageId" := JStr("SetInitialSoC"),
        "data" := JStr(Text.IntToString(level))])),
      Request("BootNotification", JObj(map["chargePointVendor" := JStr("MicroOcppUI"), "chargePointModel" := JStr("WebSim")]))])
  }

  // ---------------------------------------------------------------------
  // Starting a charge
  // ---------------------------------------------------------------------

  /** The tag a start is made for: the given one, else the account's, else GUEST_USER. */
  function StartTag(manual: Option<JVal>, env: Env): (tag: Option<JVal>)
    ensures Truthy(manual) ==> tag == manual
    ensures !Truthy(manual) && env.account.None? ==> tag == Some(JStr("GUEST_USER"))
    ensures !Truthy(manual) && env.account.Some? ==> tag == Field(env.account, "idTag")
  {
    if Truthy(manual) then manual
    else if env.account.Some? then Field(env.account, "idTag")
    else Some(JStr("GUEST_USER"))
  }

  /** The DataTransfer announcing the selected speed. */
  function SpeedRequest(speed: string): (r: Send)
    ensures r.Request? && r.action == "DataTransfer"
    ensures Field(Some(r.payload), "messageId") == Some(JStr("SpeedSelection"))
    ensures Field(Some(r.payload), "data") == Some(JStr(speed))
  {
    Request("DataTransfer", JObj(map["vendorId" := JStr("ChargingSpeed"), "messageId" := JStr("SpeedSelection"), "data" := JStr(speed)]))
  }

  /** The DataTransfer announcing the target level, as text the server reads back. */
  function TargetRequest(level: int): (r: Send)
    ensures r.Request? && r.action == "DataTransfer"
    ensures Field(Some(r.payload), "vendorId") == Some(JStr(SIMULATOR_VENDOR))
    ensures Field(Some(r.payload), "messageId") == Some(JStr("SetTargetSoC"))
    ensures var target := Field(Some(r.payload), "data");
      target.Some? && target.value.JStr? && ReadInt(target.value.s) == Some(level)
  {
    ReadIntToString(level);
    Request("DataTransfer", JObj(map["vendorId" := JStr(SIMULATOR_VENDOR), "messageId" := JStr("SetTargetSoC"),
      "data" := JStr(Text.IntToString(level))]))
  }

  /** A request whose payload is `base` plus the tag, the tag left out when undefined. */
  function TaggedRequest(action: string, base: Obj, tag: Option<JVal>): (r: Send)
    requires "idTag" !in base
    ensures r.Request? && r.action == action
    ensures Field(Some(r.payload), "idTag") == tag
    ensures forall k :: k in base ==> Field(Some(r.payload), k) == Some(base[k])
  {
    Request(action, JObj(WithOpt(base, "idTag", tag)))
  }

  /** `startChargingProcess`: the speed, the target, then Authorize and StartTransaction for one tag. */
  function StartRequests(st: Station, manual: Option<JVal>, env: Env): (sends: seq<Send>)
    ensures |sends| == 4
    ensures sends[2].Request? && sends[2].action == "Authorize"
    ensures sends[3].Request? && sends[3].action == "StartTransaction"
    ensures Truthy(manual) ==> Field(Some(sends[3].payload), "idTag") == manual
    ensures !Truthy(manual) && env.account.None? ==> Field(Some(sends[3].payload), "idTag") == Some(JStr("GUEST_USER"))
    ensures !Truthy(manual) && env.account.Some? ==> Field(Some(sends[3].payload), "idTag") == Field(env.account, "idTag")
    ensures Field(Some(sends[2].payload), "idTag") == Field(Some(sends[3].payload), "idTag")
    ensures Field(Some(sends[3].payload), "meterStart") == Some(JNum(0.0))
    ensures sends[0].Request? && sends[0].action == "DataTransfer" &&
      Field(Some(sends[0].payload), "messageId") == Some(JStr("SpeedSelection")) &&
      Field(Some(sends[0].payload), "data") == Some(JStr(st.speed))
    ensures sends[1].Request? && sends[1].action == "DataTransfer" &&
      Field(Some(sends[1].payload), "vendorId") == Some(JStr(SIMULATOR_VENDOR)) &&
      Field(Some(sends[1].payload), "messageId") == Some(JStr("SetTargetSoC"))
    ensures var target := Field(Some(sends[1].payload), "data");
      target.Some? && target.value.JStr? && ReadInt(target.value.s) == Some(st.targetLevel)
  {
    var idTag := StartTag(manual, env);
    [SpeedRequest(st.speed),
     TargetRequest(st.targetLevel),
     TaggedRequest("Authorize", map[], idTag),
     TaggedRequest("StartTransaction", map["connectorId" := JNum(1.0), "meterStart" := JNum(0.0), "timestamp" := JStr(env.iso)], idTag)]
  }

  // ---------------------------------------------------------------------
  // Following the server's snapshots
  // ---------------------------------------------------------------------

  /**
   * Whether a Charging snapshot takes the session over, as written. The
   * code reads a property of the station object that nothing ever sets,
   * so the test is always true.
   */
  predicate TakesOverAsWritten(st: Station) {
    !Truthy(Some(st.transactionId)) || !Truthy(None)
  }

  /** Whether a Charging snapshot takes the session over, reading the page-level flag as intended. */
  predicate TakesOver(st: Station) {
    !Truthy(Some(st.transactionId)) || !st.sessionActive
  }

  /**
   * Taking over a session the server reports as Charging: the server's
   * transaction (or a RESTORED-<now> placeholder), plugged in and ready,
   * Charging on screen. The local save is rewritten.
   */
  function Adopt(st: Station, tx: Option<JVal>, env: Env): (r: Out)
    ensures Truthy(tx) ==> r.state.transactionId == tx.value
    ensures !Truthy(tx) ==> r.state.transactionId == JStr("RESTORED-" + Text.IntToString(env.now))
    ensures r.state.isPluggedIn && r.state.isEvReady && r.state.saved.Some?
    ensures r.state.config == st.config
  {
    var taken := st.(transactionId := Or(tx, JStr("RESTORED-" + Text.IntToString(env.now))), isPluggedIn := true, isEvReady := true);
    var o := ShowProgress(Show(taken, "Charging"), env);
    o.(state := o.state.(saved := Some(Save(o.state, env.now))))
  }

  /**
   * `JSON.parse(payload.data)`: the document the snapshot text holds, or
   * `None` when parsing throws. A value that is not text is turned into
   * text first: a number, a boolean or null reads back as itself, while
   * an object ("[object Object]") and `undefined` do not parse.
   */
  function ParseData(data: Option<JVal>, env: Env): (r: Option<JVal>)
    ensures data.Some? && data.value.JStr? ==> (r.Some? <==> data.value.s in env.documents)
    ensures data.Some? && data.value.JStr? && data.value.s in env.documents ==> r == Some(env.documents[data.value.s])
    ensures data.None? || data.value.JObj? || data.value.JArr? ==> r.None?
    ensures data.Some? && Primitive(data.value) && !data.value.JStr? ==> r == data
  {
    match data
    case None => None
    case Some(JStr(text)) => if text in env.documents then Some(env.documents[text]) else None
    case Some(JObj(_)) => None
    case Some(JArr(_)) => None
    case Some(v) => Some(v)
  }

  /**
   * A RestoreSession or SyncState snapshot, with the take-over test
   * decided by the caller. `doc` is the parsed snapshot; a text that did
   * not parse, or a null document, is Rejected. While a stop is in progress a Charging
   * snapshot is acknowledged and ignored. Otherwise the reading and
   * level follow the server, a Charging snapshot may take the session
   * over, and an Available one stops a local session.
   */
  function ApplySnapshot(st: Station, uid: JVal, doc: Option<JVal>, env: Env, takeOver: bool): (r: Out)
    ensures r.state.config == st.config
  {
    if doc.None? || doc == Some(JNull) then Out(st, [Answer(uid, "Rejected")], false)
    else
      var status := Field(doc, "status");
      if st.isStopping && status == Some(JStr("Charging")) then Out(st, [Answer(uid, "Accepted")], false)
      else
        var synced := st.(meterValue := FloatOr(Field(doc, "energy"), 0.0), powerLevel := FloatOr(Field(doc, "soc"), st.powerLevel));
        var o :=
          if status == Some(JStr("Charging")) then
            if takeOver then Adopt(synced, Field(doc, "transactionId"), env) else Out(synced, [], false)
          else if status == Some(JStr("Available")) && Truthy(Some(synced.transactionId)) then Stop(synced, env)
          else Out(synced, [], false);
        Append(o, [Answer(uid, "Accepted")])
  }

  /** The snapshot handler as written, on the raw `data` of the DataTransfer. */
  function FollowAsWritten(st: Station, uid: JVal, data: Option<JVal>, env: Env): Out {
    ApplySnapshot(st, uid, ParseData(data, env), env, TakesOverAsWritten(st))
  }

  /**
   * The snapshot handler with the intended take-over test. A live local
   * session keeps its transaction whatever the server's snapshot says. A
   * snapshot that does not parse is Rejected and changes nothing.
   */
  function Follow(st: Station, uid: JVal, data: Option<JVal>, env: Env): (r: Out)
    ensures var doc := ParseData(data, env);
      Truthy(Some(st.transactionId)) && st.sessionActive && Field(doc, "status") == Some(JStr("Charging")) ==>
      r.state.transactionId == st.transactionId && r.state.shown == st.shown
    ensures var doc := ParseData(data, env);
      st.isStopping && doc.Some? && doc != Some(JNull) && Field(doc, "status") == Some(JStr("Charging")) ==>
      r == Out(st, [Answer(uid, "Accepted")], false)
    ensures ParseData(data, env).None? ==> r == Out(st, [Answer(uid, "Rejected")], false)
    ensures r.state.config == st.config
  {
    ApplySnapshot(st, uid, ParseData(data, env), env, TakesOver(st))
  }

  /**
   * The snapshot must be JSON text: an object, or text that does not
   * parse, makes `JSON.parse` throw and is answered Rejected.
   */
  lemma UnparsedSnapshotRejected(st: Station, uid: JVal, data: JVal, env: Env)
    requires data.JObj? || (data.JStr? && data.s !in env.documents)
    ensures Follow(st, uid, Some(data), env) == Out(st, [Answer(uid, "Rejected")], false)
    ensures FollowAsWritten(st, uid, Some(data), env) == Out(st, [Answer(uid, "Rejected")], false)
  {
  }

  /** A live local session: transaction T1, plugged in, ready, Charging on screen. */
  function LiveStation(): Station {
    Station(JStr("T1"), true, true, false, 0.0, 40.0, 100, "normal",
      SpeedOption(7.2, 3500), Configuration.APP_DEFAULTS, "Charging", true, None)
  }

  /** A SyncState snapshot as the tick sends it: a status and readings, no transaction id. */
  function ChargingDocument(): JVal {
    JObj(map["status" := JStr("Charging"), "energy" := JNum(500.0), "soc" := JNum(41.0)])
  }

  const SYNC_TEXT: string := "{\"energy\":500,\"soc\":41,\"status\":\"Charging\"}"

  /** The snapshot as it arrives: the JSON text of the document. */
  function ChargingSnapshot(): Option<JVal> {
    Some(JStr(SYNC_TEXT))
  }

  /** The snapshot text parses to the document. */
  predicate ParsesSnapshot(env: Env) {
    SYNC_TEXT in env.documents && env.documents[SYNC_TEXT] == ChargingDocument()
  }

  function StopT1(): JVal {
    JObj(map["transactionId" := JStr("T1")])
  }

  lemma HijackReplaces(env: Env)
    requires ParsesSnapshot(env)
    ensures FollowAsWritten(LiveStation(), JStr("u1"), ChargingSnapshot(), env).state.transactionId ==
      JStr("RESTORED-" + Text.IntToString(env.now))
  {
    assert TakesOverAsWritten(LiveStation());
    assert ParseData(ChargingSnapshot(), env) == Some(ChargingDocument());
    assert Field(Some(ChargingDocument()), "status") == Some(JStr("Charging"));
    assert Field(Some(ChargingDocument()), "transactionId") == None;
  }

  lemma HijackedStopRejected(env: Env)
    requires ParsesSnapshot(env)
    ensures var wrong := FollowAsWritten(LiveStation(), JStr("u1"), ChargingSnapshot(), env).state;
      wrong.transactionId == JStr("RESTORED-" + Text.IntToString(env.now)) &&
      HandleRemoteCommand(wrong, JStr("u2"), Some(JStr("RemoteStopTransaction")), Some(StopT1()), env).sends == [Answer(JStr("u2"), "Rejected")]
  {
    HijackReplaces(env);
    var wrong := FollowAsWritten(LiveStation(), JStr("u1"), ChargingSnapshot(), env).state;
    PlaceholderStopRejected(wrong, env);
  }

  lemma PlaceholderStopRejected(st: Station, env: Env)
    requires st.transactionId == JStr("RESTORED-" + Text.IntToString(env.now))
    ensures HandleRemoteCommand(st, JStr("u2"), Some(JStr("RemoteStopTransaction")), Some(StopT1()), env).sends == [Answer(JStr("u2"), "Rejected")]
  {
    var placeholder := "RESTORED-" + Text.IntToString(env.now);
    assert |placeholder| > 2;
    assert !LooseEquals(Field(Some(StopT1()), "transactionId"), Some(st.transactionId));
    RemoteStopRule(st, JStr("u2"), StopT1(), env);
  }

  lemma KeptStopAccepted(env: Env)
    requires ParsesSnapshot(env)
    ensures var right := Follow(LiveStation(), JStr("u1"), ChargingSnapshot(), env).state;
      right.transactionId == JStr("T1") &&
      |HandleRemoteCommand(right, JStr("u2"), Some(JStr("RemoteStopTransaction")), Some(StopT1()), env).sends| >= 1 &&
      HandleRemoteCommand(right, JStr("u2"), Some(JStr("RemoteStopTransaction")), Some(StopT1()), env).sends[0] == Answer(JStr("u2"), "Accepted")
  {
    KeptFollow(env);
    var right := Follow(LiveStation(), JStr("u1"), ChargingSnapshot(), env).state;
    MatchingStopAccepted(right, env);
  }

  lemma KeptFollow(env: Env)
    requires ParsesSnapshot(env)
    ensures Follow(LiveStation(), JStr("u1"), ChargingSnapshot(), env).state.transactionId == JStr("T1")
  {
  }

  lemma MatchingStopAccepted(st: Station, env: Env)
    requires st.transactionId == JStr("T1")
    ensures var sends := HandleRemoteCommand(st, JStr("u2"), Some(JStr("RemoteStopTransaction")), Some(StopT1()), env).sends;
      |sends| >= 1 && sends[0] == Answer(JStr("u2"), "Accepted")
  {
    assert LooseEquals(Field(Some(StopT1()), "transactionId"), Some(st.transactionId));
    RemoteStopRule(st, JStr("u2"), StopT1(), env);
  }

  /**
   * The two differ exactly when a session is live: as written, a Charging
   * snapshot replaces the live transaction. The SyncState snapshot carries
   * no transaction id, so the replacement is a RESTORED placeholder, and a
   * RemoteStopTransaction for the real transaction is then Rejected.
   */
  lemma LiveSessionHijacked(env: Env)
    requires ParsesSnapshot(env)
    ensures var wrong := FollowAsWritten(LiveStation(), JStr("u1"), ChargingSnapshot(), env).state;
      var right := Follow(LiveStation(), JStr("u1"), ChargingSnapshot(), env).state;
      var stop := Some(StopT1());
      wrong.transactionId == JStr("RESTORED-" + Text.IntToString(env.now)) &&
      HandleRemoteCommand(wrong, JStr("u2"), Some(JStr("RemoteStopTransaction")), stop, env).sends == [Answer(JStr("u2"), "Rejected")] &&
      right.transactionId == JStr("T1") &&
      |HandleRemoteCommand(right, JStr("u2"), Some(JStr("RemoteStopTransaction")), stop, env).sends| >= 1 &&
      HandleRemoteCommand(right, JStr("u2"), Some(JStr("RemoteStopTransaction")), stop, env).sends[0] == Answer(JStr("u2"), "Accepted")
  {
    HijackedStopRejected(env);
    KeptStopAccepted(env);
  }

  // ---------------------------------------------------------------------
  // Remote commands
  // ---------------------------------------------------------------------

  /**
   * `handleRemoteCommand`. A property read on a null or missing payload
   * throws and the rest of the handler is skipped; so does `forEach` on a
   * key list that is not an array.
   */
  function HandleRemoteCommand(st: Station, uid: JVal, action: Option<JVal>, payload: Option<JVal>, env: Env): (r: Out)
    ensures SameKeys(st.config, r.state.config)
  {
    if action == Some(JStr("RemoteStartTransaction")) then
      if st.isPluggedIn && st.isEvReady then
        if Nullish(payload) then Out(st, [Answer(uid, "Accepted")], false)
        else Out(st, [Answer(uid, "Accepted")] + StartRequests(st, Field(payload, "idTag"), env), false)
      else Out(st, [Answer(uid, "Rejected")], false)
    else if action == Some(JStr("RemoteStopTransaction")) then
      if Nullish(payload) then Out(st, [], false)
      else if LooseEquals(Field(payload, "transactionId"), Some(st.transactionId)) then
        Prepend([Answer(uid, "Accepted")], Stop(st, env))
      else Out(st, [Answer(uid, "Rejected")], false)
    else if action == Some(JStr("DataTransfer")) then
      if Nullish(payload) then Out(st, [], false)
      else if Field(payload, "vendorId") == Some(JStr(SIMULATOR_VENDOR)) &&
        (Field(payload, "messageId") == Some(JStr("RestoreSession")) || Field(payload, "messageId") == Some(JStr("SyncState"))) then
        Follow(st, uid, Field(payload, "data"), env)
      else Out(st, [Reply(uid, JObj(map["status" := JStr("Accepted"), "data" := JStr("Processed")]))], false)
    else if action == Some(JStr("GetConfiguration")) then
      match GetConfigurationReply(st.config, payload)
      case None => Out(st, [], false)
      case Some(p) => Out(st, [Reply(uid, p)], false)
    else if action == Some(JStr("ChangeConfiguration")) then
      match ChangeConfigurationReply(st.config, payload)
      case None => Out(st, [], false)
      case Some((status, config)) => Out(st.(config := config), [Answer(uid, status)], false)
    else if action == Some(JStr("ClearCache")) then Out(st, [Answer(uid, "Accepted")], false)
    else Out(st, [Answer(uid, "Rejected")], false)
  }

  /** RemoteStartTransaction is Accepted iff the car is plugged in and ready; the station itself does not change. */
  lemma RemoteStartRule(st: Station, uid: JVal, payload: Option<JVal>, env: Env)
    ensures var r := HandleRemoteCommand(st, uid, Some(JStr("RemoteStartTransaction")), payload, env);
      r.state == st && !r.settle && |r.sends| >= 1 &&
      r.sends[0] == Answer(uid, if st.isPluggedIn && st.isEvReady then "Accepted" else "Rejected") &&
      (st.isPluggedIn && st.isEvReady && !Nullish(payload) ==> r.sends[1..] == StartRequests(st, Field(payload, "idTag"), env))
  {
  }

  /**
   * RemoteStopTransaction is Accepted iff the payload's transaction loosely
   * equals the local one; an accepted stop starts the stop sequence and a
   * rejected one changes nothing.
   */
  lemma RemoteStopRule(st: Station, uid: JVal, payload: JVal, env: Env)
    requires payload != JNull
    ensures var r := HandleRemoteCommand(st, uid, Some(JStr("RemoteStopTransaction")), Some(payload), env);
      var matches := LooseEquals(Field(Some(payload), "transactionId"), Some(st.transactionId));
      (matches ==> r.sends == [Answer(uid, "Accepted")] + Stop(st, env).sends && r.state == Stop(st, env).state && r.settle) &&
      (!matches ==> r == Out(st, [Answer(uid, "Rejected")], false))
  {
  }

  /** A numeric id from the server matches the same id held as text. */
  lemma StopMatchesAcrossTypes(st: Station, uid: JVal, i: int, env: Env)
    requires st.transactionId == JStr(Text.IntToString(i))
    ensures HandleRemoteCommand(st, uid, Some(JStr("RemoteStopTransaction")),
      Some(JObj(map["transactionId" := JNum(i as real)])), env).sends[0] == Answer(uid, "Accepted")
  {
    NumberLooselyEqualsItsText(i);
  }

  /** A SyncState saying Charging while a stop is in progress is acknowledged and changes nothing. */
  lemma StoppingGuard(st: Station, uid: JVal, text: string, env: Env)
    requires st.isStopping && text in env.documents && env.documents[text] != JNull
    requires Field(Some(env.documents[text]), "status") == Some(JStr("Charging"))
    ensures var payload := JObj(map["vendorId" := JStr(SIMULATOR_VENDOR), "messageId" := JStr("SyncState"), "data" := JStr(text)]);
      HandleRemoteCommand(st, uid, Some(JStr("DataTransfer")), Some(payload), env) == Out(st, [Answer(uid, "Accepted")], false)
  {
  }

  /** Unknown actions are Rejected and change nothing. */
  lemma UnknownActionRejected(st: Station, uid: JVal, action: string, payload: Option<JVal>, env: Env)
    requires action !in {"RemoteStartTransaction", "RemoteStopTransaction", "DataTransfer", "GetConfiguration", "ChangeConfiguration", "ClearCache"}
    ensures HandleRemoteCommand(st, uid, Some(JStr(action)), payload, env) == Out(st, [Answer(uid, "Rejected")], false)
  {
  }

  // ---------------------------------------------------------------------
  // Incoming frames
  // ---------------------------------------------------------------------

  /**
   * A CallResult: an Accepted answer while a local transaction runs on a
   * plugged-in connector reports Charging again. An answer that carries a
   * transaction id with an Accepted idTagInfo adopts that transaction.
   */
  function OnResult(st: Station, payload: Option<JVal>, env: Env): (r: Out)
    ensures Confirms(payload) ==>
      r.state.transactionId == Field(payload, "transactionId").value && r.state.shown == "Charging" &&
      r.state.saved == Some(Save(st.(transactionId := r.state.transactionId), env.now))
    ensures !Confirms(payload) ==> r.state == st
    ensures r.state.config == st.config
  {
    if Nullish(payload) then Out(st, [], false)
    else
      var first := if Field(payload, "status") == Some(JStr("Accepted")) && Truthy(Some(st.transactionId)) && st.isPluggedIn
        then [StatusRequest("Charging")] else [];
      var tx := Field(payload, "transactionId");
      var info := Field(payload, "idTagInfo");
      if Confirms(payload) then
        var confirmed := st.(transactionId := tx.value);
        var st' := confirmed.(saved := Some(Save(confirmed, env.now)));
        Out(Show(st', "Charging"), first + [StatusRequest("Charging")], false)
      else Out(st, first, false)
  }

  /** `handleMessage`: Calls go to the command handler, CallResults to `OnResult`. */
  function HandleMessage(st: Station, message: JVal, env: Env): (r: Out)
    ensures SameKeys(st.config, r.state.config)
  {
    if !message.JArr? then Out(st, [], false)
    else
      var m := message.items;
      if Item(m, 0) == Some(JNum(CALL)) then HandleRemoteCommand(st, Item(m, 1).GetOr(JNull), Item(m, 2), Item(m, 3), env)
      else if Item(m, 0) == Some(JNum(CALL_RESULT)) then OnResult(st, Item(m, 2), env)
      else Out(st, [], false)
  }

  /** A frame whose third element reports the station Offline or Faulted. */
  predicate Resets(message: JVal) {
    message.JArr? && |message.items| > 2 &&
    (Field(Some(message.items[2]), "status") == Some(JStr("Offline")) ||
     Field(Some(message.items[2]), "status") == Some(JStr("Faulted")))
  }

  /** The socket's message handler: a reset drops the station (`None`); anything else is handled. */
  function Receive(st: Station, message: JVal, env: Env): (r: Option<Out>)
    ensures r.None? <==> Resets(message)
  {
    if Resets(message) then None else Some(HandleMessage(st, message, env))
  }

  /** No message adds, drops or re-flags a configuration key, so the phone's store stays writable. */
  lemma ReceiveKeepsKeys(st: Station, message: JVal, env: Env)
    ensures Receive(st, message, env).Some? ==> SameKeys(st.config, Receive(st, message, env).value.state.config)
    ensures Receive(st, message, env).Some? && Configuration.AllWritable(st.config) ==>
      Configuration.AllWritable(Receive(st, message, env).value.state.config)
  {
  }

  // ---------------------------------------------------------------------
  // Estimate and time display
  // ---------------------------------------------------------------------

  /** `Math.round`: the nearest integer, halves rounded up. */
  function Round(x: real): (n: int)
    ensures x - 0.5 < n as real <= x + 0.5
  {
    Simulation.FloorBounds(x + 0.5);
    (x + 0.5).Floor
  }

  lemma RoundMonotone(x: real, y: real)
    requires x <= y
    ensures Round(x) <= Round(y)
  {
    Simulation.FloorBounds(x + 0.5);
    Simulation.FloorBounds(y + 0.5);
  }

  datatype Estimate = Estimate(timeMinutes: int, cost: int, energyNeeded: real)

  /** kWh still to deliver to reach `target` from `current`, never negative. */
  function EnergyNeeded(target: real, current: real): (e: real)
    ensures e >= 0.0
    ensures target <= current ==> e == 0.0
    ensures target > current ==> e == (target - current) / 100.0 * CAPACITY
  {
    (if target - current < 0.0 then 0.0 else target - current) / 100.0 * CAPACITY
  }

  /**
   * `calculateChargingEstimate`: nothing to charge costs nothing. Otherwise
   * the total is energy plus parking per minute plus the fixed service
   * fee.
   */
  function CalculateEstimate(target: real, current: real, option: SpeedOption): (r: Estimate)
    ensures r.energyNeeded == EnergyNeeded(target, current)
    ensures target <= current ==> r == Estimate(0, 0, 0.0)
    ensures target > current ==>
      r.cost == Round(r.energyNeeded * option.price as real) + r.timeMinutes * PARKING_FEE_PER_MIN + SERVICE_FEE_FIXED
    ensures target > current ==> r.timeMinutes >= 0
  {
    var energy := EnergyNeeded(target, current);
    var minutes := Round(energy / option.power * 60.0);
    var energyCost := Round(energy * option.price as real);
    var timeCost := if target - current > 0.0 then minutes * PARKING_FEE_PER_MIN else 0;
    var serviceCost := if target - current > 0.0 then SERVICE_FEE_FIXED else 0;
    Estimate(minutes, energyCost + timeCost + serviceCost, energy)
  }

  lemma ScaleMonotone(a: real, b: real, c: real)
    requires a <= b && c >= 0.0
    ensures a * c <= b * c
  {
  }

  /** The minutes and the energy cost both grow with the energy needed. */
  lemma PartsMonotone(e1: real, e2: real, option: SpeedOption)
    requires 0.0 <= e1 <= e2 && option.price >= 0
    ensures Round(e1 * option.price as real) <= Round(e2 * option.price as real)
    ensures Round(e1 / option.power * 60.0) <= Round(e2 / option.power * 60.0)
    ensures 0 <= Round(e1 * option.price as real) && 0 <= Round(e1 / option.power * 60.0)
  {
    ScaleMonotone(e1, e2, option.price as real);
    ScaleMonotone(0.0, e1, option.price as real);
    RoundMonotone(e1 * option.price as real, e2 * option.price as real);
    RoundMonotone(0.0, e1 * option.price as real);
    var k := 60.0 / option.power;
    ScaleMonotone(e1, e2, k);
    ScaleMonotone(0.0, e1, k);
    assert e1 / option.power * 60.0 == e1 * k;
    assert e2 / option.power * 60.0 == e2 * k;
    RoundMonotone(e1 * k, e2 * k);
    RoundMonotone(0.0, e1 * k);
  }

  /** Aiming higher never costs less nor takes less time. */
  lemma EstimateMonotone(t1: real, t2: real, current: real, option: SpeedOption)
    requires t1 <= t2 && option.price >= 0
    ensures CalculateEstimate(t1, current, option).cost <= CalculateEstimate(t2, current, option).cost
    ensures CalculateEstimate(t1, current, option).timeMinutes <= CalculateEstimate(t2, current, option).timeMinutes
  {
    var e1 := EnergyNeeded(t1, current);
    var e2 := EnergyNeeded(t2, current);
    var r1 := CalculateEstimate(t1, current, option);
    var r2 := CalculateEstimate(t2, current, option);
    PartsMonotone(e1, e2, option);
    if t2 > current {
      PartsMonotone(0.0, e2, option);
      assert r2.cost == Round(e2 * option.price as real) + r2.timeMinutes * PARKING_FEE_PER_MIN + SERVICE_FEE_FIXED;
      assert r2.timeMinutes == Round(e2 / option.power * 60.0);
      if t1 > current {
        assert r1.cost == Round(e1 * option.price as real) + r1.timeMinutes * PARKING_FEE_PER_MIN + SERVICE_FEE_FIXED;
        assert r1.timeMinutes == Round(e1 / option.power * 60.0);
      } else {
        assert r1 == Estimate(0, 0, 0.0);
      }
    } else {
      assert r1 == Estimate(0, 0, 0.0) && r2 == Estimate(0, 0, 0.0);
    }
  }

  /** `formatTime`: "N mins" below an hour, else "Hh Mm", without "Mm" on the hour. */
  function FormatTime(minutes: int): string {
    if minutes < 60 then Text.IntToString(minutes) + " mins"
    else
      var h := minutes / 60;
      var m := minutes % 60;
      HoursDisplay(h, m)
  }

  /** Reads decimal text with an optional minus sign, nothing else. */
  function ReadInt(s: string): Option<int> {
    if |s| > 1 && s[0] == '-' && Text.AllDigits(s[1..]) then Some(-(Text.DigitsValue(s[1..]) as int))
    else if |s| > 0 && Text.AllDigits(s) then Some(Text.DigitsValue(s))
    else None
  }

  lemma ReadIntToString(i: int)
    ensures ReadInt(Text.IntToString(i)) == Some(i)
  {
    var n: nat := if i < 0 then -i else i;
    Text.DigitsValueOfNatToString(n);
    if i < 0 {
      assert Text.IntToString(i)[1..] == Text.NatToString(n);
    } else {
      assert Text.IntToString(i)[0] != '-' by {
        assert Text.IsDigit(Text.NatToString(n)[0]);
      }
    }
  }

  /** Reads a `formatTime` display back into minutes. */
  function ReadTime(s: string): Option<int> {
    if |s| >= 5 && s[|s| - 5..] == " mins" then ReadInt(s[..|s| - 5])
    else
      var h := Text.LeadingDigits(s);
      if |h| == 0 then None else ReadHours(h, s[|h|..])
  }

  /** The part after the hour digits: `h` alone, or `h `, minute digits and `m`. */
  function ReadHours(h: string, rest: string): Option<int>
    requires Text.AllDigits(h)
  {
    if rest == "h" then Some(Text.DigitsValue(h) * 60)
    else if |rest| > 3 && rest[..2] == "h " && rest[|rest| - 1] == 'm' && Text.AllDigits(rest[2..|rest| - 1]) then
      Some(Text.DigitsValue(h) * 60 + Text.DigitsValue(rest[2..|rest| - 1]))
    else None
  }

  lemma BelowHourRoundTrip(minutes: int)
    requires minutes < 60
    ensures ReadTime(FormatTime(minutes)) == Some(minutes)
  {
    var s := FormatTime(minutes);
    assert s[|s| - 5..] == " mins";
    assert s[..|s| - 5] == Text.IntToString(minutes);
    ReadIntToString(minutes);
  }

  /** What may follow the hour digits of a display: not a digit first, and not the `s` of ` mins` last. */
  predicate HourSuffix(rest: string) {
    |rest| > 0 && !Text.IsDigit(rest[0]) && rest[|rest| - 1] != 's'
  }

  /** Hour digits followed by a suffix that is neither a digit first nor an `s` last: read through `ReadHours`. */
  lemma {:induction false} ReadSplit(s: string, hs: string, rest: string)
    requires s == hs + rest && |hs| >= 1 && Text.AllDigits(hs) && HourSuffix(rest)
    ensures ReadTime(s) == ReadHours(hs, rest)
  {
    assert s[|s| - 1] == rest[|rest| - 1];
    LeadingDigitsPrefix(hs, rest);
    assert s[|hs|..] == rest;
    ReadTimeHours(s, hs);
  }

  /** A display of whole hours reads back as that many hours. */
  lemma {:induction false} ReadWholeHours(hs: string)
    requires |hs| >= 1 && Text.AllDigits(hs)
    ensures ReadTime(hs + "h") == Some(Text.DigitsValue(hs) * 60)
  {
    ReadSplit(hs + "h", hs, "h");
  }

  /** The minutes part `h <digits>m` reads as the hours plus those minutes. */
  lemma {:induction false} ReadMinutesPart(hs: string, ms: string)
    requires Text.AllDigits(hs)
    requires |ms| >= 1 && Text.AllDigits(ms)
    ensures HourSuffix("h " + ms + "m")
    ensures ReadHours(hs, "h " + ms + "m") == Some(Text.DigitsValue(hs) * 60 + Text.DigitsValue(ms))
  {
    var rest := "h " + ms + "m";
    assert rest[2..|rest| - 1] == ms;
    ReadHoursOf(hs, rest);
  }

  /** A display of hours and minutes reads back as both parts. */
  lemma {:induction false} ReadHoursMinutes(hs: string, ms: string)
    requires |hs| >= 1 && Text.AllDigits(hs)
    requires |ms| >= 1 && Text.AllDigits(ms)
    ensures ReadTime(hs + ("h " + ms + "m")) == Some(Text.DigitsValue(hs) * 60 + Text.DigitsValue(ms))
  {
    ReadMinutesPart(hs, ms);
    ReadSplit(hs + ("h " + ms + "m"), hs, "h " + ms + "m");
  }

  /** Past the ` mins` check, a display is read as its hour digits and what follows them. */
  lemma ReadTimeHours(s: string, h: string)
    requires !(|s| >= 5 && s[|s| - 5..] == " mins")
    requires Text.LeadingDigits(s) == h && |h| > 0
    ensures ReadTime(s) == ReadHours(h, s[|h|..])
  {
  }

  lemma ReadHoursOf(h: string, rest: string)
    requires Text.AllDigits(h)
    requires |rest| > 3 && rest[..2] == "h " && rest[|rest| - 1] == 'm' && Text.AllDigits(rest[2..|rest| - 1])
    ensures ReadHours(h, rest) == Some(Text.DigitsValue(h) * 60 + Text.DigitsValue(rest[2..|rest| - 1]))
  {
  }

  /** The display of `h` hours and `m` minutes, as `formatTime` writes it for an hour or more. */
  function HoursDisplay(h: nat, m: nat): string {
    if m > 0 then Text.NatToString(h) + ("h " + Text.NatToString(m) + "m") else Text.NatToString(h) + "h"
  }

  lemma {:induction false} ReadHoursDisplay(h: nat, m: nat)
    ensures ReadTime(HoursDisplay(h, m)) == Some(h * 60 + m)
  {
    var hs := Text.NatToString(h);
    Text.DigitsValueOfNatToString(h);
    if m > 0 {
      var ms := Text.NatToString(m);
      Text.DigitsValueOfNatToString(m);
      ReadHoursMinutes(hs, ms);
      assert ReadTime(hs + ("h " + ms + "m")) == Some(h * 60 + m);
      assert HoursDisplay(h, m) == hs + ("h " + ms + "m");
    } else {
      ReadWholeHours(hs);
      assert ReadTime(hs + "h") == Some(h * 60 + m);
      assert HoursDisplay(h, m) == hs + "h";
    }
  }

  lemma OverHourRoundTrip(minutes: int)
    requires minutes >= 60
    ensures ReadTime(FormatTime(minutes)) == Some(minutes)
  {
    var h := minutes / 60;
    var m := minutes % 60;
    assert FormatTime(minutes) == HoursDisplay(h, m);
    ReadHoursDisplay(h, m);
  }

  /** `formatTime` loses nothing: every display reads back as the minutes it shows. */
  lemma FormatTimeRoundTrip(minutes: int)
    ensures ReadTime(FormatTime(minutes)) == Some(minutes)
  {
    if minutes < 60 {
      BelowHourRoundTrip(minutes);
    } else {
      OverHourRoundTrip(minutes);
    }
  }

  /** Digits followed by a non-digit: the leading digits are exactly the digits. */
  lemma {:induction false} LeadingDigitsPrefix(d: string, rest: string)
    requires Text.AllDigits(d)
    requires |rest| > 0 && !Text.IsDigit(rest[0])
    ensures Text.LeadingDigits(d + rest) == d
  {
    if |d| == 0 {
      assert d + rest == rest;
    } else {
      LeadingDigitsPrefix(d[1..], rest);
      assert (d + rest)[1..] == d[1..] + rest;
    }
  }
}

=== FILE: scada.dfy ===
/**
 * The SCADA page (public/SCADA/app.js): a map from station id to the
 * latest merged station record, fed by the server's broadcast events,
 * the searchable station list and the detail view's status rules.
 *
 * A JavaScript `Map` keeps insertion order, so the board keeps the keys
 * in `order` next to the records. A key is the record's `id` property,
 * `None` standing for `undefined`. The clock text is a parameter.
 */
module Scada {
  import opened Common
  import opened Json
  import Text
  import Stations

  datatype Board = Board(stations: map<Key, Obj>, order: seq<Key>)

  const EMPTY: Board := Board(map[], [])

  /** The statuses under which a meter reading is a live session. */
  const SESSION_STATUSES: set<string> := {"Charging", "SuspendedEV", "SuspendedEVSE", "Finishing"}

  /** The statuses under which the station is taken and its QR code is hidden. */
  const BUSY_STATUSES: set<string> := {"Preparing", "Charging", "Finishing"}

  predicate Distinct(keys: seq<Key>) {
    forall i, j :: 0 <= i < j < |keys| ==> keys[i] != keys[j]
  }

  /**
   * Every key is listed once, exactly the stored keys are listed, and each
   * record's `id` is its key.
   */
  predicate Valid(b: Board) {
    Distinct(b.order) &&
    (forall k :: k in b.stations ==> k in b.order) &&
    (forall k :: k in b.order ==> k in b.stations) &&
    (forall k :: k in b.stations ==> Get(b.stations[k], "id") == k)
  }

  function RemoveKey(keys: seq<Key>, k: Key): (r: seq<Key>)
    ensures forall x :: x in r <==> x in keys && x != k
    ensures Distinct(keys) ==> Distinct(r)
  {
    if keys == [] then []
    else if keys[0] == k then RemoveKey(keys[1..], k)
    else
      assert Distinct(keys) ==> keys[0] !in keys[1..];
      [keys[0]] + RemoveKey(keys[1..], k)
  }

  /** `Map.set`: an existing key keeps its place, a new one goes last. */
  function Put(b: Board, k: Key, v: Obj): (r: Board)
    ensures r.stations == b.stations[k := v]
    ensures k in b.stations ==> r.order == b.order
    ensures k !in b.stations && Valid(b) ==> r.order == b.order + [k]
  {
    if k in b.stations then b.(stations := b.stations[k := v])
    else b.(stations := b.stations[k := v], order := b.order + [k])
  }

  lemma PutValid(b: Board, k: Key, v: Obj)
    requires Valid(b) && Get(v, "id") == k
    ensures Valid(Put(b, k, v))
  {
    if k !in b.stations {
      var r := Put(b, k, v);
      forall i, j | 0 <= i < j < |r.order|
        ensures r.order[i] != r.order[j]
      {
        if j == |b.order| {
          assert r.order[i] == b.order[i];
        }
      }
    }
  }

  /** `Map.delete`. */
  function Delete(b: Board, k: Key): (r: Board)
    requires Valid(b)
    ensures Valid(r)
    ensures r.stations == b.stations - {k}
  {
    Board(b.stations - {k}, RemoveKey(b.order, k))
  }

  /** `{...existing, ...s, lastActivity: s.lastActivity || now}`. */
  function Merge(existing: Obj, s: Obj, now: string): (r: Obj)
    ensures r.Keys == existing.Keys + s.Keys + {"lastActivity"}
    ensures forall f :: f in s && f != "lastActivity" ==> r[f] == s[f]
    ensures forall f :: f in existing && f !in s && f != "lastActivity" ==> r[f] == existing[f]
    ensures r["lastActivity"] == Or(Get(s, "lastActivity"), JStr(now))
  {
    (existing + s)["lastActivity" := Or(Get(s, "lastActivity"), JStr(now))]
  }

  /** Some object of the list carries `k` as its id. */
  predicate FromList(list: seq<Option<JVal>>, k: Key) {
    exists i :: 0 <= i < |list| && list[i].Some? && list[i].value.JObj? && Get(list[i].value.fields, "id") == k
  }

  lemma FromListTail(list: seq<Option<JVal>>, k: Key)
    requires list != [] && FromList(list[1..], k)
    ensures FromList(list, k)
  {
    var i :| 0 <= i < |list[1..]| && list[1..][i].Some? && list[1..][i].value.JObj? && Get(list[1..][i].value.fields, "id") == k;
    assert list[i + 1] == list[1..][i];
  }

  /**
   * `updateStationList`: each record in turn is merged over the one stored
   * under its id. A list item that is not an object ends the walk (reading
   * `id` of `null` or `undefined` throws).
   */
  function Upsert(b: Board, list: seq<Option<JVal>>, now: string): (r: Board)
    requires Valid(b)
    ensures Valid(r)
    ensures b.stations.Keys <= r.stations.Keys
    ensures forall k :: k in r.stations && k !in b.stations ==>
      FromList(list, k)
    decreases |list|
  {
    if list == [] || !(list[0].Some? && list[0].value.JObj?) then b
    else
      var s := list[0].value.fields;
      var k := Get(s, "id");
      var existing := if k in b.stations then b.stations[k] else map[];
      var merged := Merge(existing, s, now);
      assert Get(merged, "id") == k by {
        if "id" !in s && k in b.stations {
          assert Get(b.stations[k], "id") == k;
        }
      }
      PutValid(b, k, merged);
      var r := Upsert(Put(b, k, merged), list[1..], now);
      assert forall x :: x in r.stations && x !in b.stations ==> FromList(list, x) by {
        forall x | x in r.stations && x !in b.stations
          ensures FromList(list, x)
        {
          if x == k {
            assert list[0].Some? && Get(list[0].value.fields, "id") == x;
          } else {
            FromListTail(list, x);
          }
        }
      }
      r
  }

  /** An array is walked item by item; anything else is a one-item list. */
  function ListOf(data: Option<JVal>): (list: seq<Option<JVal>>)
    ensures data.Some? && data.value.JArr? ==> |list| == |data.value.items|
    ensures !(data.Some? && data.value.JArr?) ==> list == [data]
  {
    if data.Some? && data.value.JArr? then seq(|data.value.items|, i requires 0 <= i < |data.value.items| => Some(data.value.items[i]))
    else [data]
  }

  function UpdateStationList(b: Board, data: Option<JVal>, now: string): (r: Board)
    requires Valid(b)
    ensures Valid(r)
  {
    Upsert(b, ListOf(data), now)
  }

  /** A record is merged over the stored one: its own fields win, the stored fields it lacks survive. */
  lemma UpsertOverlays(b: Board, s: Obj, now: string)
    requires Valid(b)
    ensures var k := Get(s, "id");
      var r := Upsert(b, [Some(JObj(s))], now);
      k in r.stations &&
      (forall f :: f in s && f != "lastActivity" ==> f in r.stations[k] && r.stations[k][f] == s[f]) &&
      (forall f :: k in b.stations && f in b.stations[k] && f !in s && f != "lastActivity" ==>
        f in r.stations[k] && r.stations[k][f] == b.stations[k][f]) &&
      (forall x :: x != k ==> (x in r.stations <==> x in b.stations)) &&
      (forall x :: x != k && x in b.stations ==> r.stations[x] == b.stations[x])
  {
    var k := Get(s, "id");
    var existing := if k in b.stations then b.stations[k] else map[];
    var merged := Merge(existing, s, now);
    var list := [Some(JObj(s))];
    assert list[1..] == [];
    assert Upsert(b, list, now).stations == b.stations[k := merged];
  }

  /** `station.status = v`: an undefined value leaves no readable status. */
  function SetStatus(st: Obj, v: Option<JVal>): (r: Obj)
    ensures Get(r, "status") == v
    ensures forall f :: f != "status" ==> Get(r, f) == Get(st, f)
  {
    if v.Some? then st["status" := v.value] else st - {"status"}
  }

  /** The meter rule: a reading lands during a session, or when it is exactly 0. */
  predicate MeterApplies(st: Obj, value: Option<JVal>) {
    (Get(st, "status").Some? && Get(st, "status").value.JStr? && Get(st, "status").value.s in SESSION_STATUSES) ||
    StrictEquals(value, Some(JNum(0.0)))
  }

  function ApplyMeter(st: Obj, data: Option<JVal>): (r: Obj)
    ensures !MeterApplies(st, Field(data, "value")) ==> r == st
    ensures MeterApplies(st, Field(data, "value")) ==>
      r == Stations.WithOpt(Stations.WithOpt(Stations.WithOpt(st, "energy", Field(data, "value")), "soc", Field(data, "soc")),
        "timeRemaining", Field(data, "timeRemaining"))
  {
    if MeterApplies(st, Field(data, "value")) then
      Stations.WithOpt(Stations.WithOpt(Stations.WithOpt(st, "energy", Field(data, "value")), "soc", Field(data, "soc")),
        "timeRemaining", Field(data, "timeRemaining"))
    else st
  }

  /** The `ws.onmessage` reducer. */
  function Reduce(b: Board, data: Option<JVal>, now: string): (r: Board)
    requires Valid(b)
    ensures Valid(r)
  {
    var kind := Field(data, "type");
    var k := Field(data, "id");
    if kind == Some(JStr("fullStatus")) then UpdateStationList(EMPTY, Field(data, "chargePoints"), now)
    else if kind == Some(JStr("connect")) || kind == Some(JStr("boot")) then UpdateStationList(b, Field(data, "state"), now)
    else if kind == Some(JStr("disconnect")) then
      if Truthy(Field(data, "hardDelete")) then Delete(b, k)
      else if k in b.stations then
        var st := b.stations[k]["status" := JStr("Unavailable")]["lastActivity" := JStr(now)];
        PutValid(b, k, st);
        Put(b, k, st)
      else b
    else if kind == Some(JStr("status")) && k in b.stations then
      var st := SetStatus(b.stations[k], Field(data, "status"));
      PutValid(b, k, st);
      Put(b, k, st)
    else if kind == Some(JStr("meterValue")) && k in b.stations then
      var st := ApplyMeter(b.stations[k], data);
      PutValid(b, k, st);
      Put(b, k, st)
    else b
  }

  /** A full status replaces the board: every station afterwards came from the new list. */
  lemma FullStatusReplaces(b: Board, data: JVal, now: string)
    requires Valid(b) && Field(Some(data), "type") == Some(JStr("fullStatus"))
    ensures var r := Reduce(b, Some(data), now);
      var list := ListOf(Field(Some(data), "chargePoints"));
      forall k :: k in r.stations ==>
        FromList(list, k)
  {
  }

  /** A hard delete removes the station; a plain disconnect marks a known station Unavailable and adds nobody. */
  lemma DisconnectRule(b: Board, data: JVal, now: string)
    requires Valid(b) && Field(Some(data), "type") == Some(JStr("disconnect"))
    ensures var r := Reduce(b, Some(data), now);
      var k := Field(Some(data), "id");
      (Truthy(Field(Some(data), "hardDelete")) ==> r.stations == b.stations - {k}) &&
      (!Truthy(Field(Some(data), "hardDelete")) ==>
        r.stations.Keys == b.stations.Keys &&
        (k in b.stations ==> Get(r.stations[k], "status") == Some(JStr("Unavailable"))))
  {
  }

  /** A status event only touches a station already on the board. */
  lemma StatusRule(b: Board, data: JVal, now: string)
    requires Valid(b) && Field(Some(data), "type") == Some(JStr("status"))
    ensures var r := Reduce(b, Some(data), now);
      var k := Field(Some(data), "id");
      r.stations.Keys == b.stations.Keys && r.order == b.order &&
      (k in b.stations ==> Get(r.stations[k], "status") == Field(Some(data), "status")) &&
      (forall x :: x in b.stations && x != k ==> r.stations[x] == b.stations[x])
  {
  }

  /**
   * A meter reading changes a station's energy only during a session or
   * when the reading is exactly 0, and never adds a station.
   */
  lemma MeterGate(b: Board, data: JVal, now: string)
    requires Valid(b) && Field(Some(data), "type") == Some(JStr("meterValue"))
    ensures var r := Reduce(b, Some(data), now);
      var k := Field(Some(data), "id");
      r.stations.Keys == b.stations.Keys &&
      (k in b.stations && !MeterApplies(b.stations[k], Field(Some(data), "value")) ==> r == b) &&
      (k in b.stations && MeterApplies(b.stations[k], Field(Some(data), "value")) && Field(Some(data), "value").Some? ==>
        Get(r.stations[k], "energy") == Field(Some(data), "value"))
  {
  }

  /** Any other event leaves the board as it is. */
  lemma OtherEventsIgnored(b: Board, data: JVal, now: string)
    requires Valid(b)
    requires Field(Some(data), "type") !in {Some(JStr("fullStatus")), Some(JStr("connect")), Some(JStr("boot")),
      Some(JStr("disconnect")), Some(JStr("status")), Some(JStr("meterValue"))}
    ensures Reduce(b, Some(data), now) == b
  {
  }

  // The station list

  /** A text field takes part in the search when it is truthy; a truthy non-text throws on `toLowerCase`. */
  function FieldMatch(v: Option<JVal>, term: string): Option<bool> {
    if !Truthy(v) then Some(false)
    else if v.value.JStr? then Some(Text.Contains(Text.ToLower(v.value.s), term))
    else None
  }

  /** Rendering a listed row lower-cases `status || 'Unavailable'`, which throws for a truthy non-text status. */
  predicate RenderThrows(st: Obj) {
    Truthy(Get(st, "status")) && !Get(st, "status").value.JStr?
  }

  /**
   * A row is listed when its lower-cased id, status or location contains
   * the lower-cased search term, checked in that order with `||`'s
   * short-circuit, and the row then renders. `None` when the check or
   * the render throws.
   */
  function RowMatch(st: Obj, search: string): (r: Option<bool>)
    ensures Get(st, "id").Some? && Get(st, "id").value.JStr? && Text.Contains(Text.ToLower(Get(st, "id").value.s), Text.ToLower(search)) ==>
      r == if RenderThrows(st) then None else Some(true)
    ensures RenderThrows(st) ==> r.None?
    ensures !(Get(st, "id").Some? && Get(st, "id").value.JStr?) ==> r.None?
  {
    var term := Text.ToLower(search);
    var id := Get(st, "id");
    if !(id.Some? && id.value.JStr?) then None
    else if Text.Contains(Text.ToLower(id.value.s), term) then (if RenderThrows(st) then None else Some(true))
    else match FieldMatch(Get(st, "status"), term)
      case None => None
      case Some(true) => Some(true)
      case Some(false) => FieldMatch(Get(st, "location"), term)
  }

  /** The rows listed, in board order, up to the first row whose check throws. */
  function Listed(b: Board, keys: seq<Key>, search: string): (r: seq<Key>)
    requires forall k :: k in keys ==> k in b.stations
    ensures forall k :: k in r ==> k in keys && RowMatch(b.stations[k], search) == Some(true)
    ensures |r| <= |keys|
  {
    if keys == [] then []
    else match RowMatch(b.stations[keys[0]], search)
      case None => []
      case Some(true) => [keys[0]] + Listed(b, keys[1..], search)
      case Some(false) => Listed(b, keys[1..], search)
  }

  /** Every row's check among `keys` finishes without throwing. */
  predicate NoThrow(b: Board, keys: seq<Key>, search: string) {
    forall k :: k in keys ==> k in b.stations && RowMatch(b.stations[k], search).Some?
  }

  /** One station is listed exactly when its row matches. */
  lemma ListedOne(b: Board, k: Key, search: string)
    requires k in b.stations
    ensures Listed(b, [k], search) == if RowMatch(b.stations[k], search) == Some(true) then [k] else []
  {
    assert [k][1..] == [];
  }

  /**
   * The list keeps board order: listing a concatenation lists the first
   * part and then, when none of its checks threw, the second part.
   */
  lemma {:induction false} ListedAppend(b: Board, a: seq<Key>, c: seq<Key>, search: string)
    requires forall k :: k in a + c ==> k in b.stations
    ensures Listed(b, a + c, search) == Listed(b, a, search) + (if NoThrow(b, a, search) then Listed(b, c, search) else [])
  {
    if a == [] {
      assert a + c == c;
    } else {
      var rest := a[1..] + c;
      assert (a + c)[0] == a[0] && (a + c)[1..] == rest;
      assert forall k :: k in rest ==> k in a + c;
      ListedAppend(b, a[1..], c, search);
      NoThrowCons(b, a, search);
      ListedCons(b, a + c, search);
      ListedCons(b, a, search);
      var head := if RowMatch(b.stations[a[0]], search) == Some(true) then [a[0]] else [];
      var tail := if NoThrow(b, a[1..], search) then Listed(b, c, search) else [];
      AppendAssoc(head, Listed(b, a[1..], search), tail);
    }
  }

  lemma AppendAssoc(x: seq<Key>, y: seq<Key>, z: seq<Key>)
    ensures x + y + z == x + (y + z)
  {
  }

  /** The first station's check decides whether the list goes on. */
  lemma ListedCons(b: Board, keys: seq<Key>, search: string)
    requires keys != [] && forall k :: k in keys ==> k in b.stations
    ensures var m := RowMatch(b.stations[keys[0]], search);
      Listed(b, keys, search) == if m.None? then [] else (if m == Some(true) then [keys[0]] else []) + Listed(b, keys[1..], search)
  {
  }

  lemma NoThrowCons(b: Board, a: seq<Key>, search: string)
    requires a != [] && forall k :: k in a ==> k in b.stations
    ensures NoThrow(b, a, search) <==> RowMatch(b.stations[a[0]], search).Some? && NoThrow(b, a[1..], search)
  {
    assert forall k :: k in a <==> k == a[0] || k in a[1..];
  }

  /** The id is text and a truthy status or location is text too. */
  predicate WellFormed(st: Obj) {
    Get(st, "id").Some? && Get(st, "id").value.JStr? &&
    (Truthy(Get(st, "status")) ==> Get(st, "status").value.JStr?) &&
    (Truthy(Get(st, "location")) ==> Get(st, "location").value.JStr?)
  }

  /** On well-formed records a station is listed exactly when its row matches. */
  lemma {:induction false} ListedIff(b: Board, keys: seq<Key>, search: string)
    requires forall k :: k in keys ==> k in b.stations && WellFormed(b.stations[k])
    ensures forall k :: k in keys ==> RowMatch(b.stations[k], search).Some?
    ensures forall k :: k in Listed(b, keys, search) <==> k in keys && RowMatch(b.stations[k], search) == Some(true)
    decreases |keys|
  {
    if keys != [] {
      ListedIff(b, keys[1..], search);
    }
  }

  lemma ContainsEmpty(s: string)
    ensures Text.Contains(s, "")
  {
  }

  /**
   * A station whose status is a number stops the list at that station,
   * even when its id matches: nothing from it onwards is listed.
   */
  lemma NumericStatusStopsList(b: Board, k: Key, rest: seq<Key>, search: string)
    requires k in b.stations && forall j :: j in rest ==> j in b.stations
    requires Get(b.stations[k], "status") == Some(JNum(5.0))
    ensures RowMatch(b.stations[k], search).None?
    ensures Listed(b, [k] + rest, search) == []
  {
    assert ([k] + rest)[0] == k;
  }

  /** An empty search lists every well-formed station. */
  lemma EmptySearchListsAll(b: Board)
    requires Valid(b)
    requires forall k :: k in b.stations ==> WellFormed(b.stations[k])
    ensures forall k :: k in b.stations ==> k in Listed(b, b.order, "")
  {
    ListedIff(b, b.order, "");
    forall k | k in b.stations
      ensures RowMatch(b.stations[k], "") == Some(true)
    {
      ContainsEmpty(Text.ToLower(Get(b.stations[k], "id").value.s));
    }
  }

  // The detail view

  /** The energy box: shown with a value, hidden, or left as it was. */
  datatype EnergyView = Shown(kwh: real) | Hidden | Kept

  /**
   * What `updateDetailViewStatus` renders: the status, the QR visibility,
   * the energy box, whether the progress box shows, the time remaining
   * text (`None` for the placeholder) and the progress percentage.
   */
  datatype Detail = Detail(status: string, qrHidden: bool, energy: EnergyView, progress: bool, remaining: Option<JVal>, percent: JVal)

  /** `None` when the status is truthy but not text (`toLowerCase` throws). */
  function DetailView(status: Option<JVal>, data: Obj): (r: Option<Detail>)
    ensures r.Some? <==> Or(status, JStr("Unavailable")).JStr?
    ensures r.Some? ==> r.value.status == Or(status, JStr("Unavailable")).s
    ensures r.Some? ==> (r.value.qrHidden <==> r.value.status in BUSY_STATUSES)
    ensures r.Some? ==> (r.value.progress <==> r.value.status == "Charging")
    ensures r.Some? ==> (r.value.energy == Hidden <==> ParseFloatOf(Get(data, "energy")).None? && r.value.status !in BUSY_STATUSES)
    ensures r.Some? && ParseFloatOf(Get(data, "energy")).Some? ==> r.value.energy == Shown(ParseFloatOf(Get(data, "energy")).value / 1000.0)
  {
    var safe := Or(status, JStr("Unavailable"));
    if !safe.JStr? then None
    else
      var busy := safe.s in BUSY_STATUSES;
      var raw := ParseFloatOf(Get(data, "energy"));
      var energy := if raw.Some? then Shown(raw.value / 1000.0) else if !busy then Hidden else Kept;
      var remaining := if Truthy(Get(data, "timeRemaining")) then Get(data, "timeRemaining") else None;
      Some(Detail(safe.s, busy, energy, safe.s == "Charging", remaining, Or(Get(data, "soc"), JNum(0.0))))
  }

  /** A missing status shows as Unavailable, with the QR code visible. */
  lemma MissingStatusIsFree(data: Obj)
    ensures var d := DetailView(None, data);
      d.Some? && d.value.status == "Unavailable" && !d.value.qrHidden && !d.value.progress
  {
  }
}

=== FILE: server.dfy ===
/**
 * The central system's per-station session engine (server.js): the
 * registry of connected stations and the steps that change it — connect,
 * inbound Calls, disconnect, operator commands, the delayed follow-ups those
 * schedule, and the hard delete. The simulation tick is in `Simulation`.
 */
module Server {
  import opened Common
  import opened Json
  import Text
  import Clock
  import opened Frames

  const BATTERY_CAPACITY: real := 42.0
  const SIMULATOR_VENDOR: string := "OCPP_Simulator"
  const HEARTBEAT_INTERVAL: real := 300.0
  const ENERGY_MEASURAND: string := "Energy.Active.Import.Register"

  /** Statuses in which a new connection resumes the existing session. */
  const RESUMABLE: set<string> := {"Preparing", "Charging", "Finishing", "SuspendedEV", "SuspendedEVSE"}

  /** Statuses in which losing the connection keeps the session. */
  const KEPT_ON_CLOSE: set<string> := {"Charging", "SuspendedEV", "SuspendedEVSE", "Preparing"}

  /** Every kept session is resumable; `Finishing` is resumable but not kept. */
  lemma KeptSessionsResume()
    ensures KEPT_ON_CLOSE <= RESUMABLE
    ensures "Finishing" in RESUMABLE && "Finishing" !in KEPT_ON_CLOSE
  {
  }

  /** The per-station state record. `None` stands for `null`/`undefined`. */
  datatype Session = Session(
    status: string,
    transactionId: Option<int>,
    vendor: Option<JVal>,
    model: Option<JVal>,
    energy: real,
    soc: real,
    initialSoc: Option<real>,
    targetSoc: Option<real>,
    chargeSpeed: Option<JVal>,
    timeRemaining: string,
    lastSimTime: int)

  /** `state.transactionId` is truthy. */
  predicate HasTx(s: Session) {
    s.transactionId.Some? && s.transactionId.value != 0
  }

  function TxJson(tx: Option<int>): JVal {
    if tx.Some? then JNum(tx.value as real) else JNull
  }

  function OptJson(v: Option<JVal>): JVal {
    if v.Some? then v.value else JNull
  }

  /** The record a first connection starts from. */
  function Fresh(now: int, defaultSoc: real): Session {
    Session("Connecting", None, Some(JStr("")), Some(JStr("")), 0.0, defaultSoc,
            None, None, Some(JStr("normal")), Clock.UNKNOWN, now)
  }

  /**
   * A station's socket: `token` identifies the connection, `reconnected`
   * records whether that connection resumed an existing session.
   */
  datatype Socket = Socket(token: nat, reconnected: bool)

  /** A registry entry; `origin` identifies the entry object itself. */
  datatype Entry = Entry(ws: Option<Socket>, state: Session, origin: nat)

  /**
   * The station registry; `next` is the next unused connection identity.
   * `detached` holds, by socket, the entries a fresh connection dropped
   * without closing their socket: each socket stays open, and the entry
   * keeps its record and identity for the handlers and timers that hold
   * it, until the socket closes (its killed handler process closes it on
   * exit, or the station drops it).
   */
  datatype Registry = Registry(stations: map<string, Entry>, next: nat, detached: map<nat, Detached>)

  /** A dropped entry whose socket is still open: its record and its entry identity. */
  datatype Detached = Detached(state: Session, origin: nat)

  /**
   * Every connection and entry identity in use was handed out before
   * `next`, and no two entries, registered or dropped, share an identity.
   */
  predicate Valid(reg: Registry) {
    (forall id :: id in reg.stations ==>
      reg.stations[id].origin < reg.next &&
      (reg.stations[id].ws.Some? ==> reg.stations[id].ws.value.token < reg.next)) &&
    (forall t :: t in reg.detached ==> t < reg.next && reg.detached[t].origin < reg.next) &&
    (forall a, b :: a in reg.stations && b in reg.stations && a != b ==> reg.stations[a].origin != reg.stations[b].origin) &&
    (forall t, id :: t in reg.detached && id in reg.stations ==> reg.detached[t].origin != reg.stations[id].origin)
  }

  /** Calls into the persistent store, in the order they are made. */
  datatype StoreCall =
    | SaveStation(id: string, vendor: Option<JVal>, model: Option<JVal>)
    | Heartbeat(id: string)
    | SetStationStatus(id: string, status: string)
    | OpenTx(id: string, tx: int, idTag: Option<JVal>, meterStart: real)
    | CloseTx(ref: JVal, meterStop: real)
    | DeleteStation(id: string)

  /** Follow-up work a step schedules with a timer. */
  datatype Timer =
    | RestoreAfterBoot(id: string, token: nat)
    | SettleForceStop(id: string, origin: nat, transactionId: JVal)

  /** The wall clock at a step: milliseconds, its ISO text, and the ISO text a year on. */
  datatype Instant = Instant(ms: int, iso: string, isoInAYear: string)

  /** One step's result; `out` goes to the station's socket. */
  datatype Step = Step(reg: Registry, out: seq<Send>, store: seq<StoreCall>, later: seq<Timer>)

  function Idle(reg: Registry): Step {
    Step(reg, [], [], [])
  }

  /** Every station other than `id` is exactly as it was. */
  predicate OthersUnchanged(before: Registry, after: Registry, id: string) {
    (forall k :: k in before.stations && k != id ==> k in after.stations) &&
    (forall k :: k in after.stations && k != id ==> k in before.stations && after.stations[k] == before.stations[k])
  }

  // ---------------------------------------------------------------- payloads

  function StatusPayload(status: string): JVal {
    JObj(map["status" := JStr(status)])
  }

  function IdTagInfo(status: string): JVal {
    JObj(map["idTagInfo" := StatusPayload(status)])
  }

  function SimulatorTransfer(messageId: string, data: JVal): JVal {
    JObj(map["vendorId" := JStr(SIMULATOR_VENDOR), "messageId" := JStr(messageId), "data" := data])
  }

  /** The SyncState snapshot sent instead of accepting a stale `Available`. */
  function SyncSnapshot(s: Session): JVal {
    JObj(map["energy" := JNum(s.energy), "soc" := JNum(s.soc),
             "timeRemaining" := JStr(s.timeRemaining), "status" := JStr(s.status)])
  }

  /** The RestoreSession snapshot sent after a resumed station boots. */
  function RestoreSnapshot(s: Session): JVal {
    JObj(map["status" := JStr(s.status), "transactionId" := TxJson(s.transactionId),
             "energy" := JNum(s.energy), "soc" := JNum(s.soc),
             "timeRemaining" := JStr(s.timeRemaining), "chargeSpeed" := OptJson(s.chargeSpeed)])
  }

  // ---------------------------------------------------------------- connect

  /** Connections on these paths are observers, not stations. */
  predicate ObserverPath(id: string) {
    id == "dashboard" || id == "scada"
  }

  /**
   * A station connects. A session in a resumable status is resumed: same
   * record, same entry, only the socket changes, and the old socket is
   * terminated. Any other connection discards whatever was registered and
   * starts from a fresh record; the old socket is left open, detached.
   */
  function Connect(reg: Registry, id: string, locked: bool, now: int, defaultSoc: real): (r: Step)
    ensures ObserverPath(id) || locked ==> r == Idle(reg)
    ensures !ObserverPath(id) && !locked ==>
      var resumed := id in reg.stations && reg.stations[id].state.status in RESUMABLE;
      r.reg.next == reg.next + 1 &&
      id in r.reg.stations &&
      r.reg.stations[id].ws == Some(Socket(reg.next, resumed)) &&
      (resumed ==> r.reg.stations[id].state == reg.stations[id].state &&
                   r.reg.stations[id].origin == reg.stations[id].origin &&
                   r.store == [Heartbeat(id)]) &&
      (!resumed ==> r.reg.stations[id].state == Fresh(now, defaultSoc) &&
                    r.reg.stations[id].origin == reg.next &&
                    r.store == [SaveStation(id, Some(JStr("")), Some(JStr(""))), Heartbeat(id),
                                SetStationStatus(id, "Available")])
    ensures !ObserverPath(id) && !locked ==>
      var resumed := id in reg.stations && reg.stations[id].state.status in RESUMABLE;
      var left := id in reg.stations && reg.stations[id].ws.Some? && !resumed;
      (left ==> r.reg.detached == reg.detached[reg.stations[id].ws.value.token :=
                   Detached(reg.stations[id].state, reg.stations[id].origin)]) &&
      (!left ==> r.reg.detached == reg.detached)
    ensures OthersUnchanged(reg, r.reg, id)
    ensures r.out == [] && r.later == []
    ensures Valid(reg) ==> Valid(r.reg)
  {
    if ObserverPath(id) || locked then Idle(reg)
    else
      var token := reg.next;
      if id in reg.stations && reg.stations[id].state.status in RESUMABLE then
        var e := reg.stations[id];
        ResumeValid(reg, id);
        Step(Registry(reg.stations[id := e.(ws := Some(Socket(token, true)))], token + 1, reg.detached),
             [], [Heartbeat(id)], [])
      else
        var e := Entry(Some(Socket(token, false)), Fresh(now, defaultSoc), token);
        ReplaceValid(reg, id, e);
        Step(Registry(reg.stations[id := e], token + 1, Dropping(reg, id)), [],
             [SaveStation(id, Some(JStr("")), Some(JStr(""))), Heartbeat(id), SetStationStatus(id, "Available")],
             [])
  }

  /** The dropped entries once `id`'s entry is dropped: its socket, if any, stays open with the entry. */
  function Dropping(reg: Registry, id: string): map<nat, Detached> {
    if id in reg.stations && reg.stations[id].ws.Some?
    then reg.detached[reg.stations[id].ws.value.token := Detached(reg.stations[id].state, reg.stations[id].origin)]
    else reg.detached
  }

  lemma ResumeValid(reg: Registry, id: string)
    requires id in reg.stations
    ensures Valid(reg) ==> Valid(Registry(reg.stations[id := reg.stations[id].(ws := Some(Socket(reg.next, true)))], reg.next + 1, reg.detached))
  {
  }

  lemma ReplaceValid(reg: Registry, id: string, e: Entry)
    requires e.origin == reg.next && e.ws == Some(Socket(reg.next, false))
    ensures Valid(reg) ==> Valid(Registry(reg.stations[id := e], reg.next + 1, Dropping(reg, id)))
  {
  }

  /** The fresh record's defining fields. */
  lemma FreshRecord(now: int, defaultSoc: real)
    ensures var s := Fresh(now, defaultSoc);
      s.status == "Connecting" && !HasTx(s) && s.energy == 0.0 &&
      s.chargeSpeed == Some(JStr("normal")) && s.timeRemaining == "--:--:--" &&
      s.soc == defaultSoc && s.lastSimTime == now
  {
  }

  /** `token` is the socket currently registered for `id`. */
  predicate Current(reg: Registry, id: string, token: nat) {
    id in reg.stations && reg.stations[id].ws.Some? && reg.stations[id].ws.value.token == token
  }

  // ---------------------------------------------------------------- inbound Calls

  /** One sampled value of a MeterValues request. */
  datatype Sample = Sample(measurand: Option<string>, unit: Option<string>, value: real)

  predicate IsEnergySample(x: Sample) {
    x.measurand == Some(ENERGY_MEASURAND) ||
    ((x.measurand == None || x.measurand == Some("")) && x.unit == Some("Wh"))
  }

  predicate IsSocSample(x: Sample) {
    x.measurand == Some("SoC")
  }

  /** Position `i` holds the first sample satisfying `p`. */
  predicate FirstAt(samples: seq<Sample>, p: Sample -> bool, i: int) {
    0 <= i < |samples| && p(samples[i]) && forall j :: 0 <= j < i ==> !p(samples[j])
  }

  /** `samples.find(p)`: the first sample satisfying `p`. */
  function FirstWhere(samples: seq<Sample>, p: Sample -> bool): (r: Option<nat>)
    ensures r.Some? ==> r.value < |samples| && p(samples[r.value])
    ensures r.Some? ==> forall j :: 0 <= j < r.value ==> !p(samples[j])
    ensures r.None? <==> forall i :: 0 <= i < |samples| ==> !p(samples[i])
  {
    if |samples| == 0 then None
    else if p(samples[0]) then Some(0)
    else
      match FirstWhere(samples[1..], p)
      case None => None
      case Some(i) => Some(i + 1)
  }

  /**
   * An inbound Call, read from its action and payload. The two SoC figures
   * are the numbers `parseFloat` reads from the DataTransfer data; the meter
   * readings are taken as numbers already, whereas the station may send any
   * JSON value there and the handler stores and compares it as sent.
   */
  datatype Inbound =
    | BootNotification(vendor: Option<JVal>, model: Option<JVal>)
    | StatusNotification(status: string)
    | Authorize
    | StartTransaction(idTag: Option<JVal>, meterStart: real)
    | StopTransaction(transactionId: Option<JVal>, meterStop: Option<real>)
    | MeterValues(meterValue: seq<seq<Sample>>)
    | ChargingSpeed(data: Option<JVal>)
    | SetTargetSoC(target: real)
    | SetInitialSoC(soc: real)
    | Unhandled

  /** A text frame from a station: unparsable text, a Call, or any other message type. */
  datatype Incoming = Garbage | CallFrame(uid: JVal, request: Inbound) | OtherFrame

  /** What one inbound Call does to its own session. */
  datatype Effect = Effect(state: Session, out: seq<Send>, store: seq<StoreCall>, later: seq<Timer>)

  /** `String(tx).includes('RESTORED')`. */
  predicate MentionsRestored(tx: JVal) {
    tx.JStr? && Text.Contains(tx.s, "RESTORED")
  }

  /** `String(tx).startsWith('RESTORED')`. */
  predicate StartsRestored(tx: JVal) {
    tx.JStr? && Text.StartsWith(tx.s, "RESTORED")
  }

  function OnBoot(s: Session, ws: Socket, id: string, uid: JVal, vendor: Option<JVal>, model: Option<JVal>, t: Instant): Effect {
    Effect(
      s.(vendor := vendor, model := model, status := if ws.reconnected then s.status else "Available"),
      [Reply(uid, JObj(map["status" := JStr("Accepted"), "currentTime" := JStr(t.iso),
                          "interval" := JNum(HEARTBEAT_INTERVAL)]))],
      [SaveStation(id, vendor, model)],
      if ws.reconnected && HasTx(s) then [RestoreAfterBoot(id, ws.token)] else [])
  }

  /** A stale `Available` from a resumed station with an open transaction. */
  predicate SuppressedStatus(s: Session, ws: Socket, status: string) {
    ws.reconnected && HasTx(s) && status == "Available"
  }

  function OnStatus(s: Session, ws: Socket, status: string): Effect {
    if SuppressedStatus(s, ws, status) then
      Effect(s, [Request("DataTransfer", SimulatorTransfer("SyncState", SyncSnapshot(s)))], [], [])
    else
      Effect(s.(status := status), [], [], [])
  }

  function OnAuthorize(s: Session, uid: JVal, t: Instant): Effect {
    Effect(s, [Reply(uid, JObj(map["idTagInfo" := JObj(map["status" := JStr("Accepted"),
                                                          "expiryDate" := JStr(t.isoInAYear),
                                                          "parentIdTag" := JNull])]))], [], [])
  }

  function OnStart(s: Session, id: string, uid: JVal, idTag: Option<JVal>, meterStart: real, t: Instant, defaultSoc: real): Effect {
    var tx := t.ms / 1000;
    Effect(
      s.(transactionId := Some(tx), status := "Charging", energy := meterStart,
         initialSoc := Some(if s.soc != 0.0 then s.soc else defaultSoc)),
      [Reply(uid, JObj(map["transactionId" := JNum(tx as real), "idTagInfo" := StatusPayload("Accepted")]))],
      [OpenTx(id, tx, idTag, meterStart)],
      [])
  }

  /** The transaction reference a StopTransaction closes: the server's own, else the payload's. */
  function StopRef(s: Session, payloadTx: Option<JVal>): Option<JVal> {
    if HasTx(s) then Some(TxJson(s.transactionId)) else payloadTx
  }

  /** The closing meter reading: a positive reported reading, else the server's energy. */
  function StopReading(s: Session, meterStop: Option<real>): real {
    if meterStop.Some? && meterStop.value > 0.0 then meterStop.value else s.energy
  }

  function OnStop(s: Session, uid: JVal, payloadTx: Option<JVal>, meterStop: Option<real>, defaultSoc: real): Effect {
    var ref := StopRef(s, payloadTx);
    Effect(
      s.(transactionId := None, energy := 0.0, initialSoc := Some(defaultSoc),
         timeRemaining := Clock.UNKNOWN, chargeSpeed := None, status := "Finishing"),
      [Reply(uid, IdTagInfo("Accepted"))],
      if Truthy(ref) && !MentionsRestored(ref.value) then [CloseTx(ref.value, StopReading(s, meterStop))] else [],
      [])
  }

  function OnMeter(s: Session, uid: JVal, meterValue: seq<seq<Sample>>, t: Instant): Effect {
    var reply := [Reply(uid, JObj(map[]))];
    if |meterValue| == 0 then Effect(s, reply, [], [])
    else
      var latest := meterValue[|meterValue| - 1];
      var energy := FirstWhere(latest, IsEnergySample);
      var soc := FirstWhere(latest, IsSocSample);
      var s1 := if energy.Some? then s.(energy := latest[energy.value].value, lastSimTime := t.ms) else s;
      var s2 := if soc.Some? then s1.(soc := latest[soc.value].value) else s1;
      Effect(s2, reply, [], [])
  }

  function OnInitialSoc(s: Session, uid: JVal, soc: real): Effect {
    var reply := [Reply(uid, StatusPayload("Accepted"))];
    if !HasTx(s) && s.status != "Charging" then Effect(s.(initialSoc := Some(soc), soc := soc), reply, [], [])
    else Effect(s, reply, [], [])
  }

  function Dispatch(s: Session, ws: Socket, id: string, uid: JVal, req: Inbound, t: Instant, defaultSoc: real): Effect {
    match req
    case BootNotification(vendor, model) => OnBoot(s, ws, id, uid, vendor, model, t)
    case StatusNotification(status) => OnStatus(s, ws, status)
    case Authorize => OnAuthorize(s, uid, t)
    case StartTransaction(idTag, meterStart) => OnStart(s, id, uid, idTag, meterStart, t, defaultSoc)
    case StopTransaction(payloadTx, meterStop) => OnStop(s, uid, payloadTx, meterStop, defaultSoc)
    case MeterValues(meterValue) => OnMeter(s, uid, meterValue, t)
    case ChargingSpeed(data) => Effect(s.(chargeSpeed := data), [], [], [])
    case SetTargetSoC(target) => Effect(s.(targetSoc := Some(target)), [Reply(uid, StatusPayload("Accepted"))], [], [])
    case SetInitialSoC(soc) => OnInitialSoc(s, uid, soc)
    case Unhandled => Effect(s, [], [], [])
  }

  /**
   * A frame arrives on connection `token` of station `id`. Only the
   * currently registered connection is heard; every readable message
   * counts as a heartbeat; only Calls change the session.
   */
  function Handle(reg: Registry, id: string, token: nat, msg: Incoming, t: Instant, defaultSoc: real): (r: Step)
    ensures !Current(reg, id, token) ==> r == Idle(reg)
    ensures Current(reg, id, token) && !msg.CallFrame? ==>
      r.reg == reg && r.out == [] && r.later == [] &&
      r.store == (if msg.Garbage? then [] else [Heartbeat(id)])
    ensures Current(reg, id, token) && msg.CallFrame? ==>
      r.reg.next == reg.next && id in r.reg.stations &&
      r.reg.stations[id].ws == reg.stations[id].ws &&
      r.reg.stations[id].origin == reg.stations[id].origin &&
      |r.store| > 0 && r.store[0] == Heartbeat(id)
    ensures OthersUnchanged(reg, r.reg, id)
    ensures Valid(reg) ==> Valid(r.reg)
  {
    if !Current(reg, id, token) then Idle(reg)
    else if msg.Garbage? then Idle(reg)
    else if msg.OtherFrame? then Step(reg, [], [Heartbeat(id)], [])
    else
      var entry := reg.stations[id];
      var e := Dispatch(entry.state, entry.ws.value, id, msg.uid, msg.request, t, defaultSoc);
      Step(reg.(stations := reg.stations[id := entry.(state := e.state)]), e.out, [Heartbeat(id)] + e.store, e.later)
  }

  /** The session `Handle` leaves for `id` after a Call from its current connection. */
  function After(reg: Registry, id: string, token: nat, uid: JVal, req: Inbound, t: Instant, defaultSoc: real): Session
    requires Current(reg, id, token)
  {
    Handle(reg, id, token, CallFrame(uid, req), t, defaultSoc).reg.stations[id].state
  }

  // ---------------------------------------------------------------- disconnect

  /**
   * Connection `token` of station `id` closes. A current connection whose
   * session is charging, suspended or preparing leaves the session in place
   * without a socket; any other current connection takes its entry out of the
   * registry. A connection that is no longer current changes nothing.
   */
  function Close(reg: Registry, id: string, token: nat): (r: Step)
    ensures !Current(reg, id, token) ==> r == Idle(reg.(detached := reg.detached - {token}))
    ensures r.reg.detached == reg.detached - {token}
    ensures Current(reg, id, token) && reg.stations[id].state.status in KEPT_ON_CLOSE ==>
      id in r.reg.stations && r.reg.stations[id] == reg.stations[id].(ws := None) && r.store == []
    ensures Current(reg, id, token) && reg.stations[id].state.status !in KEPT_ON_CLOSE ==>
      id !in r.reg.stations && r.store == [SetStationStatus(id, "Unavailable")]
    ensures OthersUnchanged(reg, r.reg, id) && r.out == [] && r.later == []
    ensures Valid(reg) ==> Valid(r.reg)
  {
    var open := reg.(detached := reg.detached - {token});
    if !Current(reg, id, token) then Idle(open)
    else
      var e := reg.stations[id];
      if e.state.status in KEPT_ON_CLOSE then
        Step(open.(stations := reg.stations[id := e.(ws := None)]), [], [], [])
      else
        Step(open.(stations := reg.stations - {id}), [], [SetStationStatus(id, "Unavailable")], [])
  }

  // ---------------------------------------------------------------- operator commands

  const REMOTE_START: string := "RemoteStartTransaction"
  const REMOTE_STOP: string := "RemoteStopTransaction"

  /** `parseInt(v)`; `None` is NaN. */
  function ParseIntOf(v: JVal): Option<int> {
    match v
    case JNum(n) => Some(if n >= 0.0 then n.Floor else -((-n).Floor))
    case JStr(s) => Text.ParseInt(s)
    case _ => None
  }

  function IntOrNull(n: Option<int>): JVal {
    if n.Some? then JNum(n.value as real) else JNull
  }

  /** The session a force stop leaves while the station settles. */
  function ForceStopped(s: Session): Session {
    s.(transactionId := None, status := "Finishing", chargeSpeed := None, timeRemaining := Clock.UNKNOWN)
  }

  /** The session a stop leaves once it has settled (after the two-second delay). */
  function Settled(s: Session, defaultSoc: real): Session {
    s.(status := "Available", energy := 0.0, soc := defaultSoc, timeRemaining := Clock.UNKNOWN, chargeSpeed := None)
  }

  /** The session an offline force stop leaves. */
  function OfflineStopped(s: Session, defaultSoc: real): Session {
    s.(transactionId := None, initialSoc := Some(defaultSoc), soc := defaultSoc, timeRemaining := Clock.UNKNOWN,
       chargeSpeed := None, status := "Available", energy := 0.0)
  }

  /** Replacing an entry by one with the same identity and no newer socket keeps the registry valid. */
  lemma RecordValid(reg: Registry, id: string, e: Entry)
    requires id in reg.stations && e.origin == reg.stations[id].origin
    requires e.ws.Some? ==> e.ws == reg.stations[id].ws
    ensures Valid(reg) ==> Valid(reg.(stations := reg.stations[id := e]))
  {
  }

  /** An operator command for a station with a socket. */
  function RelayOnline(reg: Registry, id: string, command: string, params: Option<JVal>): (r: Step)
    requires id in reg.stations && reg.stations[id].ws.Some?
    ensures OthersUnchanged(reg, r.reg, id) && r.reg.next == reg.next && id in r.reg.stations
    ensures Valid(reg) ==> Valid(r.reg)
  {
    var e := reg.stations[id];
    if command == REMOTE_START then
      if Nullish(params) then Idle(reg)
      else
        var payload := JObj(map["idTag" := Or(Field(params, "idTag"), JStr("REMOTE_USER")), "connectorId" := JNum(1.0)]);
        Step(reg, [Request(command, payload)], [], [])
    else if command == REMOTE_STOP then
      if Nullish(params) then Idle(reg)
      else
        var stopTx := ParseIntOf(Or(Field(params, "transactionId"), TxJson(e.state.transactionId)));
        var payload := JObj(map["transactionId" := IntOrNull(stopTx)]);
        RecordValid(reg, id, e.(state := ForceStopped(e.state)));
        Step(reg.(stations := reg.stations[id := e.(state := ForceStopped(e.state))]),
             [Request(command, payload), Request(command, payload)],
             if HasTx(e.state) then [CloseTx(TxJson(e.state.transactionId), e.state.energy)] else [],
             [SettleForceStop(id, e.origin, Or(Field(params, "transactionId"), JNum(0.0)))])
    else
      Step(reg, [Request(command, JObj(map[]))], [], [])
  }

  /** An operator command for a station without a socket. */
  function RelayOffline(reg: Registry, id: string, command: string, params: Option<JVal>, defaultSoc: real): (r: Step)
    requires !(id in reg.stations && reg.stations[id].ws.Some?)
    ensures OthersUnchanged(reg, r.reg, id) && r.reg.next == reg.next
    ensures (id in r.reg.stations) == (id in reg.stations)
    ensures Valid(reg) ==> Valid(r.reg)
  {
    if command != REMOTE_STOP || Nullish(params) then Idle(reg)
    else
      var given := Field(params, "transactionId");
      var ref := if !Truthy(given) && id in reg.stations then Some(TxJson(reg.stations[id].state.transactionId)) else given;
      var energy := if id in reg.stations then reg.stations[id].state.energy else 0.0;
      var close := if Truthy(ref) && !StartsRestored(ref.value) then [CloseTx(ref.value, energy)] else [];
      var stations :=
        if id in reg.stations then
          var e := reg.stations[id];
          RecordValid(reg, id, e.(ws := None, state := OfflineStopped(e.state, defaultSoc)));
          reg.stations[id := e.(ws := None, state := OfflineStopped(e.state, defaultSoc))]
        else reg.stations;
      Step(reg.(stations := stations), [], close + [SetStationStatus(id, "Available")], [])
  }

  /**
   * The operator relay: a command for a connected station is sent to it
   * (RemoteStopTransaction also force-stops the session on the server); a
   * command for a station without a socket is only honoured when it is
   * RemoteStopTransaction, which closes the session locally.
   */
  function Relay(reg: Registry, id: string, command: string, params: Option<JVal>, defaultSoc: real): (r: Step)
    ensures OthersUnchanged(reg, r.reg, id) && r.reg.next == reg.next
    ensures Valid(reg) ==> Valid(r.reg)
    ensures (id in r.reg.stations) == (id in reg.stations)
  {
    if id in reg.stations && reg.stations[id].ws.Some? then RelayOnline(reg, id, command, params)
    else RelayOffline(reg, id, command, params, defaultSoc)
  }

  /** Changing the records of dropped entries, keeping their sockets and identities, keeps the registry valid. */
  lemma DroppedRecordsValid(reg: Registry, d: map<nat, Detached>)
    requires d.Keys == reg.detached.Keys && forall t :: t in d ==> d[t].origin == reg.detached[t].origin
    ensures Valid(reg) ==> Valid(reg.(detached := d))
  {
  }

  /** The dropped entries with identity `origin`. */
  predicate HoldsOrigin(reg: Registry, t: nat, origin: nat) {
    t in reg.detached && reg.detached[t].origin == origin
  }

  /**
   * The delayed half of an online force stop. It acts on the entry object
   * that was stopped: while that entry is registered, as the registry's
   * entry; once a fresh connection has dropped it, on the dropped record,
   * sending on its still-open socket. An entry whose socket has closed is
   * no longer visible.
   */
  function Settle(reg: Registry, id: string, origin: nat, transactionId: JVal, defaultSoc: real): (r: Step)
    ensures id in reg.stations && reg.stations[id].origin == origin ==>
      r.reg.stations == reg.stations[id := reg.stations[id].(state := Settled(reg.stations[id].state, defaultSoc))] &&
      r.reg.detached == reg.detached &&
      r.out == (if reg.stations[id].ws.Some? then [Request(REMOTE_STOP, JObj(map["transactionId" := transactionId]))] else [])
    ensures !(id in reg.stations && reg.stations[id].origin == origin) && (exists t :: t in reg.detached && HoldsOrigin(reg, t, origin)) ==>
      r.reg.stations == reg.stations &&
      r.reg.detached.Keys == reg.detached.Keys &&
      (forall t :: t in reg.detached ==>
        r.reg.detached[t] == if HoldsOrigin(reg, t, origin)
                             then reg.detached[t].(state := Settled(reg.detached[t].state, defaultSoc))
                             else reg.detached[t]) &&
      r.out == [Request(REMOTE_STOP, JObj(map["transactionId" := transactionId]))]
    ensures !(id in reg.stations && reg.stations[id].origin == origin) && !(exists t :: t in reg.detached && HoldsOrigin(reg, t, origin)) ==>
      r == Idle(reg)
    ensures OthersUnchanged(reg, r.reg, id) && r.reg.next == reg.next && r.store == [] && r.later == []
    ensures Valid(reg) ==> Valid(r.reg)
  {
    if id in reg.stations && reg.stations[id].origin == origin then
      var e := reg.stations[id];
      RecordValid(reg, id, e.(state := Settled(e.state, defaultSoc)));
      Step(reg.(stations := reg.stations[id := e.(state := Settled(e.state, defaultSoc))]),
           if e.ws.Some? then [Request(REMOTE_STOP, JObj(map["transactionId" := transactionId]))] else [],
           [], [])
    else if exists t :: t in reg.detached && HoldsOrigin(reg, t, origin) then
      var settled := map t | t in reg.detached ::
        if HoldsOrigin(reg, t, origin) then reg.detached[t].(state := Settled(reg.detached[t].state, defaultSoc))
        else reg.detached[t];
      DroppedRecordsValid(reg, settled);
      Step(reg.(detached := settled), [Request(REMOTE_STOP, JObj(map["transactionId" := transactionId]))], [], [])
    else Idle(reg)
  }

  /**
   * The delayed RestoreSession after a resumed station's BootNotification.
   * It goes out whenever the booting socket is still open: registered, or
   * detached by a fresh connection, carrying the record that socket holds.
   */
  function Restore(reg: Registry, id: string, token: nat): (r: Step)
    ensures r.reg == reg && r.store == [] && r.later == []
    ensures r.out != [] <==> Current(reg, id, token) || token in reg.detached
    ensures Current(reg, id, token) ==>
      r.out == [Request("DataTransfer", SimulatorTransfer("RestoreSession", RestoreSnapshot(reg.stations[id].state)))]
    ensures !Current(reg, id, token) && token in reg.detached ==>
      r.out == [Request("DataTransfer", SimulatorTransfer("RestoreSession", RestoreSnapshot(reg.detached[token].state)))]
  {
    if Current(reg, id, token) then
      Step(reg, [Request("DataTransfer", SimulatorTransfer("RestoreSession", RestoreSnapshot(reg.stations[id].state)))], [], [])
    else if token in reg.detached then
      Step(reg, [Request("DataTransfer", SimulatorTransfer("RestoreSession", RestoreSnapshot(reg.detached[token].state)))], [], [])
    else Idle(reg)
  }

  /** `DELETE /api/stations/:id`: the station leaves the store and the registry. */
  function Delete(reg: Registry, id: string): (r: Step)
    ensures id != "" ==> id !in r.reg.stations && r.store == [DeleteStation(id)]
    ensures id == "" ==> r == Idle(reg)
    ensures OthersUnchanged(reg, r.reg, id) && r.out == [] && r.later == []
    ensures Valid(reg) ==> Valid(r.reg)
  {
    if id == "" then Idle(reg)
    else Step(reg.(stations := reg.stations - {id}), [], [DeleteStation(id)], [])
  }

  // ---------------------------------------------------------------- events

  /** Everything that can happen to the registry outside the simulation tick. */
  datatype Event =
    | Connected(id: string, locked: bool, now: int)
    | Received(id: string, token: nat, msg: Incoming, t: Instant)
    | Closed(id: string, token: nat)
    | Command(id: string, command: string, params: Option<JVal>)
    | SettleDue(id: string, origin: nat, transactionId: JVal)
    | RestoreDue(id: string, token: nat)
    | Deleted(id: string)

  function Apply(reg: Registry, ev: Event, defaultSoc: real): Step {
    match ev
    case Connected(id, locked, now) => Connect(reg, id, locked, now, defaultSoc)
    case Received(id, token, msg, t) => Handle(reg, id, token, msg, t, defaultSoc)
    case Closed(id, token) => Close(reg, id, token)
    case Command(id, command, params) => Relay(reg, id, command, params, defaultSoc)
    case SettleDue(id, origin, tx) => Settle(reg, id, origin, tx, defaultSoc)
    case RestoreDue(id, token) => Restore(reg, id, token)
    case Deleted(id) => Delete(reg, id)
  }

  /**
   * What every session record keeps: an open transaction has its starting
   * state of charge, and the remaining time is the placeholder or a clock
   * reading.
   */
  predicate Coherent(s: Session) {
    (s.transactionId.Some? ==> s.initialSoc.Some?) &&
    (s.timeRemaining == Clock.UNKNOWN || Clock.ParseClock(s.timeRemaining).Some?)
  }

  predicate AllCoherent(reg: Registry) {
    forall id :: id in reg.stations ==> Coherent(reg.stations[id].state)
  }

  lemma StartCoherent(s: Session, id: string, uid: JVal, idTag: Option<JVal>, meterStart: real, t: Instant, defaultSoc: real)
    requires Coherent(s)
    ensures Coherent(OnStart(s, id, uid, idTag, meterStart, t, defaultSoc).state)
  {
  }

  lemma StopCoherent(s: Session, uid: JVal, payloadTx: Option<JVal>, meterStop: Option<real>, defaultSoc: real)
    requires Coherent(s)
    ensures Coherent(OnStop(s, uid, payloadTx, meterStop, defaultSoc).state)
  {
    Clock.UnknownIsNotAClock();
  }

  lemma MeterCoherent(s: Session, uid: JVal, meterValue: seq<seq<Sample>>, t: Instant)
    requires Coherent(s)
    ensures Coherent(OnMeter(s, uid, meterValue, t).state)
  {
  }

  lemma DispatchCoherent(s: Session, ws: Socket, id: string, uid: JVal, req: Inbound, t: Instant, defaultSoc: real)
    requires Coherent(s)
    ensures Coherent(Dispatch(s, ws, id, uid, req, t, defaultSoc).state)
  {
    match req
    case StartTransaction(idTag, meterStart) => StartCoherent(s, id, uid, idTag, meterStart, t, defaultSoc);
    case StopTransaction(payloadTx, meterStop) => StopCoherent(s, uid, payloadTx, meterStop, defaultSoc);
    case MeterValues(meterValue) => MeterCoherent(s, uid, meterValue, t);
    case _ =>
  }

  lemma ConnectCoherent(reg: Registry, id: string, locked: bool, now: int, defaultSoc: real)
    requires Valid(reg) && AllCoherent(reg)
    ensures AllCoherent(Connect(reg, id, locked, now, defaultSoc).reg)
  {
    Clock.UnknownIsNotAClock();
  }

  lemma HandleCoherent(reg: Registry, id: string, token: nat, msg: Incoming, t: Instant, defaultSoc: real)
    requires Valid(reg) && AllCoherent(reg)
    ensures AllCoherent(Handle(reg, id, token, msg, t, defaultSoc).reg)
  {
    if Current(reg, id, token) && msg.CallFrame? {
      var e := reg.stations[id];
      DispatchCoherent(e.state, e.ws.value, id, msg.uid, msg.request, t, defaultSoc);
    }
  }

  lemma CommandCoherent(reg: Registry, id: string, command: string, params: Option<JVal>, defaultSoc: real)
    requires Valid(reg) && AllCoherent(reg)
    ensures AllCoherent(Relay(reg, id, command, params, defaultSoc).reg)
  {
    Clock.UnknownIsNotAClock();
  }

  lemma SettleCoherent(reg: Registry, id: string, origin: nat, tx: JVal, defaultSoc: real)
    requires Valid(reg) && AllCoherent(reg)
    ensures AllCoherent(Settle(reg, id, origin, tx, defaultSoc).reg)
  {
    Clock.UnknownIsNotAClock();
  }

  /** Every event keeps the registry valid and every session coherent. */
  lemma ApplyPreserves(reg: Registry, ev: Event, defaultSoc: real)
    requires Valid(reg) && AllCoherent(reg)
    ensures Valid(Apply(reg, ev, defaultSoc).reg) && AllCoherent(Apply(reg, ev, defaultSoc).reg)
  {
    match ev
    case Connected(id, locked, now) => ConnectCoherent(reg, id, locked, now, defaultSoc);
    case Received(id, token, msg, t) => HandleCoherent(reg, id, token, msg, t, defaultSoc);
    case Closed(id, token) =>
    case Command(id, command, params) => CommandCoherent(reg, id, command, params, defaultSoc);
    case SettleDue(id, origin, tx) => SettleCoherent(reg, id, origin, tx, defaultSoc);
    case RestoreDue(id, token) =>
    case Deleted(id) =>
  }

  // ---------------------------------------------------------------- properties

  /** A frame on a connection that has been replaced by a reconnect is never heard. */
  lemma ReplacedConnectionIgnored(reg: Registry, id: string, previous: nat, now: int, msg: Incoming, t: Instant, defaultSoc: real)
    requires Valid(reg) && Current(reg, id, previous) && !ObserverPath(id)
    ensures var c := Connect(reg, id, false, now, defaultSoc);
      Handle(c.reg, id, previous, msg, t, defaultSoc) == Idle(c.reg)
  {
  }

  /**
   * Session continuity: a station that drops while charging, suspended or
   * preparing and connects again gets its own session back, unchanged, in
   * the same entry.
   */
  lemma SessionSurvivesReconnect(reg: Registry, id: string, token: nat, now: int, defaultSoc: real)
    requires Current(reg, id, token) && reg.stations[id].state.status in KEPT_ON_CLOSE && !ObserverPath(id)
    ensures var c := Close(reg, id, token).reg;
      var n := Connect(c, id, false, now, defaultSoc).reg;
      n.stations[id].state == reg.stations[id].state &&
      n.stations[id].origin == reg.stations[id].origin &&
      n.stations[id].ws == Some(Socket(reg.next, true))
  {
    KeptSessionsResume();
  }

  /** A station that drops while idle or finishing starts over from a fresh record. */
  lemma IdleSessionRestartsFresh(reg: Registry, id: string, token: nat, now: int, defaultSoc: real)
    requires Current(reg, id, token) && reg.stations[id].state.status !in KEPT_ON_CLOSE && !ObserverPath(id)
    ensures var c := Close(reg, id, token).reg;
      var n := Connect(c, id, false, now, defaultSoc).reg;
      n.stations[id].state == Fresh(now, defaultSoc) && n.stations[id].ws == Some(Socket(reg.next, false))
  {
  }

  /**
   * Server wins: after a reconnect with an open transaction, a reported
   * `Available` leaves the session alone and answers with a SyncState
   * snapshot; any other report sets the status to what was reported.
   */
  lemma StatusNotificationRule(reg: Registry, id: string, token: nat, uid: JVal, status: string, t: Instant, defaultSoc: real)
    requires Current(reg, id, token)
    ensures var e := reg.stations[id];
      var r := Handle(reg, id, token, CallFrame(uid, StatusNotification(status)), t, defaultSoc);
      (e.ws.value.reconnected && HasTx(e.state) && status == "Available" ==>
        r.reg == reg &&
        r.out == [Request("DataTransfer", SimulatorTransfer("SyncState", SyncSnapshot(e.state)))]) &&
      (!(e.ws.value.reconnected && HasTx(e.state) && status == "Available") ==>
        r.reg.stations[id].state == e.state.(status := status) && r.out == [])
  {
    var e := reg.stations[id];
    if SuppressedStatus(e.state, e.ws.value, status) {
      assert reg.stations[id := e] == reg.stations;
    }
  }

  /**
   * StartTransaction opens a transaction numbered by the current second,
   * starts charging from the reported meter, and confirms that same number
   * to the station on the request's own message id.
   */
  lemma StartTransactionOpens(reg: Registry, id: string, token: nat, uid: JVal, idTag: Option<JVal>, meterStart: real, t: Instant, defaultSoc: real)
    requires Current(reg, id, token)
    ensures var r := Handle(reg, id, token, CallFrame(uid, StartTransaction(idTag, meterStart)), t, defaultSoc);
      var s := r.reg.stations[id].state;
      s.transactionId.Some? &&
      s.transactionId.value * 1000 <= t.ms < s.transactionId.value * 1000 + 1000 &&
      s.status == "Charging" && s.energy == meterStart && s.initialSoc.Some? &&
      r.out == [Reply(uid, JObj(map["transactionId" := JNum(s.transactionId.value as real),
                                    "idTagInfo" := StatusPayload("Accepted")]))] &&
      r.store == [Heartbeat(id), OpenTx(id, s.transactionId.value, idTag, meterStart)]
  {
  }

  /**
   * StopTransaction ends the session's transaction, zeroes the energy and
   * moves to Finishing. It is written to the store exactly when the
   * transaction reference is truthy and does not mention RESTORED; the
   * server's own transaction takes precedence over the payload's, and the
   * reading is the reported one when positive, else the server's energy.
   */
  lemma StopTransactionCloses(reg: Registry, id: string, token: nat, uid: JVal, payloadTx: Option<JVal>, meterStop: Option<real>, t: Instant, defaultSoc: real)
    requires Current(reg, id, token)
    ensures var s0 := reg.stations[id].state;
      var r := Handle(reg, id, token, CallFrame(uid, StopTransaction(payloadTx, meterStop)), t, defaultSoc);
      var s := r.reg.stations[id].state;
      s.transactionId == None && s.energy == 0.0 && s.status == "Finishing" &&
      s.timeRemaining == Clock.UNKNOWN && s.soc == s0.soc &&
      r.out == [Reply(uid, IdTagInfo("Accepted"))] &&
      r.store[0] == Heartbeat(id) &&
      (|r.store| == 2 <==> Truthy(StopRef(s0, payloadTx)) && !MentionsRestored(StopRef(s0, payloadTx).value)) &&
      (|r.store| == 2 ==> r.store[1].meterStop == (if meterStop.Some? && meterStop.value > 0.0 then meterStop.value else s0.energy)) &&
      (HasTx(s0) ==> |r.store| == 2 && r.store[1].ref == JNum(s0.transactionId.value as real))
  {
  }

  /**
   * The code does not make stopping idempotent: a station that repeats a
   * StopTransaction for the same numbered transaction gets a second store
   * write, because the second stop falls back to the payload's reference.
   */
  lemma RepeatedStopWritesTwice(reg: Registry, id: string, token: nat, uid: JVal, n: int, t: Instant, defaultSoc: real)
    requires Current(reg, id, token) && n != 0
    ensures var req := StopTransaction(Some(JNum(n as real)), None);
      var first := Handle(reg, id, token, CallFrame(uid, req), t, defaultSoc);
      var second := Handle(first.reg, id, token, CallFrame(uid, req), t, defaultSoc);
      second.store == [Heartbeat(id), CloseTx(JNum(n as real), 0.0)] &&
      |first.store| == 2
  {
  }

  /**
   * The transaction and the status are independent in the code: a session
   * can be Charging without any transaction.
   */
  lemma ChargingWithoutTransaction(reg: Registry, id: string, token: nat, uid: JVal, t: Instant, defaultSoc: real)
    requires Current(reg, id, token) && !HasTx(reg.stations[id].state)
    ensures var r := Handle(reg, id, token, CallFrame(uid, StatusNotification("Charging")), t, defaultSoc);
      r.reg.stations[id].state.status == "Charging" && !HasTx(r.reg.stations[id].state)
  {
  }

  /** Actions the server does not handle get no answer from it at all. */
  lemma UnhandledGetsNoReply(reg: Registry, id: string, token: nat, uid: JVal, t: Instant, defaultSoc: real)
    requires Current(reg, id, token)
    ensures var r := Handle(reg, id, token, CallFrame(uid, Unhandled), t, defaultSoc);
      r.out == [] && r.reg == reg && r.store == [Heartbeat(id)]
  {
    var e := reg.stations[id];
    assert reg.stations[id := e] == reg.stations;
  }

  /**
   * MeterValues always answers `{}`. The last sample set's first energy
   * reading becomes the session energy and restarts the simulation clock;
   * its first SoC reading becomes the state of charge.
   */
  lemma MeterValuesRule(reg: Registry, id: string, token: nat, uid: JVal, mv: seq<seq<Sample>>, t: Instant, defaultSoc: real)
    requires Current(reg, id, token) && |mv| > 0
    ensures Handle(reg, id, token, CallFrame(uid, MeterValues(mv)), t, defaultSoc).out == [Reply(uid, JObj(map[]))]
    ensures var s0 := reg.stations[id].state;
      var latest := mv[|mv| - 1];
      var s := After(reg, id, token, uid, MeterValues(mv), t, defaultSoc);
      ((forall i :: 0 <= i < |latest| ==> !IsEnergySample(latest[i])) ==>
         s.energy == s0.energy && s.lastSimTime == s0.lastSimTime) &&
      (forall i :: FirstAt(latest, IsEnergySample, i) ==> s.energy == latest[i].value && s.lastSimTime == t.ms)
    ensures var s0 := reg.stations[id].state;
      var latest := mv[|mv| - 1];
      var s := After(reg, id, token, uid, MeterValues(mv), t, defaultSoc);
      ((forall i :: 0 <= i < |latest| ==> !IsSocSample(latest[i])) ==> s.soc == s0.soc) &&
      (forall i :: FirstAt(latest, IsSocSample, i) ==> s.soc == latest[i].value)
  {
    var latest := mv[|mv| - 1];
    var e := FirstWhere(latest, IsEnergySample);
    var c := FirstWhere(latest, IsSocSample);
    forall i | FirstAt(latest, IsEnergySample, i)
      ensures e == Some(i)
    {
    }
    forall i | FirstAt(latest, IsSocSample, i)
      ensures c == Some(i)
    {
    }
  }

  /** SetInitialSoC is honoured only while no transaction is open and the station is not charging. */
  lemma InitialSocRule(reg: Registry, id: string, token: nat, uid: JVal, soc: real, t: Instant, defaultSoc: real)
    requires Current(reg, id, token)
    ensures var s0 := reg.stations[id].state;
      var s := After(reg, id, token, uid, SetInitialSoC(soc), t, defaultSoc);
      (!HasTx(s0) && s0.status != "Charging" ==> s == s0.(initialSoc := Some(soc), soc := soc)) &&
      (HasTx(s0) || s0.status == "Charging" ==> s == s0)
  {
  }

  /**
   * A resumed station's BootNotification keeps the session's status and
   * schedules a RestoreSession when a transaction is open; a first boot
   * makes the station Available. Either way the reply carries interval 300.
   */
  lemma BootRule(reg: Registry, id: string, token: nat, uid: JVal, vendor: Option<JVal>, model: Option<JVal>, t: Instant, defaultSoc: real)
    requires Current(reg, id, token)
    ensures var e := reg.stations[id];
      var r := Handle(reg, id, token, CallFrame(uid, BootNotification(vendor, model)), t, defaultSoc);
      var s := r.reg.stations[id].state;
      s.status == (if e.ws.value.reconnected then e.state.status else "Available") &&
      s.vendor == vendor && s.model == model && s.transactionId == e.state.transactionId &&
      (r.later == [RestoreAfterBoot(id, token)] <==> e.ws.value.reconnected && HasTx(e.state)) &&
      (r.later != [] ==> r.later == [RestoreAfterBoot(id, token)]) &&
      |r.out| == 1 && r.out[0].Reply? && r.out[0].id == uid &&
      r.out[0].payload.fields["interval"] == JNum(300.0)
  {
  }

  /**
   * An operator's RemoteStopTransaction for a station without a socket
   * still closes the session locally: no transaction, Available, state of
   * charge and energy back to baseline, and the store is told Available.
   */
  lemma OfflineStopCloses(reg: Registry, id: string, params: Option<JVal>, defaultSoc: real)
    requires id in reg.stations && reg.stations[id].ws.None? && !Nullish(params)
    ensures var r := Relay(reg, id, REMOTE_STOP, params, defaultSoc);
      var s := r.reg.stations[id].state;
      s.transactionId == None && s.status == "Available" && s.soc == defaultSoc &&
      s.initialSoc == Some(defaultSoc) && s.energy == 0.0 && r.reg.stations[id].ws == None &&
      r.out == [] && r.store[|r.store| - 1] == SetStationStatus(id, "Available")
  {
  }

  /** Any other operator command for a station without a socket changes nothing. */
  lemma OfflineOtherCommandIgnored(reg: Registry, id: string, command: string, params: Option<JVal>, defaultSoc: real)
    requires !(id in reg.stations && reg.stations[id].ws.Some?) && command != REMOTE_STOP
    ensures Relay(reg, id, command, params, defaultSoc) == Idle(reg)
  {
  }

  /**
   * Force stop of a connected station: the transaction closes at once (with
   * the server's energy written to the store), the stop is sent to the
   * station, and the delayed settle brings the session back to Available
   * with energy and state of charge at baseline.
   */
  lemma OnlineStopThenSettle(reg: Registry, id: string, params: Option<JVal>, defaultSoc: real)
    requires id in reg.stations && reg.stations[id].ws.Some? && !Nullish(params)
    ensures var e := reg.stations[id];
      var r := Relay(reg, id, REMOTE_STOP, params, defaultSoc);
      var s := r.reg.stations[id].state;
      s.transactionId == None && s.status == "Finishing" &&
      |r.out| == 2 && r.out[0] == r.out[1] && r.out[0].Request? && r.out[0].action == REMOTE_STOP &&
      (HasTx(e.state) ==> r.store == [CloseTx(TxJson(e.state.transactionId), e.state.energy)]) &&
      (!HasTx(e.state) <==> r.store == []) &&
      |r.later| == 1 && r.later[0].SettleForceStop? && r.later[0].origin == e.origin &&
      var settled := Settle(r.reg, id, e.origin, r.later[0].transactionId, defaultSoc);
      var s2 := settled.reg.stations[id].state;
      s2.transactionId == None && s2.status == "Available" && s2.energy == 0.0 && s2.soc == defaultSoc &&
      |settled.out| == 1
  {
  }

  /** The RemoteStart payload carries the operator's idTag, or REMOTE_USER when none is given. */
  lemma OnlineStartForwarded(reg: Registry, id: string, params: Option<JVal>, defaultSoc: real)
    requires id in reg.stations && reg.stations[id].ws.Some? && !Nullish(params)
    ensures var r := Relay(reg, id, REMOTE_START, params, defaultSoc);
      r.reg == reg && r.store == [] &&
      r.out == [Request(REMOTE_START, JObj(map["idTag" := Or(Field(params, "idTag"), JStr("REMOTE_USER")),
                                                 "connectorId" := JNum(1.0)]))]
  {
  }

  /** An entry that left the registry is not touched by its delayed settle. */
  lemma SettleAfterReplacementIgnored(reg: Registry, id: string, origin: nat, tx: JVal, now: int, token: nat, defaultSoc: real)
    requires Valid(reg) && Current(reg, id, token) && reg.stations[id].origin == origin &&
             reg.stations[id].state.status !in KEPT_ON_CLOSE && !ObserverPath(id)
    ensures var c := Close(reg, id, token).reg;
      var n := Connect(c, id, false, now, defaultSoc).reg;
      Settle(n, id, origin, tx, defaultSoc) == Idle(n)
  {
  }

  /**
   * A fresh connection drops the entry but leaves its socket open, so the
   * entry's pending settle still resets the dropped record and sends the
   * RemoteStop on that socket; a RestoreSession then carries the reset record.
   */
  lemma ReplacedSocketStillSettles(reg: Registry, id: string, token: nat, origin: nat, tx: JVal, now: int, defaultSoc: real)
    requires Valid(reg) && Current(reg, id, token) && reg.stations[id].origin == origin &&
             reg.stations[id].state.status !in RESUMABLE && !ObserverPath(id)
    ensures var n := Connect(reg, id, false, now, defaultSoc).reg;
      var r := Settle(n, id, origin, tx, defaultSoc);
      r.out == [Request(REMOTE_STOP, JObj(map["transactionId" := tx]))] &&
      token in r.reg.detached && r.reg.detached[token].state == Settled(reg.stations[id].state, defaultSoc) &&
      Restore(r.reg, id, token).out ==
        [Request("DataTransfer", SimulatorTransfer("RestoreSession", RestoreSnapshot(Settled(reg.stations[id].state, defaultSoc))))]
  {
    var n := Connect(reg, id, false, now, defaultSoc).reg;
    assert HoldsOrigin(n, token, origin);
  }

  /**
   * A fresh connection leaves the old socket open, so a RestoreSession the
   * old socket's boot scheduled still goes out on it, with the old record.
   */
  lemma ReplacedSocketStillRestores(reg: Registry, id: string, token: nat, now: int, defaultSoc: real)
    requires Valid(reg) && Current(reg, id, token) && reg.stations[id].state.status !in RESUMABLE && !ObserverPath(id)
    ensures var n := Connect(reg, id, false, now, defaultSoc).reg;
      !Current(n, id, token) &&
      Restore(n, id, token).out ==
        [Request("DataTransfer", SimulatorTransfer("RestoreSession", RestoreSnapshot(reg.stations[id].state)))]
  {
  }

  /** Once the replaced socket has closed, its pending RestoreSession sends nothing. */
  lemma ClosedSocketRestoresNothing(reg: Registry, id: string, token: nat, now: int, defaultSoc: real)
    requires Valid(reg) && Current(reg, id, token) && !ObserverPath(id)
    ensures var n := Connect(reg, id, false, now, defaultSoc).reg;
      Restore(Close(n, id, token).reg, id, token).out == []
  {
  }
}

=== FILE: simulation.dfy ===
/**
 * The server's one-second simulation tick (server.js): every charging
 * session gains energy at its speed's power, its state of charge follows
 * and is clamped to the target, and every connected station gets a
 * SyncState snapshot.
 */
module Simulation {
  import opened Common
  import opened Json
  import Clock
  import Text
  import opened Frames
  import opened Server

  /** Charging power in kW; a missing or unknown speed charges at the normal rate. */
  function PowerOf(speed: Option<JVal>): (kw: real)
    ensures kw == 7.2 || kw == 14.4 || kw == 21.6
    ensures speed == Some(JStr("fast")) <==> kw == 14.4
    ensures speed == Some(JStr("lightning")) <==> kw == 21.6
  {
    if speed == Some(JStr("fast")) then 14.4
    else if speed == Some(JStr("lightning")) then 21.6
    else 7.2
  }

  /** Phases energised at each speed (one per 7.2 kW). */
  function PhasesOf(speed: string): (n: nat)
    ensures n == (PowerOf(Some(JStr(speed))) / 7.2).Floor
  {
    if speed == "fast" then 2 else if speed == "lightning" then 3 else 1
  }

  /** `state.targetSoc || 100`. */
  function TargetLimit(s: Session): (t: real)
    ensures s.targetSoc.Some? && s.targetSoc.value != 0.0 ==> t == s.targetSoc.value
    ensures !(s.targetSoc.Some? && s.targetSoc.value != 0.0) ==> t == 100.0
  {
    if s.targetSoc.Some? && s.targetSoc.value != 0.0 then s.targetSoc.value else 100.0
  }

  lemma FloorBounds(x: real)
    ensures (x.Floor as real) <= x < (x.Floor as real) + 1.0
  {
  }

  /** `x.toFixed(0)` read back as a number: the nearest integer, halves away from zero. */
  function ToFixed0(x: real): (n: int)
    ensures x - 0.5 <= n as real <= x + 0.5
    ensures x - 0.5 == n as real ==> x < 0.0
    ensures x + 0.5 == n as real ==> x >= 0.0
  {
    if x >= 0.0 then FloorBounds(x + 0.5); (x + 0.5).Floor
    else FloorBounds(-x + 0.5); -((-x + 0.5).Floor)
  }

  lemma ToFixed0Monotone(x: real, y: real)
    requires x <= y
    ensures ToFixed0(x) <= ToFixed0(y)
  {
    if x >= 0.0 {
      FloorBounds(x + 0.5); FloorBounds(y + 0.5);
    } else if y >= 0.0 {
      FloorBounds(-x + 0.5); FloorBounds(y + 0.5);
    } else {
      FloorBounds(-x + 0.5); FloorBounds(-y + 0.5);
    }
  }

  lemma ToFixed0OfInteger(n: int)
    ensures ToFixed0(n as real) == n
  {
    FloorBounds(n as real + 0.5);
    FloorBounds(-(n as real) + 0.5);
  }

  /** The state of charge a session would have from its start and energy, before clamping. */
  function Projected(s: Session, energy: real, defaultSoc: real): real {
    var start := if s.initialSoc.Some? && s.initialSoc.value != 0.0 then s.initialSoc.value else defaultSoc;
    start + energy / 1000.0 / BATTERY_CAPACITY * 100.0
  }

  function Min(a: real, b: real): real {
    if a <= b then a else b
  }

  /** A charging session whose state of charge has reached its target. */
  predicate Full(s: Session) {
    s.status == "Charging" && s.soc >= TargetLimit(s)
  }

  /** Milliseconds since the session's simulation clock (`lastSimTime || now`). */
  function Elapsed(s: Session, now: int): int {
    now - (if s.lastSimTime != 0 then s.lastSimTime else now)
  }

  /** The energy after a charging tick, in Wh. */
  function ChargedEnergy(s: Session, now: int): real {
    s.energy + PowerOf(s.chargeSpeed) * 1000.0 * (Elapsed(s, now) as real / 1000.0 / 3600.0)
  }

  /** The unrounded state of charge after a charging tick. */
  function ChargedSoc(s: Session, now: int, defaultSoc: real): real {
    Min(Projected(s, ChargedEnergy(s, now), defaultSoc), TargetLimit(s))
  }

  /** Hours left to reach the target from `current` at the session's power. */
  function HoursLeft(s: Session, current: real): real {
    (TargetLimit(s) - current) / 100.0 * BATTERY_CAPACITY / PowerOf(s.chargeSpeed)
  }

  /** One tick of one session. */
  function TickOne(s: Session, now: int, defaultSoc: real): Session {
    if s.status != "Charging" || Full(s) then
      if Full(s) then s.(soc := TargetLimit(s), timeRemaining := "00:00:00", lastSimTime := now)
      else s.(lastSimTime := now)
    else
      var current := ChargedSoc(s, now, defaultSoc);
      s.(lastSimTime := now, energy := ChargedEnergy(s, now), soc := ToFixed0(current) as real,
         timeRemaining := Clock.FormatTimeRemaining(Clock.Finite(HoursLeft(s, current))))
  }

  datatype TickResult = TickResult(reg: Registry, out: map<string, Send>)

  /** The SyncState a connected station receives after a tick. */
  function SyncFor(s: Session): Send {
    Request("DataTransfer", SimulatorTransfer("SyncState", SyncSnapshot(s)))
  }

  /** One tick of the whole registry. */
  function Tick(reg: Registry, now: int, defaultSoc: real): (r: TickResult)
    ensures r.reg.next == reg.next && r.reg.stations.Keys == reg.stations.Keys
    ensures forall id :: id in reg.stations ==>
      r.reg.stations[id] == reg.stations[id].(state := TickOne(reg.stations[id].state, now, defaultSoc))
    ensures forall id :: id in r.out <==> id in reg.stations && reg.stations[id].ws.Some?
    ensures forall id :: id in r.out ==> r.out[id] == SyncFor(r.reg.stations[id].state)
  {
    var stations := map id | id in reg.stations :: reg.stations[id].(state := TickOne(reg.stations[id].state, now, defaultSoc));
    var out := map id | id in stations && stations[id].ws.Some? :: SyncFor(stations[id].state);
    TickResult(reg.(stations := stations), out)
  }

  // ---------------------------------------------------------------- properties

  /** A session that is not charging only has its simulation clock moved. */
  lemma IdleTick(s: Session, now: int, defaultSoc: real)
    requires s.status != "Charging"
    ensures TickOne(s, now, defaultSoc) == s.(lastSimTime := now)
  {
  }

  /** A full session is pinned to its target with nothing left to go, and gains no energy. */
  lemma FullTickPins(s: Session, now: int, defaultSoc: real)
    requires Full(s)
    ensures var s' := TickOne(s, now, defaultSoc);
      s'.soc == TargetLimit(s) && s'.timeRemaining == "00:00:00" && s'.energy == s.energy &&
      s'.transactionId == s.transactionId && s'.status == "Charging" && s'.lastSimTime == now
  {
  }

  /** Energy delivered at `kw` over `ms` milliseconds, in Wh. */
  lemma DeliveredEnergy(kw: real, ms: real)
    requires kw > 0.0
    ensures kw * 1000.0 * (ms / 1000.0 / 3600.0) == kw * ms / 3600.0
    ensures ms >= 0.0 ==> kw * ms / 3600.0 >= 0.0
  {
  }

  lemma ChargedEnergyIs(s: Session, now: int)
    ensures ChargedEnergy(s, now) == s.energy + PowerOf(s.chargeSpeed) * Elapsed(s, now) as real / 3600.0
    ensures Elapsed(s, now) >= 0 ==> ChargedEnergy(s, now) >= s.energy
  {
    DeliveredEnergy(PowerOf(s.chargeSpeed), Elapsed(s, now) as real);
  }

  /**
   * A charging tick adds the energy the speed's power delivers over the
   * elapsed time (kW times hours, in Wh), so energy never falls while the
   * clock moves forward.
   */
  lemma ChargingTickEnergy(s: Session, now: int, defaultSoc: real)
    requires s.status == "Charging" && !Full(s)
    ensures var s' := TickOne(s, now, defaultSoc);
      s'.energy == s.energy + PowerOf(s.chargeSpeed) * Elapsed(s, now) as real / 3600.0 &&
      (Elapsed(s, now) >= 0 ==> s'.energy >= s.energy) &&
      s'.lastSimTime == now && s'.transactionId == s.transactionId && s'.status == s.status
  {
    ChargedEnergyIs(s, now);
    assert TickOne(s, now, defaultSoc).energy == ChargedEnergy(s, now);
  }

  /**
   * The state of charge after a charging tick is the projection from the
   * session's start, clamped to the target and rounded; it never exceeds the
   * rounded target, and the remaining time is a clock reading.
   */
  lemma ChargingTickSoc(s: Session, now: int, defaultSoc: real)
    requires s.status == "Charging" && !Full(s)
    ensures var s' := TickOne(s, now, defaultSoc);
      s'.soc == ToFixed0(Min(Projected(s, s'.energy, defaultSoc), TargetLimit(s))) as real &&
      s'.soc <= ToFixed0(TargetLimit(s)) as real &&
      Clock.ParseClock(s'.timeRemaining).Some?
  {
    var current := ChargedSoc(s, now, defaultSoc);
    ToFixed0Monotone(current, TargetLimit(s));
    assert HoursLeft(s, current) >= 0.0;
  }

  /** Formatting no time left gives all zeroes. */
  lemma NothingLeft()
    ensures Clock.FormatTimeRemaining(Clock.Finite(0.0)) == "00:00:00"
  {
    assert Text.NatToString(0) == "0";
  }

  /** A charging tick that projects its whole-number target lands exactly on it with no time left. */
  lemma ReachingTarget(s: Session, now: int, defaultSoc: real, target: int)
    requires s.status == "Charging" && !Full(s) && TargetLimit(s) == target as real
    requires Projected(s, ChargedEnergy(s, now), defaultSoc) >= target as real
    ensures var s' := TickOne(s, now, defaultSoc);
      s'.soc == target as real && s'.timeRemaining == "00:00:00" && Full(s')
  {
    var current := ChargedSoc(s, now, defaultSoc);
    assert current == target as real;
    ToFixed0OfInteger(target);
    assert HoursLeft(s, current) == 0.0;
    NothingLeft();
  }

  /**
   * Clamping: once a charging tick projects the target (a whole number),
   * the state of charge equals it, and the next tick pins the session with
   * no energy added.
   */
  lemma ReachingTargetPins(s: Session, now: int, later: int, defaultSoc: real, target: int)
    requires s.status == "Charging" && !Full(s) && TargetLimit(s) == target as real
    requires var s' := TickOne(s, now, defaultSoc); Projected(s, s'.energy, defaultSoc) >= target as real
    ensures var s' := TickOne(s, now, defaultSoc);
      var s'' := TickOne(s', later, defaultSoc);
      s'.soc == target as real && s'.timeRemaining == "00:00:00" &&
      s''.soc == target as real && s''.energy == s'.energy && s''.timeRemaining == "00:00:00"
  {
    ReachingTarget(s, now, defaultSoc, target);
    FullTickPins(TickOne(s, now, defaultSoc), later, defaultSoc);
  }

  /** The tick never opens or closes a transaction and never changes a status. */
  lemma TickKeepsTransactions(s: Session, now: int, defaultSoc: real)
    ensures TickOne(s, now, defaultSoc).transactionId == s.transactionId
    ensures TickOne(s, now, defaultSoc).status == s.status
    ensures TickOne(s, now, defaultSoc).initialSoc == s.initialSoc
  {
  }

  /** The tick keeps the registry valid and every session coherent. */
  lemma TickPreserves(reg: Registry, now: int, defaultSoc: real)
    requires Valid(reg) && AllCoherent(reg)
    ensures Valid(Tick(reg, now, defaultSoc).reg) && AllCoherent(Tick(reg, now, defaultSoc).reg)
  {
    var r := Tick(reg, now, defaultSoc);
    forall id | id in r.reg.stations
      ensures Coherent(r.reg.stations[id].state)
    {
      var s := reg.stations[id].state;
      if s.status == "Charging" && !Full(s) {
        ChargingTickSoc(s, now, defaultSoc);
      } else if Full(s) {
        NothingLeft();
        Clock.FormatKnownIsClock(Clock.Finite(0.0));
      }
    }
  }
}

=== FILE: stations.dfy ===
/**
 * What the two browser charge points (mobile-app/public/app.js and
 * public/customer/app.js) share: the frames they send, the configuration
 * commands they answer identically, and the server confirmation they
 * both look for.
 */
module Stations {
  import opened Common
  import opened Json
  import opened Frames
  import Configuration
  import Messages

  function StatusRequest(status: string): Send {
    Request("StatusNotification", JObj(map["connectorId" := JNum(1.0), "status" := JStr(status), "errorCode" := JStr("NoError")]))
  }

  function Answer(uid: JVal, status: string): Send {
    Reply(uid, Messages.StatusOnly(status))
  }

  function StopRequest(transactionId: JVal, meterStop: real, iso: string): Send {
    Request("StopTransaction", JObj(map[
      "transactionId" := transactionId, "meterStop" := JNum(meterStop), "timestamp" := JStr(iso)]))
  }

  /** An object with `k` set only when the value is defined (`JSON.stringify` drops undefined). */
  function WithOpt(m: Obj, k: string, v: Option<JVal>): (r: Obj)
    ensures v.Some? ==> r == m[k := v.value]
    ensures v.None? ==> r == m
  {
    if v.Some? then m[k := v.value] else m
  }

  /** Array destructuring: a missing element is undefined. */
  function Item(items: seq<JVal>, i: nat): (r: Option<JVal>)
    ensures r.Some? <==> i < |items|
    ensures r.Some? ==> r.value == items[i]
  {
    if i < |items| then Some(items[i]) else None
  }

  /** A CallResult payload carrying a transaction id with an Accepted idTagInfo. */
  predicate Confirms(payload: Option<JVal>) {
    Truthy(Field(payload, "transactionId")) && Truthy(Field(payload, "idTagInfo")) &&
    Field(Field(payload, "idTagInfo"), "status") == Some(JStr("Accepted"))
  }

  /** The same keys in the same order with the same readonly flags; values may differ. */
  predicate SameKeys(c: Configuration.Config, c': Configuration.Config) {
    |c'| == |c| && forall j :: 0 <= j < |c| ==> c'[j].key == c[j].key && c'[j].readonly == c[j].readonly
  }

  /**
   * `payload.key || Object.keys(configuration)`, walked with `forEach`:
   * a truthy key list that is not an array has no `forEach` and throws.
   */
  function RequestedKeys(c: Configuration.Config, key: Option<JVal>): (r: Option<seq<JVal>>)
    ensures !Truthy(key) ==> r == Some(Configuration.AllKeys(c))
    ensures Truthy(key) && key.value.JArr? ==> r == Some(key.value.items)
    ensures Truthy(key) && !key.value.JArr? ==> r.None?
  {
    if !Truthy(key) then Some(Configuration.AllKeys(c))
    else if key.value.JArr? then Some(key.value.items)
    else None
  }

  /**
   * GetConfiguration: both lists, the known keys described and the
   * unknown ones echoed, each in request order. `None` when the handler
   * throws.
   */
  function GetConfigurationReply(c: Configuration.Config, payload: Option<JVal>): (r: Option<JVal>)
    ensures r.Some? <==> !Nullish(payload) && RequestedKeys(c, Field(payload, "key")).Some?
    ensures r.Some? ==>
      var ks := RequestedKeys(c, Field(payload, "key")).value;
      r.value == Messages.GetConfigurationPayload(
        Some(Configuration.Entries(c, Configuration.KnownNames(c, ks))),
        Some(Configuration.UnknownKeys(c, ks)))
  {
    if Nullish(payload) then None
    else match RequestedKeys(c, Field(payload, "key"))
      case None => None
      case Some(ks) =>
        Configuration.PartitionSpec(c, ks);
        var (known, unknown) := Configuration.Partition(c, ks);
        Some(Messages.GetConfigurationPayload(Some(known), Some(unknown)))
  }

  /**
   * ChangeConfiguration: the status to answer and the new store, or
   * `None` when destructuring a null or missing payload throws. The
   * store keeps its keys and flags.
   */
  function ChangeConfigurationReply(c: Configuration.Config, payload: Option<JVal>): (r: Option<(string, Configuration.Config)>)
    ensures r.Some? <==> !Nullish(payload)
    ensures r.Some? ==>
      var key := Field(payload, "key").GetOr(JNull);
      var (status, c') := Configuration.Change(c, key, Field(payload, "value").GetOr(JNull));
      r.value == (Configuration.ChangeStatusName(status), c')
    ensures r.Some? ==> SameKeys(c, r.value.1)
  {
    if Nullish(payload) then None
    else
      var key := Field(payload, "key").GetOr(JNull);
      var value := Field(payload, "value").GetOr(JNull);
      Configuration.ChangeKeepsKeys(c, key, value);
      var (status, c') := Configuration.Change(c, key, value);
      Some((Configuration.ChangeStatusName(status), c'))
  }

  /** On a store without readonly keys a change is Accepted exactly for an existing key, else NotSupported. */
  lemma WritableChangeRule(c: Configuration.Config, payload: JVal)
    requires payload != JNull && Configuration.AllWritable(c)
    ensures var r := ChangeConfigurationReply(c, Some(payload));
      var key := Field(Some(payload), "key").GetOr(JNull);
      r.Some? && r.value.0 == (if Configuration.Has(c, key) then "Accepted" else "NotSupported") &&
      Configuration.AllWritable(r.value.1)
  {
    var key := Field(Some(payload), "key").GetOr(JNull);
    Configuration.WritableNeverRejects(c, key, Field(Some(payload), "value").GetOr(JNull));
  }

  /**
   * An explicitly empty key list reports nothing here, because an empty
   * array is truthy in JavaScript. The Python station reports every key
   * for the same request.
   */
  lemma EmptyKeyListReportsNothing(c: Configuration.Config)
    ensures GetConfigurationReply(c, Some(JObj(map["key" := JArr([])]))) ==
      Some(Messages.GetConfigurationPayload(Some([]), Some([])))
  {
  }
}

=== FILE: tags.dfy ===
/**
 * The HMI tag-list generator (generate_tags.js): one tag per station and
 * variable, addressed on the OPC UA server by the same name. The station
 * list is a parameter; reading it from the database and writing the
 * workbook are left out.
 */
module Tags {
  import opened Common
  import Text

  const WINCC_CONNECTION_NAME: string := "Connection_1"
  const OPC_UA_SERVER_STRING: string := "opc.tcp://192.168.1.8:4840/UA/OcppCsmsServer"
  const HEADERS: seq<string> := ["Name", "Path", "Connection", "Access Method", "Address", "DataType"]
  const COLUMNS: nat := 6

  datatype VarDef = VarDef(name: string, nodeType: string)

  /** The variables every station exposes. */
  const VARIABLE_DEFS: seq<VarDef> := [
    VarDef("Status", "String"), VarDef("ChargeSpeed", "String"), VarDef("Vendor", "String"),
    VarDef("Model", "String"), VarDef("TransactionID", "Int32"), VarDef("SoC", "Double"),
    VarDef("Energy_kWh", "Double"), VarDef("Power_Total", "Double"), VarDef("ReActivePower_Total", "Double"),
    VarDef("PF", "Double"), VarDef("Current_Total", "Double"), VarDef("Current_a", "Double"),
    VarDef("Current_b", "Double"), VarDef("Current_c", "Double"), VarDef("Voltage_Average", "Double"),
    VarDef("Voltage_ab", "Double"), VarDef("Voltage_bc", "Double"), VarDef("Voltage_ac", "Double"),
    VarDef("RemoteStart_Trigger", "Boolean"), VarDef("RemoteStop_Trigger", "Boolean"),
    VarDef("RemoteStart_IdTag", "String")]

  /** The OPC UA node type to the HMI data type; anything unknown becomes Real. */
  function MapDataType(nodeType: string): (r: string)
    ensures r in {"Real", "DInt", "Bool", "WString"}
    ensures r == "DInt" <==> nodeType == "Int32"
    ensures r == "Bool" <==> nodeType == "Boolean"
    ensures r == "WString" <==> nodeType == "String"
    ensures r == "Real" <==> nodeType !in {"Int32", "Boolean", "String"}
  {
    match nodeType
    case "Double" => "Real"
    case "Int32" => "DInt"
    case "Boolean" => "Bool"
    case "String" => "WString"
    case _ => "Real"
  }

  function TagName(stationId: string, def: VarDef): string {
    stationId + "_" + def.name
  }

  /** One sheet row: the tag name, an empty path, the connection, the access method, the node address and the type. */
  function TagRow(stationId: string, def: VarDef): (row: seq<string>)
    ensures |row| == COLUMNS
    ensures row[0] == TagName(stationId, def) && Text.StartsWith(row[0], stationId)
    ensures row[4] == "ns=" + OPC_UA_SERVER_STRING + ";s=" + row[0]
    ensures row[5] == MapDataType(def.nodeType)
  {
    var name := TagName(stationId, def);
    assert name[..|stationId|] == stationId;
    [name, "", WINCC_CONNECTION_NAME, "<Absolute Access>", "ns=" + OPC_UA_SERVER_STRING + ";s=" + name, MapDataType(def.nodeType)]
  }

  function StationRows(stationId: string, defs: seq<VarDef>): (rows: seq<seq<string>>)
    ensures |rows| == |defs|
    ensures forall j :: 0 <= j < |defs| ==> rows[j] == TagRow(stationId, defs[j])
  {
    seq(|defs|, j requires 0 <= j < |defs| => TagRow(stationId, defs[j]))
  }

  /** The rows for every station, station by station, each in variable order. */
  function DataRows(stations: seq<string>, defs: seq<VarDef>): seq<seq<string>> {
    if stations == [] then [] else StationRows(stations[0], defs) + DataRows(stations[1..], defs)
  }

  /** The sheet for any variable list, or `None` when there are no stations and no workbook is written. */
  function SheetOf(stations: seq<string>, defs: seq<VarDef>): (r: Option<seq<seq<string>>>)
    ensures r.None? <==> stations == []
    ensures r.Some? ==> |r.value| >= 1 && r.value[0] == HEADERS
  {
    if |stations| == 0 then None else Some([HEADERS] + DataRows(stations, defs))
  }

  function Sheet(stations: seq<string>): Option<seq<seq<string>>> {
    SheetOf(stations, VARIABLE_DEFS)
  }

  lemma MulStep(i: nat, n: nat, j: nat)
    requires i > 0
    ensures n + ((i - 1) * n + j) == i * n + j
  {
  }

  lemma MulBound(i: nat, m: nat, n: nat, j: nat)
    requires i < m && j < n
    ensures i * n + j < m * n
  {
    assert i * n + n == (i + 1) * n <= m * n;
  }

  lemma {:induction false} DataRowsLength(stations: seq<string>, defs: seq<VarDef>)
    ensures |DataRows(stations, defs)| == |stations| * |defs|
    ensures forall k :: 0 <= k < |DataRows(stations, defs)| ==> |DataRows(stations, defs)[k]| == COLUMNS
    decreases |stations|
  {
    if stations != [] {
      DataRowsLength(stations[1..], defs);
      assert |defs| + |stations[1..]| * |defs| == (|stations[1..]| + 1) * |defs|;
    }
  }

  /** Row `i * |defs| + j` belongs to station `i` and variable `j`. */
  lemma {:induction false} DataRowsAt(stations: seq<string>, defs: seq<VarDef>, i: nat, j: nat)
    requires i < |stations| && j < |defs|
    ensures i * |defs| + j < |DataRows(stations, defs)|
    ensures DataRows(stations, defs)[i * |defs| + j] == TagRow(stations[i], defs[j])
    decreases i
  {
    DataRowsLength(stations, defs);
    MulBound(i, |stations|, |defs|, j);
    var rest := stations[1..];
    var head := StationRows(stations[0], defs);
    var tail := DataRows(rest, defs);
    var rows := DataRows(stations, defs);
    assert rows == head + tail;
    if i == 0 {
      assert i * |defs| + j == j;
      assert rows[j] == head[j];
    } else {
      var k := (i - 1) * |defs| + j;
      DataRowsAt(rest, defs, i - 1, j);
      MulStep(i, |defs|, j);
      assert rows[|head| + k] == tail[k];
      assert stations[i] == rest[i - 1];
    }
  }

  /** The sheet is the header plus one six-column row per station and variable. */
  lemma SheetSize(stations: seq<string>, defs: seq<VarDef>)
    requires stations != []
    ensures var sheet := SheetOf(stations, defs).value;
      |sheet| == 1 + |stations| * |defs| && forall k :: 0 <= k < |sheet| ==> |sheet[k]| == COLUMNS
  {
    DataRowsLength(stations, defs);
    var rows := DataRows(stations, defs);
    var sheet := SheetOf(stations, defs).value;
    forall k | 0 <= k < |sheet|
      ensures |sheet[k]| == COLUMNS
    {
      if k > 0 {
        assert sheet[k] == rows[k - 1];
      }
    }
  }

  /** The sheet was written and its row `k` is `row`. */
  predicate RowIs(sheet: Option<seq<seq<string>>>, k: int, row: seq<string>) {
    sheet.Some? && 0 <= k < |sheet.value| && sheet.value[k] == row
  }

  /** Row `1 + i * |defs| + j` of the sheet is the tag of station `i` and variable `j`. */
  lemma SheetRowAt(stations: seq<string>, defs: seq<VarDef>, i: nat, j: nat)
    requires i < |stations| && j < |defs|
    ensures RowIs(SheetOf(stations, defs), 1 + i * |defs| + j, TagRow(stations[i], defs[j]))
  {
    DataRowsAt(stations, defs, i, j);
    var sheet := SheetOf(stations, defs).value;
    assert sheet == [HEADERS] + DataRows(stations, defs);
    var k := i * |defs| + j;
    assert sheet[1 + k] == DataRows(stations, defs)[k];
  }

  /** The twenty-one variables: five text, one integer, thirteen real and two flags. */
  lemma TypeCounts()
    ensures |VARIABLE_DEFS| == 21
    ensures forall d :: d in VARIABLE_DEFS ==> d.nodeType in {"String", "Int32", "Double", "Boolean"}
  {
  }
}

=== FILE: text.dfy ===
/**
 * Decimal digits and the few string operations the system uses:
 * `toString`, `padStart(2, '0')`, `includes`, `startsWith`, `toLowerCase`
 * (ASCII letters only) and `parseFloat`/`parseInt` on plain decimal text.
 */
module Text {
  import opened Common

  predicate IsDigit(c: char) {
    '0' <= c <= '9'
  }

  predicate AllDigits(s: string) {
    forall i :: 0 <= i < |s| ==> IsDigit(s[i])
  }

  function DigitChar(d: nat): (c: char)
    requires d < 10
    ensures IsDigit(c)
  {
    (d + '0' as int) as char
  }

  function DigitValue(c: char): (d: nat)
    requires IsDigit(c)
    ensures d < 10
  {
    c as int - '0' as int
  }

  lemma DigitRoundTrip(d: nat)
    requires d < 10
    ensures DigitValue(DigitChar(d)) == d
  {
  }

  /** Decimal rendering of a natural number, most significant digit first. */
  function NatToString(n: nat): (s: string)
    ensures |s| >= 1 && AllDigits(s)
    ensures n < 10 <==> |s| == 1
    decreases n
  {
    if n < 10 then [DigitChar(n)] else NatToString(n / 10) + [DigitChar(n % 10)]
  }

  /** Value of a digit string, read most significant digit first. */
  function DigitsValue(s: string): nat
    requires AllDigits(s)
  {
    if |s| == 0 then 0 else DigitsValue(s[..|s| - 1]) * 10 + DigitValue(s[|s| - 1])
  }

  /** A non-empty digit string, read as a natural number. */
  function ParseNat(s: string): Option<nat> {
    if |s| > 0 && AllDigits(s) then Some(DigitsValue(s)) else None
  }

  lemma {:induction false} DigitsValueOfNatToString(n: nat)
    ensures DigitsValue(NatToString(n)) == n
    decreases n
  {
    if n >= 10 {
      var s := NatToString(n);
      assert s[..|s| - 1] == NatToString(n / 10);
      DigitsValueOfNatToString(n / 10);
      DigitRoundTrip(n % 10);
    } else {
      DigitRoundTrip(n);
    }
  }

  /** Reading back the rendering of a natural number gives the number. */
  lemma ParseNatToString(n: nat)
    ensures ParseNat(NatToString(n)) == Some(n)
  {
    DigitsValueOfNatToString(n);
  }

  /** Leading zeros do not change the value of a digit string. */
  lemma {:induction false} DigitsValueLeadingZero(s: string)
    requires AllDigits(s)
    ensures AllDigits("0" + s) && DigitsValue("0" + s) == DigitsValue(s)
    decreases |s|
  {
    if |s| > 0 {
      var t := "0" + s;
      assert t[..|t| - 1] == "0" + s[..|s| - 1];
      DigitsValueLeadingZero(s[..|s| - 1]);
    }
  }

  /** `n.toString().padStart(2, '0')`: at least two digits, value `n`. */
  function Pad2(n: nat): (s: string)
    ensures |s| >= 2 && AllDigits(s) && DigitsValue(s) == n
    ensures n < 100 ==> |s| == 2
  {
    DigitsValueOfNatToString(n);
    if n < 10 then
      DigitsValueLeadingZero(NatToString(n));
      "0" + NatToString(n)
    else
      assert n / 10 >= 1;
      assert n < 100 ==> |NatToString(n / 10)| == 1;
      NatToString(n)
  }

  /** JavaScript `String(i)` for an integer value. */
  function IntToString(i: int): (s: string)
    ensures |s| >= 1
    ensures i >= 0 ==> s == NatToString(i)
    ensures i < 0 ==> s == "-" + NatToString(-i)
  {
    if i < 0 then "-" + NatToString(-i) else NatToString(i)
  }

  predicate StartsWith(s: string, prefix: string) {
    |prefix| <= |s| && s[..|prefix|] == prefix
  }

  predicate OccursAt(s: string, t: string, i: nat) {
    i + |t| <= |s| && s[i..i + |t|] == t
  }

  /** JavaScript `s.includes(t)` / Python `t in s`. */
  function Contains(s: string, t: string): (b: bool)
    decreases |s|
  {
    if |t| > |s| then false
    else if StartsWith(s, t) then true
    else |s| > 0 && Contains(s[1..], t)
  }

  /** `Contains` holds exactly when `t` occurs at some position of `s`. */
  lemma {:induction false} ContainsIff(s: string, t: string)
    ensures Contains(s, t) <==> exists i: nat :: OccursAt(s, t, i)
    decreases |s|
  {
    if |t| > |s| {
    } else if StartsWith(s, t) {
      assert OccursAt(s, t, 0);
    } else if |s| == 0 {
    } else {
      ContainsIff(s[1..], t);
      if Contains(s[1..], t) {
        var i: nat :| OccursAt(s[1..], t, i);
        assert s[i + 1..i + 1 + |t|] == s[1..][i..i + |t|];
        assert OccursAt(s, t, i + 1);
      }
      if exists i: nat :: OccursAt(s, t, i) {
        var i: nat :| OccursAt(s, t, i);
        assert i != 0;
        assert s[1..][i - 1..i - 1 + |t|] == s[i..i + |t|];
        assert OccursAt(s[1..], t, i - 1);
      }
    }
  }

  function LowerChar(c: char): char {
    if 'A' <= c <= 'Z' then (c as int + 32) as char else c
  }

  /** `toLowerCase()` on ASCII letters; every other character is kept. */
  function ToLower(s: string): (r: string)
    ensures |r| == |s|
    ensures forall i :: 0 <= i < |s| ==> r[i] == LowerChar(s[i])
  {
    seq(|s|, i requires 0 <= i < |s| => LowerChar(s[i]))
  }

  lemma ToLowerIdempotent(s: string)
    ensures ToLower(ToLower(s)) == ToLower(s)
  {
  }

  /** The longest prefix of `s` made of digits. */
  function LeadingDigits(s: string): (d: string)
    ensures AllDigits(d) && StartsWith(s, d)
    ensures |d| < |s| ==> !IsDigit(s[|d|])
    decreases |s|
  {
    if |s| > 0 && IsDigit(s[0]) then [s[0]] + LeadingDigits(s[1..]) else ""
  }

  function Pow10(k: nat): (p: nat)
    ensures p >= 1
  {
    if k == 0 then 1 else 10 * Pow10(k - 1)
  }

  /**
   * `parseFloat` on decimal text: an optional sign, digits, an optional
   * fraction; the longest such prefix is read and the rest ignored.
   * `None` plays the part of NaN.
   */
  function ParseFloat(s: string): Option<real> {
    var negative := |s| > 0 && s[0] == '-';
    var body := if |s| > 0 && (s[0] == '-' || s[0] == '+') then s[1..] else s;
    var whole := LeadingDigits(body);
    var rest := body[|whole|..];
    var frac := if |rest| > 0 && rest[0] == '.' then LeadingDigits(rest[1..]) else "";
    if |whole| + |frac| == 0 then None
    else
      var magnitude := DigitsValue(whole) as real + DigitsValue(frac) as real / Pow10(|frac|) as real;
      Some(if negative then -magnitude else magnitude)
  }

  /** `parseInt` on decimal text: an optional sign and the leading digits. */
  function ParseInt(s: string): Option<int> {
    var negative := |s| > 0 && s[0] == '-';
    var body := if |s| > 0 && (s[0] == '-' || s[0] == '+') then s[1..] else s;
    var whole := LeadingDigits(body);
    if |whole| == 0 then None
    else
      var magnitude: int := DigitsValue(whole);
      Some(if negative then -magnitude else magnitude)
  }

  lemma LeadingDigitsOfDigits(s: string)
    requires AllDigits(s)
    ensures LeadingDigits(s) == s
  {
    if |s| > 0 {
      LeadingDigitsOfDigits(s[1..]);
    }
  }

  /** `parseFloat(String(i)) === i` for every integer `i`. */
  lemma ParseFloatIntToString(i: int)
    ensures ParseFloat(IntToString(i)) == Some(i as real)
  {
    var n: nat := if i < 0 then -i else i;
    var digits := NatToString(n);
    LeadingDigitsOfDigits(digits);
    DigitsValueOfNatToString(n);
    if i < 0 {
      assert IntToString(i)[1..] == digits;
    } else {
      assert IntToString(i) == digits;
    }
  }

  /** `parseInt(String(i)) === i` for every integer `i`. */
  lemma ParseIntIntToString(i: int)
    ensures ParseInt(IntToString(i)) == Some(i)
  {
    var n: nat := if i < 0 then -i else i;
    var digits := NatToString(n);
    LeadingDigitsOfDigits(digits);
    DigitsValueOfNatToString(n);
    if i < 0 {
      assert IntToString(i)[1..] == digits;
    }
  }

  /**
   * JavaScript `Number(s)` on decimal text: the empty string is 0, a whole
   * string of the form sign? digits (. digits)? is its value, anything else
   * is NaN (`None`).
   */
  function NumberOf(s: string): Option<real> {
    if s == "" then Some(0.0)
    else
      var body := if s[0] == '-' || s[0] == '+' then s[1..] else s;
      var whole := LeadingDigits(body);
      var rest := body[|whole|..];
      var numeral :=
        (rest == "" && |whole| > 0) ||
        (|rest| > 0 && rest[0] == '.' && AllDigits(rest[1..]) && |whole| + |rest| > 1);
      if numeral then ParseFloat(s) else None
  }

  /** `Number(String(i)) === i` for every integer `i`. */
  lemma NumberOfIntToString(i: int)
    ensures NumberOf(IntToString(i)) == Some(i as real)
  {
    var n: nat := if i < 0 then -i else i;
    LeadingDigitsOfDigits(NatToString(n));
    ParseFloatIntToString(i);
    if i < 0 {
      assert IntToString(i)[1..] == NatToString(n);
    }
  }
}
